=== FILE: README.md ===
# zola-local chat store, in Dafny

This project models the local-first core of the zola-local chat application:
the IndexedDB chat and message repositories and the React providers that wrap
them with optimistic updates and rollback, the daily usage counters, file
validation, the localStorage manager with the preference and user stores, the
session path parser, chat drafts, the client-side API helpers, the chat
operations hook, the compatibility API routes, and the decision logic of the
chat preview panel.

Everything is modelled as pure functions over immutable values. Time, fresh
ids, the result of each storage read or write, and each `fetch` reply are
parameters, so every operation is deterministic:

- timestamps are integer milliseconds; a UTC calendar day travels alongside as
  `Common.Instant(ms, utc)`;
- the configuration module `lib/config` is a `Common.Config` value
  (default model, free models, limits, alert threshold, default system prompt);
- JSON bodies are the `Common.Json` datatype, with JavaScript truthiness,
  `||` and `??` written out;
- `lib/chat-store/persist` is not part of this model: a write is modelled as
  the value handed to it, and a read as an input describing what came back;
- localStorage is a `map<string, Stored>` and is present only when a window is;
- `Array.prototype.sort` is stable, so every sort is the stable insertion sort
  `Seqs.SortBy`; descending orders sort ascending on the negated key.

Modules follow the source files: `ChatsApi`, `ChatsProvider`, `MessagesApi`,
`MessagesProvider`, `Usage`, `FileHandling`, `LocalStorage`,
`PreferencesProvider`, `UserStore` (with `lib/user/api.ts`), `Session`,
`ChatDraft`, `ClientApi` (`lib/api.ts`), `ChatOperations`,
`PreferencesRoutes` (both preference routes), `ChatRoutes` (create-chat,
toggle-chat-pin, update-chat-model, create-guest, rate-limits) and
`PreviewPanel`; `Common` and `Seqs` hold shared definitions.

## Model

| member | source | states |
|---|---|---|
| ChatsApi.GetCachedChats | lib/chat-store/chats/api.ts:15-41 | the result is a permutation of the records read, ordered newest first by `updated_at || created_at || 0`; a single record becomes a one-element list and an empty or failed read gives the empty list |
| ChatsApi.GetCachedChatsStable | lib/chat-store/chats/api.ts:26-30 | chats with the same recency time keep the order in which they were read (the sort is stable) |
| ChatsApi.UpdateChatTitle | lib/chat-store/chats/api.ts:43-53 | the written list has the cached list's length and order; each chat with the id gets the new title and `updated_at = now`, every other chat is unchanged |
| ChatsApi.DeleteChat | lib/chat-store/chats/api.ts:55-60 | the written list is the cached list with the chats of that id left out: the others keep their cached order (a subsequence) and each keeps as many copies as the read delivered, still newest first; it equals the cached list when no chat has the id |
| ChatsApi.WithoutId | lib/chat-store/chats/api.ts:58 | `filter(c => c.id !== id)`: no kept chat has the id, every other chat is kept in order and with its number of copies, a list without the id is returned unchanged, and a newest-first list stays newest first |
| ChatsApi.DeleteChatIdempotent | lib/chat-store/chats/api.ts:55-60 | deleting the same id from the list just written writes the same list again |
| ChatsApi.GetChat | lib/chat-store/chats/api.ts:62-65 | succeeds exactly on an array read; the result is the first record of the read with the id (none before it has the id), or null exactly when no record has it |
| ChatsApi.FindById | lib/chat-store/chats/api.ts:64 | `find`: the first chat of the list with the id, and nothing exactly when no chat has it |
| ChatsApi.FindAfterMapWhere | lib/chat-store/chats/api.ts:43-65 | after the chats with an id are replaced by an id-keeping update, the first chat with that id is the update of the one found before, and nothing when there was none |
| ChatsApi.RenameThenGetChat | lib/chat-store/chats/api.ts:43-65 | getChat on the list updateChatTitle wrote succeeds, finds a chat exactly when a record read had the id, and that chat is the one found before with the new title and `updated_at = now` |
| ChatsApi.ModelThenGetChat | lib/chat-store/chats/api.ts:62-119 | after a successful updateChatModel, getChat finds a chat exactly when a record had the id, with the new model and its `updated_at` as before |
| ChatsApi.CreateChat | lib/chat-store/chats/api.ts:72-90 | the record written and the id returned are the fresh id; title, model, user and system prompt as given, created now, with no update time, no project and no pin |
| ChatsApi.UpdateChatModel | lib/chat-store/chats/api.ts:92-119 | writes only on an ok reply; then only the model of the matching chats changes and `updated_at` is kept; otherwise the error text is the reply's `error` or the status line, or the network error; a body that does not parse throws its SyntaxError, and a failed reply whose body is `null` throws the TypeError of reading `error` |
| ChatsApi.ToggleChatPin | lib/chat-store/chats/api.ts:121-146 | writes only on an ok reply; the matching chats get the pin flag, a pin time of now when pinned and none when unpinned, and nothing else changes; failures as for the model update, including the SyntaxError of an unparsable body and the TypeError of a failed `null` body |
| ChatsApi.ToggleChatPinConsistent | lib/chat-store/chats/api.ts:135-140 | when every cached chat has a pin time exactly when pinned, so does every chat written |
| ChatsApi.NewChatPayload | lib/chat-store/chats/api.ts:164-179 | title defaults to "New Chat" and model to the configured default when falsy; `projectId` is sent exactly when truthy |
| ChatsApi.FromServer | lib/chat-store/chats/api.ts:198-209 | copies the endpoint's chat, with `pinned ?? false`, `pinned_at ?? null` and `project_id || null` |
| ChatsApi.CreateNewChat | lib/chat-store/chats/api.ts:148-227 | succeeds exactly on an ok reply carrying a chat, and then writes that chat in front of the cached list; a failed reply throws its `error` or "Failed to create chat"; an unparsable body throws its SyntaxError; a `null` body throws the TypeError of reading `chat` when ok and of reading `error` otherwise; a network failure throws its own message |
| ChatsApi.CreateThenGetChat | lib/chat-store/chats/api.ts:62-227 | after createNewChat succeeds, getChat on the written list finds exactly the chat it returned under that chat's id |
| ChatsApi.CreateNewChatUnpinned | lib/chat-store/chats/api.ts:207-208 | a created chat whose reply carries no pin is stored unpinned with no pin time |
| ChatsProvider.Commit | lib/chat-store/chats/provider.tsx:99-104 | the optimistic list stays when the repository call succeeded; otherwise the snapshot comes back with the failure toast |
| ChatsProvider.Load | lib/chat-store/chats/provider.tsx:55-81 | nothing happens while the user loads; otherwise loading ends with the cached list, re-read when a user id is known |
| ChatsProvider.Refresh | lib/chat-store/chats/provider.tsx:83-88 | without a user id the list is kept; otherwise it becomes the stored chats, newest first |
| ChatsProvider.UpdateTitle | lib/chat-store/chats/provider.tsx:90-105 | on success the list is a reordering of the in-place rename (the same chats, each as often): the renamed chats carry the title and `updated_at = now`, every other chat is kept, and the list is ordered by latest update; on failure it is the snapshot with "Failed to update title" |
| ChatsProvider.UpdateTitleStable | lib/chat-store/chats/provider.tsx:90-105 | the re-sort after a rename is stable: chats with equal `updated_at` keep their order from the renamed list |
| ChatsProvider.DeleteChat | lib/chat-store/chats/provider.tsx:107-122 | on success the list is the old one with the chats of that id left out, the others in their order and number; redirect happens exactly after a successful delete of the open chat; on failure the snapshot returns with "Failed to delete chat" |
| ChatsProvider.OptimisticChat | lib/chat-store/chats/provider.tsx:149-162 | the placeholder has the id "optimistic-" followed by the time, the given or default title, model and system prompt, is public, and has no pin and no project |
| ChatsProvider.CreateNewChat | lib/chat-store/chats/provider.tsx:124-184 | without a user id nothing changes; a created chat goes first, followed by the old list in order without the placeholder's id, every other chat kept as often as before; a failure restores the snapshot with "Failed to create chat" |
| ChatsProvider.ResetChats | lib/chat-store/chats/provider.tsx:186-188 | the list becomes empty and nothing else changes |
| ChatsProvider.GetChatById | lib/chat-store/chats/provider.tsx:190-193 | returns the first chat of the list with the id, and nothing exactly when no chat has it |
| ChatsProvider.UpdateChatModel | lib/chat-store/chats/provider.tsx:195-204 | on success only the model of the matching chats changes, in place; on failure the snapshot comes back with "Failed to update model" |
| ChatsProvider.BumpChat | lib/chat-store/chats/provider.tsx:206-215 | the list is a reordering of the old one with the chats of that id stamped `updated_at = now` (the same chats, each as often), ordered by latest update |
| ChatsProvider.BumpChatStable | lib/chat-store/chats/provider.tsx:206-215 | the re-sort after a bump is stable: chats with equal `updated_at` keep their order from the stamped list |
| ChatsProvider.TogglePinned | lib/chat-store/chats/provider.tsx:217-243 | on success the list is a reordering of the old one with the matching chats given the pin flag and a pin time of now when pinned and none when unpinned (the same chats, each as often), newest first; on failure the snapshot returns with "Failed to update pin" |
| ChatsProvider.TogglePinnedStable | lib/chat-store/chats/provider.tsx:217-243 | the re-sort after a pin toggle is stable: chats with equal recency keep their order from the toggled list |
| ChatsProvider.PinnedChats | lib/chat-store/chats/provider.tsx:245-256 | holds exactly the pinned chats outside any project, latest pin first |
| ChatsProvider.PinnedChatsStable | lib/chat-store/chats/provider.tsx:245-256 | the pinned view's sort is stable: pinned chats with equal pin time keep their list order |
| ChatsProvider.TogglePinnedKeepsConsistency | lib/chat-store/chats/provider.tsx:221-225 | a successful toggle keeps "pin time set exactly when pinned" for the whole list, keeps every other chat and keeps a chat with the id when there was one |
| ChatsProvider.PinThenUnpin | lib/chat-store/chats/provider.tsx:221-225 | pinning and then unpinning leaves the chat in the list, unpinned with no pin time, and keeps every other chat |
| ChatsProvider.CreateThenGetChatById | lib/chat-store/chats/provider.tsx:124-193 | after a chat was created, getChatById finds exactly that chat under its id |
| ChatsProvider.RenameThenGetChatById | lib/chat-store/chats/provider.tsx:90-193 | after a successful rename, getChatById finds a chat exactly when the list had one with the id, carrying the new title and time |
| ChatsProvider.BumpPutsChatFirst | lib/chat-store/chats/provider.tsx:206-215 | bumping a chat of the list at a time later than every `updated_at` puts it at the top, stamped with that time |
| ChatsApi.MapWhereKeepsOthers | lib/chat-store/chats/provider.tsx:92-98 | any reordering of an id-keeping in-place update holds exactly the chats of another id that the list held |
| ChatsApi.MapWhereKeepsIds | lib/chat-store/chats/provider.tsx:92-98 | any reordering of an id-keeping in-place update holds a chat with the id when the list did, and each such chat is the update of one in the list |
| ChatsProvider.FailedMutationsRollBack | lib/chat-store/chats/provider.tsx:101-103 | a failed rename, delete, model change or pin toggle leaves exactly the snapshot |
| ChatsProvider.PinnedViewHasPinTimes | lib/chat-store/chats/provider.tsx:245-256 | when the list is pin-consistent, every chat in the pinned view has a pin time |
| MessagesApi.GetCachedMessages | lib/chat-store/messages/api.ts:17-27 | the stored messages as a permutation ordered oldest first by `createdAt \|\| 0`; the empty list for a missing entry, an array value or a missing list; a failed read throws |
| MessagesApi.GetCachedMessagesStable | lib/chat-store/messages/api.ts:17-27 | messages with the same creation time keep the order in which they were stored (the sort is stable) |
| MessagesApi.GetMessagesFromDb | lib/chat-store/messages/api.ts:4-10 | in local mode the same answer as the cache read |
| MessagesApi.SetMessages | lib/chat-store/messages/api.ts:29-34 | the entry written is the chat id with exactly the given list, unsorted |
| MessagesApi.AddMessage | lib/chat-store/messages/api.ts:36-45 | the entry written is the stored messages oldest first, with the new message appended last; a failed read throws |
| MessagesApi.ClearMessagesForChat | lib/chat-store/messages/api.ts:55-62 | an empty list is written under the chat id |
| MessagesApi.ClearThenRead | lib/chat-store/messages/api.ts:55-57 | reading a cleared chat back gives no messages |
| MessagesApi.AppendToSorted | lib/chat-store/messages/api.ts:36-45 | appending to a list already in creation order writes that list, unchanged, with the message last |
| MessagesApi.ReadSorted | lib/chat-store/messages/api.ts:17-27 | a stored list already in creation order reads back unchanged, so the stable sort moves nothing |
| MessagesApi.AddThenRead | lib/chat-store/messages/api.ts:36-45 | appending a message no older than the stored ones writes the stored list followed by the message, and reading that entry back gives the same list |
| MessagesApi.TwoAppendsReadInOrder | lib/chat-store/messages/api.ts:36-45 | two appends to a chat with no entry, the second created later, write `[m1]` and then `[m1, m2]`, and the latter reads back as exactly that list |
| MessagesProvider.Initial | lib/chat-store/messages/provider.tsx:40-41 | the provider starts with no messages and loading |
| MessagesProvider.OnChatIdChange | lib/chat-store/messages/provider.tsx:51-65 | a null chat id empties the list and stops loading; any other id only starts loading |
| MessagesProvider.Load | lib/chat-store/messages/provider.tsx:67-100 | without a chat nothing happens; otherwise the list becomes the fresh read, cached back under the chat id, and loading ends; a failed fresh read keeps the cached list; a failed cache read leaves the list and loading set |
| MessagesProvider.Refresh | lib/chat-store/messages/provider.tsx:102-111 | with a chat the list becomes the stored messages oldest first; a failed read keeps the list and toasts "Failed to refresh messages" |
| MessagesProvider.TargetChatId | lib/chat-store/messages/provider.tsx:117 | the explicit chat id when truthy, else the session's |
| MessagesProvider.CacheAndAddMessage | lib/chat-store/messages/provider.tsx:113-150 | with a truthy target the message is appended and the whole list is written under the target id; otherwise nothing happens |
| MessagesProvider.SaveAllMessages | lib/chat-store/messages/provider.tsx:152-162 | with a chat the list is written; memory takes the new list only when the write succeeds, and a failure toasts "Failed to save messages" |
| MessagesProvider.DeleteMessages | lib/chat-store/messages/provider.tsx:164-169 | with a chat the list and the stored entry are emptied; otherwise nothing happens |
| MessagesProvider.ResetMessages | lib/chat-store/messages/provider.tsx:171-173 | the list is emptied and the store is not touched |
| MessagesProvider.CacheAndAddAgreesWithStore | lib/chat-store/messages/provider.tsx:137-145 | after adding the newest message to an ordered list, reading the written entry back gives the in-memory list |
| MessagesProvider.DeleteThenLoadIsEmpty | lib/chat-store/messages/provider.tsx:164-169 | loading from the entry deleteMessages wrote gives an empty, settled list |
| MessagesProvider.NullChatSettles | lib/chat-store/messages/provider.tsx:51-75 | switching to no chat ends in an empty list that is not loading, whatever the reads say |
| MessagesProvider.EmptyChatIdStaysLoading | lib/chat-store/messages/provider.tsx:51-75 | the empty chat id starts loading but skips the load, so the messages stay as they were and loading never ends |
| Usage.UsageLimitError | lib/api.ts:30-36 | the error carries its message and the code "DAILY_LIMIT_REACHED" |
| Usage.IsProModel | lib/usage.ts:8-9 | a model is a pro model exactly when no entry of the free model list equals it |
| Usage.IsNewDay | lib/usage.ts:39-43 | a new day exactly when no reset is recorded or the UTC year, month or day of now differs from the recorded one |
| Usage.Reset | lib/usage.ts:37-49 | on a new UTC day (or with no reset recorded) the counter is zeroed and stamped now; otherwise it is unchanged; afterwards it is never a new day |
| Usage.ResetIdempotent | lib/usage.ts:37-49 | a second check on the same day finds nothing more to reset |
| Usage.CheckCounter | lib/usage.ts:37-54 | the stored counter is the reset one even when the check throws; it throws with the given message and code exactly when the effective count has reached the limit, and otherwise returns that count |
| Usage.Increment | lib/usage.ts:75-81 | the stored count goes up by one and the reset instant is untouched |
| Usage.CheckUsage | lib/usage.ts:26-67 | refuses with "Daily message limit reached." exactly when the reset daily count reaches AUTH_DAILY_MESSAGE_LIMIT; otherwise reports the count, the limit and the local user data |
| Usage.CheckProUsage | lib/usage.ts:84-112 | refuses with "Daily Pro model limit reached." exactly when the reset pro count reaches DAILY_LIMIT_PRO_MODELS; otherwise reports the count and the limit |
| Usage.CheckUsageByModel | lib/usage.ts:123-136 | a pro model refuses a guest with "You must log in to use this model." and touches nothing; for a signed-in user it is the pro check; any free model is the daily check; only the checked counter changes |
| Usage.IncrementUsageByModel | lib/usage.ts:138-149 | a pro model bumps the pro counter only for a signed-in user; a free model bumps the daily counter; the other counter is untouched |
| Usage.GuardedSend | lib/usage.ts:26-81 | check followed by an increment only on success keeps a counter that starts within the limit within it |
| Usage.SendMany | lib/usage.ts:26-81 | within one UTC day, n guarded sends let through exactly min(n, limit minus the effective count) messages, never more than the limit |
| Usage.ByModelTouchesOneCounter | lib/usage.ts:123-136 | a by-model check never changes the counter of the other tier |
| Usage.CheckThenIncrementWithinLimit | lib/usage.ts:123-149 | a passed check followed by the increment keeps the checked tier within its limit |
| FileHandling.ValidateFile | lib/file-handling.ts:28-51 | a file over 10 MiB is refused with the size message before its type is looked at; otherwise it is accepted exactly when a type was detected and is one of the ten allowed types, and refused with the type message otherwise |
| FileHandling.SizeErrorText | lib/file-handling.ts:31-36 | the size message reads "File size exceeds 10MB limit" |
| FileHandling.CreateAttachment | lib/file-handling.ts:53-59 | the attachment takes the file's name and declared type, and the given URL |
| FileHandling.CheckFileUploadLimit | lib/file-handling.ts:96-132 | the daily counter rule against DAILY_FILE_UPLOAD_LIMIT: the counter is reset on a new UTC day, refused with "Daily file upload limit reached." and code "DAILY_FILE_LIMIT_REACHED" exactly at the limit, and otherwise returns the effective count |
| FileHandling.UploadStep | lib/file-handling.ts:85-87 | the upload bookkeeping of one file keeps a counter that starts within the limit within it and leaves it stamped for the day |
| FileHandling.AttachmentsAndErrorsPartition | lib/file-handling.ts:68-91 | every file gives exactly one attachment or one validation error |
| FileHandling.ProcessFiles | lib/file-handling.ts:61-94 | the attachments are exactly the valid files, in input order, whatever the upload counter says; the errors are the invalid files' messages; with no attachment the counter is untouched |
| FileHandling.AttachedExactlyTheValid | lib/file-handling.ts:68-91 | an attachment comes from a valid file of the input, and every valid file gives one |
| FileHandling.LimitDoesNotBlockUploads | lib/file-handling.ts:80-90 | with the day's upload limit reached, the check refuses and yet a valid file is attached |
| FileHandling.ProcessFilesWithinLimit | lib/file-handling.ts:80-90 | with the limit consulted before attaching, the attachments are the valid files in order cut off after as many as the day's remaining quota admits; the counter is untouched when no file is valid and otherwise holds the reset count plus the files attached; errors are those of the invalid files |
| FileHandling.TakeStep | lib/file-handling.ts:80-90 | one more valid file extends the admitted prefix exactly while fewer files than the quota admits are attached |
| LocalStorage.Overlay | lib/storage/local-storage.ts:84-94 | the object spread: every field the update carries wins, every other field keeps its base value |
| LocalStorage.Full | lib/storage/local-storage.ts:96 | a whole preferences record written as an update replaces any base completely |
| LocalStorage.Then | lib/storage/local-storage.ts:94-96 | two updates in a row act as their composition |
| LocalStorage.GetUser | lib/storage/local-storage.ts:25-36 | a user exactly when there is a window and the key holds a parsable user, and then that user; null otherwise |
| LocalStorage.SetUser | lib/storage/local-storage.ts:38-41 | without a window nothing changes; otherwise only "zola_user" is set to the user |
| LocalStorage.SetThenGetUser | lib/storage/local-storage.ts:25-41 | a user that was set reads back unchanged |
| LocalStorage.CreateUser | lib/storage/local-storage.ts:43-58 | a fresh "Local User" with email "local@zola.chat", created now, not anonymous, not premium, no favourites, no image and the default preferences, stored and returned |
| LocalStorage.GetOrCreateUser | lib/storage/local-storage.ts:60-64 | an existing user is returned and nothing is written; otherwise a new one is created |
| LocalStorage.GetOrCreateUserStable | lib/storage/local-storage.ts:60-64 | a second call returns the user the first one returned and writes nothing |
| LocalStorage.GetPreferences | lib/storage/local-storage.ts:67-89 | the stored fields over the defaults; the defaults without a window or with a missing or unparsable value |
| LocalStorage.SetPreferences | lib/storage/local-storage.ts:91-104 | the merged preferences are stored under "zola_preferences" and copied into a stored user; no other key changes and no key appears but that one |
| LocalStorage.SetThenGetPreferences | lib/storage/local-storage.ts:78-104 | preferences read back as the update over what was read before |
| LocalStorage.SetPreferencesCompose | lib/storage/local-storage.ts:91-104 | two updates read back as one update with the composed patch |
| LocalStorage.GetApiKeys | lib/storage/local-storage.ts:107-118 | the stored key map, or `{}` without a window or with a missing or unparsable value |
| LocalStorage.SetApiKey | lib/storage/local-storage.ts:120-126 | without a window nothing changes; otherwise the key map with the provider set is stored |
| LocalStorage.SetApiKeyReadsBack | lib/storage/local-storage.ts:120-126 | the provider reads back its key and every other provider is unchanged |
| LocalStorage.RemoveApiKey | lib/storage/local-storage.ts:128-134 | without a window nothing changes; otherwise the key map without the provider is stored |
| LocalStorage.RemoveApiKeyReadsBack | lib/storage/local-storage.ts:128-134 | the provider no longer has a key and every other provider is unchanged |
| LocalStorage.SetThenRemoveApiKey | lib/storage/local-storage.ts:120-134 | setting and then removing a key leaves the same map as removing alone |
| LocalStorage.ClearAll | lib/storage/local-storage.ts:137-143 | the three keys are removed and every other key is kept |
| LocalStorage.ClearAllThenRead | lib/storage/local-storage.ts:137-143 | after clearing, the getters answer null, the defaults and `{}` |
| LocalStorage.NoWindowFallbacks | lib/storage/local-storage.ts:26-108 | without a window the getters answer null, the defaults and `{}` whatever is stored |
| PreferencesProvider.Init | lib/user-preference-store/provider.tsx:51-62 | the provider starts from the manager's stored preferences and stops loading |
| PreferencesProvider.SaveToLocalStorage | lib/user-preference-store/provider.tsx:38-43 | with a window, "user-preferences" holds the whole record and "preferred-layout" the layout; no other key changes |
| PreferencesProvider.UpdatePreferences | lib/user-preference-store/provider.tsx:64-69 | memory takes the update over the current preferences; storage goes through the manager's merge and then the provider's own two keys |
| PreferencesProvider.PatchOf | lib/user-preference-store/provider.tsx:71-89 | each setter sends an update carrying exactly its own field |
| PreferencesProvider.SetterChangesOneField | lib/user-preference-store/provider.tsx:71-89 | a setter changes exactly its own field of the preferences in memory |
| PreferencesProvider.ToggledHidden | lib/user-preference-store/provider.tsx:91-97 | a hidden model is removed (every copy), a visible one is appended; every other model keeps its membership |
| PreferencesProvider.ToggleModelVisibility | lib/user-preference-store/provider.tsx:91-103 | the model's hidden state flips, every other model's stays, and no other preference changes |
| PreferencesProvider.ToggleTwiceRestores | lib/user-preference-store/provider.tsx:91-103 | toggling a model twice restores whether each model is hidden |
| PreferencesProvider.IsModelHidden | lib/user-preference-store/provider.tsx:100-103 | a model is hidden exactly when some entry of the hidden list equals it |
| PreferencesProvider.UpdateKeepsStoreInSync | lib/user-preference-store/provider.tsx:64-69 | when memory agreed with the manager's stored preferences before an update, it still agrees after it |
| UserStore.ConvertToUserProfile | lib/user-store/provider.tsx:22-41 | identity, email, flags, favourites and preferences are copied; a falsy display name shows as "Local User" and a falsy image as ""; the server-side counters and system prompt are null |
| UserStore.GetUserProfile | lib/user/api.ts:12-37 | outside a browser the fixed "local-user" profile with the default preferences and nothing written; in a browser the conversion of the get-or-create local user |
| UserStore.RefreshUser | lib/user-store/provider.tsx:53-113 | a stored user is shown converted and nothing is written; otherwise a fresh user is created, stored and shown; loading ends |
| UserStore.RefreshAgreesWithStore | lib/user-store/provider.tsx:53-61 | after a refresh in a browser, memory shows exactly the user storage holds |
| UserStore.Merge | lib/user-store/provider.tsx:71-79 | each field the update gives (`??`, so an empty string still counts) replaces the stored one; identity, email, creation time and flags are kept |
| UserStore.UpdateUser | lib/user-store/provider.tsx:63-86 | a no-op without an id in memory; with no stored user only loading ends; otherwise the merged user is written back and shown |
| UserStore.UpdateKeepsIdentity | lib/user-store/provider.tsx:71-81 | an update keeps the stored user's id, email, creation time and flags, and memory shows the stored result |
| UserStore.EmptyUpdateChangesNothing | lib/user-store/provider.tsx:71-80 | an update that gives no field leaves storage exactly as it was |
| UserStore.SignOut | lib/user-store/provider.tsx:88-98 | storage loses the user, preferences and keys; a fresh "Local User" with default preferences is created, stored and shown; no key other than the user's appears |
| UserStore.SignOutStartsFresh | lib/user-store/provider.tsx:88-98 | after signing out in a browser the stored user is the new one, the preferences read as the defaults and no API key is left |
| Session.ChatIdFromPath | lib/chat-store/session/provider.tsx:18-27 | a chat id exactly for a path starting with "/c/": the text after the prefix up to the first following "/c/" (its first occurrence in the rest begins right after the id), which is the whole rest when there is no second "/c/"; null for any other path or no path |
| Session.SegmentEndsAtNextPrefix | lib/chat-store/session/provider.tsx:18-27 | in "/c/" + id + "/c/" + anything, the id is read back and the rest dropped, provided the id followed by "/c" holds no "/c/" (the prefix overlaps itself) |
| Session.PathRoundTrip | lib/chat-store/session/provider.tsx:20-23 | "/c/" followed by an id without "/c/" in it reads back as that id |
| Session.BarePrefixIsEmptyId | lib/chat-store/session/provider.tsx:20-23 | the bare path "/c/" yields the empty id, which is not a present (truthy) id: the draft key and the preview panel treat it as no chat |
| Session.OtherPathsHaveNoChat | lib/chat-store/session/provider.tsx:20-26 | a path not starting with "/c/" yields null |
| Session.Example | lib/chat-store/session/provider.tsx:20-23 | "/c/abc" names chat "abc" |
| ChatDraft.StorageKey | app/hooks/use-chat-draft.ts:4 | a truthy chat id gives "chat-draft-" followed by the id; no chat gives "chat-draft-new" |
| ChatDraft.KeysSeparateChats | app/hooks/use-chat-draft.ts:4 | different non-empty chat ids never share a draft key |
| ChatDraft.ChatNamedNewSharesTheNewDraft | app/hooks/use-chat-draft.ts:4 | a chat whose id is "new" shares its draft with the no-chat page |
| ChatDraft.SavedText | app/hooks/use-chat-draft.ts:12 | the stored text under the key, or "" when it is missing |
| ChatDraft.Load | app/hooks/use-chat-draft.ts:10-17 | with a window and a non-empty saved draft the draft becomes it; otherwise it stays as it was |
| ChatDraft.SetDraftValue | app/hooks/use-chat-draft.ts:19-32 | the draft becomes the value; with a window a non-empty value is stored under the key and an empty one removes the key |
| ChatDraft.ClearDraft | app/hooks/use-chat-draft.ts:34-39 | the draft becomes empty and, with a window, the key is removed and every other key kept |
| ChatDraft.SetThenLoad | app/hooks/use-chat-draft.ts:10-32 | a draft that was set loads back as the same text |
| ChatDraft.ClearIsSetEmpty | app/hooks/use-chat-draft.ts:19-39 | clearing the draft is the same as setting it to "" |
| ChatDraft.ClearThenLoad | app/hooks/use-chat-draft.ts:10-39 | a cleared draft loads back as "" |
| ClientApi.JsonCall | lib/api.ts:15-60 | an ok reply yields its JSON, `null` included; a body that does not parse throws its SyntaxError whatever the status; a failed reply whose body is `null` throws the TypeError of reading `error`; any other failed reply throws its `error` when truthy, else the failure text with the status line; a network failure throws its own message |
| ClientApi.CreateGuestUser | lib/api.ts:8-28 | succeeds exactly on an ok reply with a body that parses, and returns that body; an unparsable body throws its SyntaxError; a failed `null` body throws the TypeError of reading `error`; a failed reply throws its truthy string `error`, and one without an `error` throws "Failed to create guest user: " with the status line |
| ClientApi.CheckRateLimits | lib/api.ts:41-65 | succeeds exactly on an ok reply with a body that parses, and returns that body; an unparsable body throws its SyntaxError; a failed `null` body throws the TypeError of reading `error`; a failed reply throws its truthy string `error`, and one without an `error` throws "Failed to check rate limits: " with the status line |
| ClientApi.GetOrCreateGuestUserId | lib/api.ts:70-91 | the profile's id when truthy; else the stored guest id when truthy; else "guest_" and a fresh UUID, stored before the server is asked, and returned whatever the server answers |
| ClientApi.GuestIdCreatedOnce | lib/api.ts:76-90 | a second call returns the id the first one stored, writes nothing and does not ask the server |
| ClientApi.GuestIdIgnoresServer | lib/api.ts:82-87 | the server's reply never changes the id returned or what is stored |
| ChatOperations.QueriesLeftText | app/components/chat/use-chat-operations.ts:43-54 | the notice reads "query" for exactly one remaining and "queries" otherwise |
| ChatOperations.CheckLimitsAndNotify | app/components/chat/use-chat-operations.ts:37-64 | false exactly when the rate query throws or answers `null` (whose `.remaining` read throws into the same catch), with no notice; otherwise true, with a notice for each count equal to the alert threshold, plain before pro |
| ChatOperations.CreateErrorText | app/components/chat/use-chat-operations.ts:96-111 | no message gives "Something went wrong."; a message that does not parse, or parses to null, is shown as it is; a parsed truthy `error` is shown; a parse without one gives the generic text |
| ChatOperations.ErrorTextExamples | app/components/chat/use-chat-operations.ts:97-107 | a JSON `{error}` message shows the error, one without it the generic text, plain text itself, and no message the generic text |
| ChatOperations.EnsureChatExists | app/components/chat/use-chat-operations.ts:66-117 | a guest already in a chat keeps it without creating; otherwise an empty conversation creates a chat and answers its id, null when none came back, or null with the error toast; a non-empty one keeps the current id |
| ChatOperations.GuestInChatNeverCreates | app/components/chat/use-chat-operations.ts:69-75 | a guest in a chat never creates one and always keeps that chat |
| ChatOperations.HandleDelete | app/components/chat/use-chat-operations.ts:120-125 | every message with the id goes and every other message stays, in its order and with its number of copies; without a match the list is unchanged |
| ChatOperations.HandleDeleteAppend | app/components/chat/use-chat-operations.ts:120-125 | deleting from two lists joined is joining the two lists deleted from |
| ChatOperations.HandleDeleteOne | app/components/chat/use-chat-operations.ts:120-125 | a one-message list loses its message exactly when it has the id |
| ChatOperations.DeleteIdempotent | app/components/chat/use-chat-operations.ts:120-125 | deleting twice is deleting once |
| ChatOperations.HandleEdit | app/components/chat/use-chat-operations.ts:127-136 | messages with the id get the new text, in place; nothing else changes |
| ChatOperations.EditKeepsIds | app/components/chat/use-chat-operations.ts:127-136 | an edit keeps every id in its place and every other message intact |
| ChatOperations.EditThenDelete | app/components/chat/use-chat-operations.ts:120-136 | editing a message and then deleting it is the same as deleting it |
| PreferencesRoutes.Get | app/api/user-preferences-local/route.ts:3-21 | answers 200 with the default preference record; the GET of app/api/user-preferences/route.ts has the same text and the same model |
| PreferencesRoutes.Coalesce | app/api/user-preferences-local/route.ts:93-96 | `??`: the value unless it is missing or null |
| PreferencesRoutes.Echo | app/api/user-preferences-local/route.ts:91-98 | the echoed record has exactly the six preference fields: a falsy layout becomes "fullscreen", each flag `??` its default, a falsy hidden list [] |
| PreferencesRoutes.FirstBadFlag | app/api/user-preferences-local/route.ts:43-81 | names a flag, from the given position on, that is present and not a boolean, the first in source order; none exactly when every later flag is absent or boolean |
| PreferencesRoutes.LocalPut | app/api/user-preferences-local/route.ts:23-106 | a body that fails to parse or is null is a 500; 200 exactly when the layout is falsy or a string, every flag is absent or boolean and hidden_models is absent or an array, answered with the echo; any other non-null body is never a 500 but a 400: "layout must be a string" first, then "<flag> must be a boolean" for the first bad flag in source order, then "hidden_models must be an array" for a given non-array list, `null` included |
| PreferencesRoutes.Put | app/api/user-preferences/route.ts:23-71 | a body that fails to parse or is null is a 500; 200 exactly when the layout is falsy or a string and hidden_models is falsy or an array, answered with the echo and `success: true`; any other non-null body is a 400, "layout must be a string" first, then "hidden_models must be an array" for a truthy non-array list |
| PreferencesRoutes.LocalPutAnswersWellTyped | app/api/user-preferences-local/route.ts:35-98 | whatever the local route accepts, it answers with a string layout, boolean flags and an array of hidden models |
| PreferencesRoutes.LocalAcceptedIsAccepted | app/api/user-preferences/route.ts:35-63 | the other route accepts everything the local one accepts, answering the same record plus `success` |
| PreferencesRoutes.LocalRefusesNonBooleanFlag | app/api/user-preferences-local/route.ts:43-51 | a non-boolean `prompt_suggestions` with a valid layout is refused with "prompt_suggestions must be a boolean" |
| PreferencesRoutes.OtherEchoesNonBooleanFlag | app/api/user-preferences/route.ts:43-63 | the other route accepts such a flag and echoes it as it came, unless it is null |
| PreferencesRoutes.NullHiddenModels | app/api/user-preferences-local/route.ts:83-88 | a null hidden list is refused by the local route and becomes [] in the other |
| PreferencesRoutes.WireFormat | app/api/user-preferences-local/route.ts:6-13 | a preference record written in the routes' snake_case fields is a well-typed record with the same values |
| PreferencesRoutes.DefaultsAgreeWithManager | app/api/user-preferences-local/route.ts:6-13 | the record the routes answer by default is the localStorage manager's default preferences, and an empty PUT body echoes it |
| ChatRoutes.Failed | app/api/create-chat/route.ts:26-35 | a caught error answers 500 with its message, or "Internal server error" when the message is empty |
| ChatRoutes.CreateChatRoute | app/api/create-chat/route.ts:1-36 | a request that fails to parse answers 500 with its message; a falsy userId is a 400 "Missing userId"; otherwise 200 with a public, unpinned chat under a fresh id, created and updated now, with title, model and project falling back to "New Chat", "claude-3-5-sonnet-20241022" and null |
| ChatRoutes.CreateChatInDb | app/api/create-chat/api.ts:11-35 | the by-model usage check runs first, and a refusal propagates with no record; otherwise a private, unpinned record for the user with the model as given, title defaulting to "New Chat" and project to null |
| ChatRoutes.GuestCannotCreateProChat | app/api/create-chat/api.ts:20 | a guest asking for a pro model gets "You must log in to use this model." and both counters stay as they were |
| ChatRoutes.CreatedVisibility | app/api/create-chat/api.ts:31 | the route's chat is public while createChatInDb's record is private |
| ChatRoutes.TogglePinRoute | app/api/toggle-chat-pin/route.ts:3-29 | 200 `{success: true}` exactly for a truthy chatId and a boolean pinned, else 400 "Missing chatId or pinned"; any thrown error answers a plain "Internal server error" |
| ChatRoutes.UpdateChatModelRoute | app/api/update-chat-model/route.ts:1-31 | 200 `{success: true}` exactly for a truthy chatId and a truthy model, else 400 "Missing chatId or model"; a parse failure answers 500 with its message |
| ChatRoutes.CreateGuestRoute | app/api/create-guest/route.ts:1-34 | a falsy userId is a 400 "Missing userId"; otherwise 200 with an anonymous, non-premium guest whose id is the userId and whose email is the id at "anonymous.example", created now with no messages |
| ChatRoutes.ValidateUserIdentity | lib/server/api.ts:6-16 | succeeds exactly for a non-empty user id and otherwise throws "User ID is required" |
| ChatRoutes.GetMessageUsage | app/api/rate-limits/api.ts:4-24 | an empty user id throws "User ID is required"; otherwise zero counts, AUTH_DAILY_MESSAGE_LIMIT as the limit, and the remaining counts equal to limit minus count for each tier |
| ChatRoutes.UsageBody | app/api/rate-limits/api.ts:16-22 | the JSON carries the remaining and remaining-pro counts under `remaining` and `remainingPro` |
| ChatRoutes.NoticeDependsOnlyOnConfig | app/api/rate-limits/api.ts:12-22 | with the counts the server answers, the send-time notice appears exactly when a configured limit equals the alert threshold, whatever has been sent |
| ChatRoutes.PayloadJson | lib/chat-store/chats/api.ts:164-189 | the posted body carries the user id, title and model, and `projectId` exactly when it was set |
| ChatRoutes.ReadChat | lib/chat-store/chats/api.ts:198-209 | a reply's chat reads as a record exactly when its id, title, model and user_id are strings, with that id and the reply's pin flag |
| ChatRoutes.ReadReply | lib/chat-store/chats/api.ts:192-209 | a `null` reply reads as the null reply and only it; any other reply reads as its `error` text and, when `chat` is present and readable, that chat |
| ChatRoutes.PinRoundTrip | app/api/toggle-chat-pin/route.ts:3-29 | the endpoint accepts the body toggleChatPin sends exactly when the chat id is non-empty; the client call succeeds exactly then and otherwise throws "Missing chatId or pinned" |
| ChatRoutes.ModelRoundTrip | app/api/update-chat-model/route.ts:1-31 | the endpoint accepts the body updateChatModel sends exactly when chat id and model are non-empty; otherwise the client call throws "Missing chatId or model" |
| ChatRoutes.RouteChatOf | app/api/create-chat/route.ts:1-25 | a payload with a user id is answered 200 with the chat under the fresh id, title and model defaulted when empty, created and updated now |
| ChatRoutes.ReadRouteChat | lib/chat-store/chats/api.ts:198-209 | the endpoint's chat object reads back as the record it describes: public, unpinned, no pin time, and a project only when one was sent |
| ChatRoutes.AcceptedReply | app/api/create-chat/route.ts:1-25 | a payload with a user id is answered 200 with a reply that reads as no error and the described chat |
| ChatRoutes.RefusedReply | app/api/create-chat/route.ts:5-9 | a payload without a user id is a 400 whose reply reads as the error "Missing userId" and no chat |
| ChatRoutes.CreateRoundTrip | lib/chat-store/chats/api.ts:148-227 | the payload createNewChat sends is accepted exactly when the user id is non-empty; the stored chat then has the fresh id, the payload's title, model (defaulted) and project, both timestamps now, and is public and unpinned; an empty user id throws "Missing userId" |
| ChatRoutes.GuestRoundTrip | app/api/create-guest/route.ts:1-34 | createGuestUser against the endpoint succeeds exactly for a non-empty guest id, and the user it gets carries that id and the derived anonymous email; an empty id throws "Missing userId" |
| ChatRoutes.UnusableRateReplyRefuses | app/components/chat/use-chat-operations.ts:37-64 | a rate-limit reply whose body does not parse, or that parses to `null`, makes checkLimitsAndNotify return false with no notice |
| ChatRoutes.GeneratedGuestIdAccepted | lib/api.ts:70-91 | a guest id the client generates ("guest_" and a UUID) is never refused by the endpoint |
| PreviewPanel.IsNetworkError | app/components/history/chat-preview-panel.tsx:156-160 | an error is a network error exactly when it mentions "fetch", "network" or "HTTP": the "Failed to fetch" alternative adds nothing |
| PreviewPanel.Choose | app/components/history/chat-preview-panel.tsx:272-303 | the default view exactly without a chat, loading exactly with a chat while loading, the error view exactly with a chat, not loading and a truthy error, else empty or list by the message count; the retry button shows exactly for a network error while fewer than 3 retries were used |
| PreviewPanel.Rendered | app/components/history/chat-preview-panel.tsx:272-303 | the five guarded branches, each contributing its view when its own condition holds |
| PreviewPanel.ExactlyOneBranch | app/components/history/chat-preview-panel.tsx:272-303 | for any props exactly one branch renders, and it is the one chosen by precedence |
| PreviewPanel.OnRender | app/components/history/chat-preview-panel.tsx:222-229 | a truthy chat id other than the last one, with a fetcher, starts exactly one fetch, remembers the id and resets the retry count to 0; otherwise nothing changes |
| PreviewPanel.RerenderDoesNotRefetch | app/components/history/chat-preview-panel.tsx:222-229 | rendering again with the same chat starts no new fetch |
| PreviewPanel.HandleRetry | app/components/history/chat-preview-panel.tsx:231-242 | with a chat, a fetcher and fewer than 3 retries used, counts one more and fetches again; otherwise nothing changes |
| PreviewPanel.RetryRepeatedly | app/components/history/chat-preview-panel.tsx:220-242 | n retry clicks fetch exactly min(n, 3 minus the retries used) times, each for the current chat |
| PreviewPanel.RetriesBounded | app/components/history/chat-preview-panel.tsx:220-242 | once a chat was fetched, any mix of re-renders and retries for it fetches only as many times as the retry count grows, and the count never passes 3 |
| PreviewPanel.NewChatResetsRetries | app/components/history/chat-preview-panel.tsx:222-229 | a different chat fetches once and starts again from 0 retries, even after the retries ran out |

## Left out

- Rendering, markup, toasts beyond their title text, React effect timing and re-render scheduling are not modelled; each provider operation is one step from a state to the next.
- `window.history` and the router: a redirect is a boolean in the step result.
- `lib/config`, `lib/chat-store/persist` and `lib/user-preference-store/utils` are not part of this model; the constants of `lib/config` are a parameter and the calls into `persist` are inputs and outputs.
- UserStore.GetUserProfile: the `defaultPreferences` of `lib/user-preference-store/utils` is taken to be the localStorage manager's `LocalStorage.DefaultPreferences`; that module is not part of this model, so the two records being equal is an assumption, not something proved.
- ChatRoutes.ReadChat: a reply field of another JSON kind than expected (a timestamp that is a string, say) reads as absent, where the code would copy it through unchanged; the model speaks only of well-typed replies.
- The text of the SyntaxError that `res.json()` throws on a body that does not parse is an input of the reply; the TypeError of reading a property of `null` is given the V8 wording "Cannot read properties of null (reading '…')", since the message differs between engines.
- Whether a write of an array to IndexedDB deletes records missing from it is unknown; properties speak only about the value written.
- ISO-8601 timestamp strings are modelled as millisecond integers, and `Date` parsing and formatting are left out.
- The usage counters in localStorage are read with `parseInt`; a stored value that does not parse (a NaN count) is not modelled: a count is a natural number or missing.
- Stored JSON values are modelled as either the key's expected shape or text that does not parse; a stored object with JSON `null` in a preference field is not modelled.
- A request body of JSON `null` makes the routes' destructuring throw a `TypeError`; the model answers the route's 500 reply without the exact text of that error.
- The API routes keep no state and do not write to any database; their replies are all that is modelled.
- Concurrency between overlapping optimistic updates is not modelled; each operation sees the list as it was when it started.
- `File` objects, `URL.createObjectURL` and the MIME sniffing of `file-type` are inputs (size, detected type, object url).
- ChatsProvider.UpdateTitle: requires every chat to carry `updated_at`, because the source's comparator subtracts parsed dates and yields NaN for a missing one, which makes the resulting order unspecified.
- ChatsProvider.BumpChat: requires every chat to carry `updated_at`, for the same NaN-comparator reason.
- ChatsProvider.FailedMutationsRollBack: requires every chat to carry `updated_at`, since it covers the rename above.
- Reconciling with the repository's reply after a successful mutation happens in the code only for chat creation, where the server's chat replaces the placeholder; rename, delete, model change and pin toggle keep their optimistic list.
- The messages provider treats the empty chat id of the bare path "/c/" as a chat: it starts loading and, because loading is then skipped for a falsy id, stays loading; the model keeps this behaviour (MessagesProvider.EmptyChatIdStaysLoading).
- The draft key for a chat whose id is literally "new" coincides with the key used when there is no chat; the model keeps this behaviour.
- PreviewPanel: the markup, the message preview formatting and the fetch itself are left out; the fetcher is present or absent and a fetch is counted.

## Findings

| source | as written | input that shows it | evidently intended | confidence | as-written member | corrected member |
|---|---|---|---|---|---|---|
| lib/file-handling.ts:80-90 | `processFiles` pushes the attachment of a valid file and only then calls `checkFileUploadLimit`, whose error is caught and logged, so the daily upload limit never keeps a file out of the result | one valid file when the day's upload count already equals `DAILY_FILE_UPLOAD_LIMIT` | check the limit first and attach a file only while the limit allows it | not executed (medium: the catch may be meant only to log) | FileHandling.LimitDoesNotBlockUploads | FileHandling.ProcessFilesWithinLimit |

=== FILE: chat_draft.dfy ===
/**
 * The chat draft hook (app/hooks/use-chat-draft.ts): the unsent text of the
 * input box, kept in localStorage under a key derived from the chat id.
 */
module ChatDraft {
  import opened Common
  import opened LocalStorage

  const DraftPrefix := "chat-draft-"
  const NewChatKey := "chat-draft-new"

  /** The storage key: per chat for a truthy chat id, one shared key otherwise. */
  function StorageKey(chatId: Option<string>): (k: string)
    ensures Present(chatId) ==> k == DraftPrefix + chatId.value
    ensures !Present(chatId) ==> k == NewChatKey
  {
    if Present(chatId) then DraftPrefix + chatId.value else NewChatKey
  }

  /** `localStorage.getItem(key) || ""`. */
  function SavedText(ls: Storage, key: string): (t: string)
    ensures key in ls && ls[key].Raw? ==> t == ls[key].text
    ensures !(key in ls && ls[key].Raw?) ==> t == ""
  {
    if key in ls && ls[key].Raw? then ls[key].text else ""
  }

  /** The load effect: a non-empty saved draft replaces the current value. */
  function Load(window: bool, current: string, ls: Storage, key: string): (v: string)
    ensures window && SavedText(ls, key) != "" ==> v == SavedText(ls, key)
    ensures !(window && SavedText(ls, key) != "") ==> v == current
  {
    if window && SavedText(ls, key) != "" then SavedText(ls, key) else current
  }

  /** setDraftValue: the value is shown; a non-empty one is stored, the empty one removes the key. */
  function SetDraftValue(window: bool, ls: Storage, key: string, value: string): (r: (string, Storage))
    ensures r.0 == value
    ensures !window ==> r.1 == ls
    ensures window && value != "" ==> r.1 == ls[key := Raw(value)]
    ensures window && value == "" ==> r.1 == ls - {key}
  {
    if !window then (value, ls)
    else if value != "" then (value, ls[key := Raw(value)])
    else (value, ls - {key})
  }

  /** clearDraft: the value becomes "" and the key is removed. */
  function ClearDraft(window: bool, ls: Storage, key: string): (r: (string, Storage))
    ensures r.0 == ""
    ensures !window ==> r.1 == ls
    ensures window ==> key !in r.1 && forall k :: k in ls && k != key ==> k in r.1 && r.1[k] == ls[k]
  {
    ("", if window then ls - {key} else ls)
  }

  // ---------------------------------------------------------------------
  // Properties

  /** Two truthy chat ids share a draft key only when they are the same id. */
  lemma KeysSeparateChats(a: string, b: string)
    requires a != "" && b != "" && a != b
    ensures StorageKey(Some(a)) != StorageKey(Some(b))
  {
    assert StorageKey(Some(a))[|DraftPrefix|..] == a;
    assert StorageKey(Some(b))[|DraftPrefix|..] == b;
  }

  /** A chat whose id is "new" shares its draft with the page that has no chat yet. */
  lemma ChatNamedNewSharesTheNewDraft()
    ensures StorageKey(Some("new")) == StorageKey(None)
  {
  }

  /** A draft that was set reads back on the next load, starting from the initial "". */
  lemma SetThenLoad(ls: Storage, key: string, value: string)
    ensures Load(true, "", SetDraftValue(true, ls, key, value).1, key) == value
  {
  }

  /** clearDraft has the effect of setting the empty draft. */
  lemma ClearIsSetEmpty(window: bool, ls: Storage, key: string)
    ensures ClearDraft(window, ls, key) == SetDraftValue(window, ls, key, "")
  {
  }

  /** After clearDraft, a load finds nothing and keeps "". */
  lemma ClearThenLoad(ls: Storage, key: string)
    ensures Load(true, "", ClearDraft(true, ls, key).1, key) == ""
  {
  }
}

=== FILE: chat_operations.dfy ===
/**
 * The chat operations hook (app/components/chat/use-chat-operations.ts):
 * the rate-limit notice before sending, making sure a chat exists for the
 * first message, and deleting or editing a message in the list.
 */
module ChatOperations {
  import opened Common
  import opened Seqs
  import opened MessagesApi

  /** "Only N query remaining today." with the plural "queries" for any N other than 1. */
  function QueriesLeftText(n: nat, kind: string): (t: string)
    ensures n == 1 ==> t == "Only 1 " + kind + "query remaining today."
    ensures n != 1 ==> t == "Only " + NatToString(n) + " " + kind + "queries remaining today."
  {
    "Only " + NatToString(n) + " " + kind + "quer" + (if n == 1 then "y" else "ies") + " remaining today."
  }

  /** `rateData[field] === threshold`. */
  predicate AtThreshold(rateData: Json, field: string, threshold: nat) {
    Field(rateData, field) == Some(JNum(threshold))
  }

  /**
   * checkLimitsAndNotify: false when the rate-limit query throws, or when it
   * answers `null`, whose `.remaining` read throws into the same catch;
   * otherwise true, with a notice for each of the two counts that equals
   * the alert threshold exactly.
   */
  function CheckLimitsAndNotify(cfg: Config, rate: Result<Json>): (r: (bool, seq<string>))
    ensures r.0 <==> rate.Ok? && rate.value != JNull
    ensures !r.0 ==> r.1 == []
    ensures r.0 ==>
              var n := cfg.remainingQueryAlertThreshold;
              r.1 == (if AtThreshold(rate.value, "remaining", n) then [QueriesLeftText(n, "")] else [])
                   + (if AtThreshold(rate.value, "remainingPro", n) then [QueriesLeftText(n, "pro ")] else [])
  {
    match rate
    case Err(_) => (false, [])
    case Ok(JNull) => (false, [])
    case Ok(data) =>
      var n := cfg.remainingQueryAlertThreshold;
      var plain := if AtThreshold(data, "remaining", n) then [QueriesLeftText(n, "")] else [];
      var pro := if AtThreshold(data, "remainingPro", n) then [QueriesLeftText(n, "pro ")] else [];
      (true, plain + pro)
  }

  /**
   * What `createNewChat` did: returned a chat (its id), returned undefined,
   * or threw. A thrown error carries its message, if any, and the value
   * `JSON.parse` makes of that message when it parses.
   */
  datatype CreateCall =
    | Created(id: string)
    | NoChat
    | Threw(message: Option<string>, parsed: Option<Json>)

  const GenericError := "Something went wrong."

  /**
   * The toast text for a thrown error: the parsed message's truthy `error`,
   * else the generic text; a message that does not parse (or parses to
   * `null`, whose `.error` throws) is used as it is.
   */
  function CreateErrorText(message: Option<string>, parsed: Option<Json>): (t: string)
    ensures !Present(message) ==> t == GenericError
    ensures Present(message) && parsed.None? ==> t == message.value
    ensures Present(message) && parsed == Some(JNull) ==> t == message.value
    ensures Present(message) && parsed.Some? && parsed.value != JNull && !TruthyOpt(Field(parsed.value, "error")) ==>
              t == GenericError
    ensures Present(message) && parsed.Some? && TruthyOpt(Field(parsed.value, "error"))
            && Field(parsed.value, "error").value.JStr? ==>
              t == Field(parsed.value, "error").value.s
  {
    if !Present(message) then GenericError
    else if parsed.None? || parsed.value == JNull then message.value
    else ErrorMessage(parsed.value, GenericError)
  }

  /** The result of ensureChatExists: the chat id to send to, and an error toast. */
  datatype Ensured = Ensured(chatId: Option<string>, toast: Option<string>, createCalled: bool)

  /**
   * ensureChatExists: a guest already in a chat keeps it; otherwise an
   * empty conversation gets a new chat (its id, or null when none came back
   * or the call threw) and a non-empty one keeps the current id.
   */
  function EnsureChatExists(isAuthenticated: bool, chatId: Option<string>, messageCount: nat, create: CreateCall): (r: Ensured)
    ensures !isAuthenticated && Present(chatId) ==> r == Ensured(chatId, None, false)
    ensures (isAuthenticated || !Present(chatId)) && messageCount > 0 ==> r == Ensured(chatId, None, false)
    ensures (isAuthenticated || !Present(chatId)) && messageCount == 0 ==>
              && r.createCalled
              && (create.Created? ==> r == Ensured(Some(create.id), None, true))
              && (create.NoChat? ==> r == Ensured(None, None, true))
              && (create.Threw? ==> r == Ensured(None, Some(CreateErrorText(create.message, create.parsed)), true))
  {
    if !isAuthenticated && Present(chatId) then Ensured(chatId, None, false)
    else if messageCount != 0 then Ensured(chatId, None, false)
    else
      match create
      case Created(id) => Ensured(Some(id), None, true)
      case NoChat => Ensured(None, None, true)
      case Threw(m, p) => Ensured(None, Some(CreateErrorText(m, p)), true)
  }

  /** handleDelete: every message with the id goes, the rest keep their order. */
  function HandleDelete(messages: seq<Message>, id: string): (r: seq<Message>)
    ensures forall i :: 0 <= i < |r| ==> r[i].id != id && r[i] in messages
    ensures forall i :: 0 <= i < |messages| && messages[i].id != id ==> messages[i] in r
    ensures (forall i :: 0 <= i < |messages| ==> messages[i].id != id) ==> r == messages
    ensures Subsequence(r, messages)
    ensures forall m :: multiset(r)[m] == if m.id == id then 0 else multiset(messages)[m]
  {
    FilterSubsequence(messages, (m: Message) => m.id != id);
    FilterCount(messages, (m: Message) => m.id != id);
    Filter(messages, (m: Message) => m.id != id)
  }

  /** Deleting from a concatenation deletes from each part. */
  lemma {:induction false} HandleDeleteAppend(a: seq<Message>, b: seq<Message>, id: string)
    ensures HandleDelete(a + b, id) == HandleDelete(a, id) + HandleDelete(b, id)
  {
    FilterAppend(a, b, (m: Message) => m.id != id);
  }

  /** A single message is dropped exactly when it carries the id. */
  lemma HandleDeleteOne(m: Message, id: string)
    ensures HandleDelete([m], id) == if m.id == id then [] else [m]
  {
    assert [m][1..] == [];
  }

  /** handleEdit: matching messages get the new text; nothing else changes. */
  function HandleEdit(messages: seq<Message>, id: string, newText: string): (r: seq<Message>)
    ensures |r| == |messages|
    ensures forall i :: 0 <= i < |r| ==>
              r[i] == (if messages[i].id == id then messages[i].(content := newText) else messages[i])
  {
    seq(|messages|, i requires 0 <= i < |messages| =>
      if messages[i].id == id then messages[i].(content := newText) else messages[i])
  }

  // ---------------------------------------------------------------------
  // Properties

  /** Deleting twice is deleting once. */
  lemma DeleteIdempotent(messages: seq<Message>, id: string)
    ensures HandleDelete(HandleDelete(messages, id), id) == HandleDelete(messages, id)
  {
  }

  /** Editing a message and then deleting it is deleting it. */
  lemma {:induction false} EditThenDelete(messages: seq<Message>, id: string, newText: string)
    ensures HandleDelete(HandleEdit(messages, id, newText), id) == HandleDelete(messages, id)
  {
    if |messages| > 0 {
      var edited := HandleEdit(messages, id, newText);
      assert edited[1..] == HandleEdit(messages[1..], id, newText);
      EditThenDelete(messages[1..], id, newText);
    }
  }

  /** Editing keeps every id in place, so the edited list deletes exactly what the original did. */
  lemma EditKeepsIds(messages: seq<Message>, id: string, newText: string)
    ensures forall i :: 0 <= i < |messages| ==> HandleEdit(messages, id, newText)[i].id == messages[i].id
    ensures forall i :: 0 <= i < |messages| && messages[i].id != id ==>
              HandleEdit(messages, id, newText)[i] == messages[i]
  {
  }

  /** A guest in a chat never creates a chat, whatever the messages. */
  lemma GuestInChatNeverCreates(chatId: Option<string>, n: nat, create: CreateCall)
    requires Present(chatId)
    ensures !EnsureChatExists(false, chatId, n, create).createCalled
    ensures EnsureChatExists(false, chatId, n, create).chatId == chatId
  {
  }

  /** A parse of `{error: e}` with a non-empty string shows `e`; a parse without one shows the generic text. */
  lemma ErrorTextExamples(message: string, e: string)
    requires message != "" && e != ""
    ensures CreateErrorText(Some(message), Some(JObj(map["error" := JStr(e)]))) == e
    ensures CreateErrorText(Some(message), Some(JObj(map[]))) == GenericError
    ensures CreateErrorText(Some(message), None) == message
    ensures CreateErrorText(None, None) == GenericError
  {
  }
}

=== FILE: chat_routes.dfy ===
/**
 * The compatibility endpoints the chat flow calls. None of them stores
 * anything: each validates its request and answers a record with defaults
 * filled in (app/api/create-chat, toggle-chat-pin, update-chat-model and
 * create-guest), and the server helpers behind them (createChatInDb in
 * app/api/create-chat/api.ts, getMessageUsage in app/api/rate-limits/api.ts
 * with the identity check of lib/server/api.ts).
 *
 * A request is the outcome of `request.json()`: `Err` carries the message of
 * the error thrown while reading it. Timestamps are numbers of milliseconds.
 */
module ChatRoutes {
  import opened Common
  import opened Usage
  import opened ChatsApi
  import opened ChatOperations
  import ClientApi

  const DefaultTitle := "New Chat"
  const DefaultModel := "claude-3-5-sonnet-20241022"

  /** The 500 answer of a handler that reports `err.message || "Internal server error"`. */
  function Failed(message: string): (r: Response)
    ensures r.status == 500
    ensures message != "" ==> r == ServerError(message)
    ensures message == "" ==> r == InternalError
  {
    ServerError(if message != "" then message else "Internal server error")
  }

  /** `{success: true}` with status 200. */
  const Success := Response(200, JObj(map["success" := JBool(true)]))

  /**
   * POST create-chat: a falsy userId is a 400; otherwise a public, unpinned
   * chat with the given or default title and model. A null body fails to
   * destructure and is answered 500.
   */
  function CreateChatRoute(request: Result<Json>, freshId: string, now: int): (r: Response)
    ensures request.Err? ==> r == Failed(request.message)
    ensures request == Ok(JNull) ==> r.status == 500
    ensures request.Ok? && request.value != JNull && !TruthyOpt(Field(request.value, "userId")) ==>
              r == BadRequest("Missing userId")
    ensures request.Ok? && request.value != JNull && TruthyOpt(Field(request.value, "userId")) ==>
              var b := request.value;
              && r.status == 200
              && Field(r.body, "chat") == Some(JObj(map[
                   "id" := JStr(freshId),
                   "title" := OrJson(Field(b, "title"), JStr(DefaultTitle)),
                   "model" := OrJson(Field(b, "model"), JStr(DefaultModel)),
                   "user_id" := Field(b, "userId").value,
                   "created_at" := JNum(now),
                   "updated_at" := JNum(now),
                   "project_id" := OrJson(Field(b, "projectId"), JNull),
                   "public" := JBool(true),
                   "pinned" := JBool(false),
                   "pinned_at" := JNull]))
  {
    match request
    case Err(m) => Failed(m)
    case Ok(b) =>
      if b == JNull then InternalError
      else if !TruthyOpt(Field(b, "userId")) then BadRequest("Missing userId")
      else
        var chat := JObj(map[
          "id" := JStr(freshId),
          "title" := OrJson(Field(b, "title"), JStr(DefaultTitle)),
          "model" := OrJson(Field(b, "model"), JStr(DefaultModel)),
          "user_id" := Field(b, "userId").value,
          "created_at" := JNum(now),
          "updated_at" := JNum(now),
          "project_id" := OrJson(Field(b, "projectId"), JNull),
          "public" := JBool(true),
          "pinned" := JBool(false),
          "pinned_at" := JNull]);
        Response(200, JObj(map["chat" := chat]))
  }

  /**
   * createChatInDb: the usage check by model runs first and its error
   * propagates, so a refused check produces no record; otherwise a private,
   * unpinned record with the model passed through.
   */
  function CreateChatInDb(cfg: Config, cs: Counters, userId: string, title: Option<string>, model: string,
                          isAuthenticated: bool, projectId: Option<string>, freshId: string, now: Instant)
    : (r: (Counters, Checked<ServerChat>))
    ensures r.0 == CheckUsageByModel(cfg, cs, model, isAuthenticated, now).0
    ensures r.1.Passed? <==> CheckUsageByModel(cfg, cs, model, isAuthenticated, now).1.Passed?
    ensures r.1.Refused? ==>
              var e := CheckUsageByModel(cfg, cs, model, isAuthenticated, now).1;
              r.1.message == e.message && r.1.code == e.code
    ensures r.1.Passed? ==>
              var c := r.1.value;
              && c.id == freshId && c.userId == userId && c.model == model
              && c.title == OrElse(title, DefaultTitle)
              && c.projectId == (if Present(projectId) then projectId else None)
              && c.isPublic == Some(false) && c.pinned == Some(false) && c.pinnedAt.None?
              && c.createdAt == Some(now.ms) && c.updatedAt == Some(now.ms)
  {
    var (counters, checked) := CheckUsageByModel(cfg, cs, model, isAuthenticated, now);
    if checked.Refused? then (counters, Refused(checked.message, checked.code))
    else
      (counters, Passed(ServerChat(freshId, OrElse(title, DefaultTitle), Some(now.ms), model, userId, Some(false),
                                   Some(now.ms), if Present(projectId) then projectId else None, Some(false), None)))
  }

  /** POST toggle-chat-pin: a truthy chatId and a boolean `pinned`, or 400; any thrown error is a plain 500. */
  function TogglePinRoute(request: Result<Json>): (r: Response)
    ensures request.Err? || request == Ok(JNull) ==> r == InternalError
    ensures request.Ok? && request.value != JNull ==>
              var b := request.value;
              && (TruthyOpt(Field(b, "chatId")) && Field(b, "pinned").Some? && Field(b, "pinned").value.JBool? ==> r == Success)
              && (!(TruthyOpt(Field(b, "chatId")) && Field(b, "pinned").Some? && Field(b, "pinned").value.JBool?) ==>
                    r == BadRequest("Missing chatId or pinned"))
  {
    match request
    case Err(_) => InternalError
    case Ok(b) =>
      if b == JNull then InternalError
      else if !TruthyOpt(Field(b, "chatId")) || Field(b, "pinned").None? || !Field(b, "pinned").value.JBool? then
        BadRequest("Missing chatId or pinned")
      else Success
  }

  /** POST update-chat-model: a truthy chatId and a truthy model, or 400. */
  function UpdateChatModelRoute(request: Result<Json>): (r: Response)
    ensures request.Err? ==> r == Failed(request.message)
    ensures request == Ok(JNull) ==> r.status == 500
    ensures request.Ok? && request.value != JNull ==>
              var b := request.value;
              && (TruthyOpt(Field(b, "chatId")) && TruthyOpt(Field(b, "model")) ==> r == Success)
              && (!(TruthyOpt(Field(b, "chatId")) && TruthyOpt(Field(b, "model"))) ==>
                    r == BadRequest("Missing chatId or model"))
  {
    match request
    case Err(m) => Failed(m)
    case Ok(b) =>
      if b == JNull then InternalError
      else if !TruthyOpt(Field(b, "chatId")) || !TruthyOpt(Field(b, "model")) then BadRequest("Missing chatId or model")
      else Success
  }

  /** POST create-guest: a truthy userId, or 400; the guest record derives its id and email from it. */
  function CreateGuestRoute(request: Result<Json>, now: int): (r: Response)
    ensures request.Err? ==> r == Failed(request.message)
    ensures request == Ok(JNull) ==> r.status == 500
    ensures request.Ok? && request.value != JNull && !TruthyOpt(Field(request.value, "userId")) ==>
              r == BadRequest("Missing userId")
    ensures request.Ok? && request.value != JNull && TruthyOpt(Field(request.value, "userId")) ==>
              var u := Field(request.value, "userId").value;
              && r.status == 200
              && Field(r.body, "user") == Some(JObj(map[
                   "id" := u,
                   "email" := JStr(JsString(u) + "@anonymous.example"),
                   "anonymous" := JBool(true),
                   "message_count" := JNum(0),
                   "premium" := JBool(false),
                   "created_at" := JNum(now)]))
  {
    match request
    case Err(m) => Failed(m)
    case Ok(b) =>
      if b == JNull then InternalError
      else if !TruthyOpt(Field(b, "userId")) then BadRequest("Missing userId")
      else
        var u := Field(b, "userId").value;
        Response(200, JObj(map["user" := JObj(map[
          "id" := u,
          "email" := JStr(JsString(u) + "@anonymous.example"),
          "anonymous" := JBool(true),
          "message_count" := JNum(0),
          "premium" := JBool(false),
          "created_at" := JNum(now)])]))
  }

  /** The counts getMessageUsage answers. */
  datatype MessageUsage = MessageUsage(dailyCount: int, dailyProCount: int, dailyLimit: int,
                                       remaining: int, remainingPro: int)

  /** validateUserIdentity: an empty id throws. */
  function ValidateUserIdentity(userId: string): (r: Result<bool>)
    ensures r.Ok? <==> userId != ""
    ensures r.Err? ==> r.message == "User ID is required"
  {
    if userId == "" then Err("User ID is required") else Ok(true)
  }

  /**
   * getMessageUsage: the identity check first; then, since usage is counted
   * in the browser, zero counts and the full limits as what remains.
   */
  function GetMessageUsage(cfg: Config, userId: string): (r: Result<MessageUsage>)
    ensures r.Err? <==> userId == ""
    ensures r.Err? ==> r.message == "User ID is required"
    ensures r.Ok? ==> r.value.dailyLimit == cfg.authDailyMessageLimit
    ensures r.Ok? ==> r.value.remaining == r.value.dailyLimit - r.value.dailyCount
    ensures r.Ok? ==> r.value.remainingPro == cfg.dailyLimitProModels - r.value.dailyProCount
    ensures r.Ok? ==> r.value.dailyCount == 0 && r.value.dailyProCount == 0
  {
    var valid := ValidateUserIdentity(userId);
    if valid.Err? then Err(valid.message)
    else
      var dailyCount := 0;
      var dailyProCount := 0;
      var dailyLimit := cfg.authDailyMessageLimit;
      Ok(MessageUsage(dailyCount, dailyProCount, dailyLimit, dailyLimit - dailyCount,
                      cfg.dailyLimitProModels - dailyProCount))
  }

  /** The JSON object the usage counts travel as. */
  function UsageBody(u: MessageUsage): (j: Json)
    ensures Field(j, "remaining") == Some(JNum(u.remaining))
    ensures Field(j, "remainingPro") == Some(JNum(u.remainingPro))
  {
    JObj(map["dailyCount" := JNum(u.dailyCount), "dailyProCount" := JNum(u.dailyProCount),
             "dailyLimit" := JNum(u.dailyLimit), "remaining" := JNum(u.remaining),
             "remainingPro" := JNum(u.remainingPro)])
  }

  // ---------------------------------------------------------------------
  // What the client sends and how it reads the replies

  /** The body toggleChatPin posts: `{chatId, pinned}`. */
  function PinRequest(chatId: string, pinned: bool): (j: Json)
    ensures Field(j, "chatId") == Some(JStr(chatId)) && Field(j, "pinned") == Some(JBool(pinned))
  {
    JObj(map["chatId" := JStr(chatId), "pinned" := JBool(pinned)])
  }

  /** The body updateChatModel posts: `{chatId, model}`. */
  function ModelRequest(chatId: string, model: string): (j: Json)
    ensures Field(j, "chatId") == Some(JStr(chatId)) && Field(j, "model") == Some(JStr(model))
  {
    JObj(map["chatId" := JStr(chatId), "model" := JStr(model)])
  }

  /** The body createGuestUser posts: `{userId: guestId}`. */
  function GuestRequest(guestId: string): (j: Json)
    ensures Field(j, "userId") == Some(JStr(guestId))
  {
    JObj(map["userId" := JStr(guestId)])
  }

  /**
   * The body createNewChat posts: `JSON.stringify` leaves out an undefined
   * `isAuthenticated`, and `projectId` is only set when it is present.
   */
  function PayloadJson(p: CreatePayload): (j: Json)
    ensures Field(j, "userId") == Some(JStr(p.userId))
    ensures Field(j, "title") == Some(JStr(p.title)) && Field(j, "model") == Some(JStr(p.model))
    ensures Field(j, "projectId") == if p.projectId.Some? then Some(JStr(p.projectId.value)) else None
  {
    var base := map["userId" := JStr(p.userId), "title" := JStr(p.title), "model" := JStr(p.model)];
    var withAuth := if p.isAuthenticated.Some? then base["isAuthenticated" := JBool(p.isAuthenticated.value)] else base;
    JObj(if p.projectId.Some? then withAuth["projectId" := JStr(p.projectId.value)] else withAuth)
  }

  /** Field `k` of `j` when it is a string. */
  function StrField(j: Json, k: string): (r: Option<string>)
    ensures r.Some? <==> Field(j, k).Some? && Field(j, k).value.JStr?
    ensures r.Some? ==> Field(j, k) == Some(JStr(r.value))
  {
    var v := Field(j, k);
    if v.Some? && v.value.JStr? then Some(v.value.s) else None
  }

  /** Field `k` of `j` when it is a number. */
  function NumField(j: Json, k: string): (r: Option<int>)
    ensures r.Some? <==> Field(j, k).Some? && Field(j, k).value.JNum?
    ensures r.Some? ==> Field(j, k) == Some(JNum(r.value))
  {
    var v := Field(j, k);
    if v.Some? && v.value.JNum? then Some(v.value.n) else None
  }

  /** Field `k` of `j` when it is a boolean. */
  function BoolField(j: Json, k: string): (r: Option<bool>)
    ensures r.Some? <==> Field(j, k).Some? && Field(j, k).value.JBool?
    ensures r.Some? ==> Field(j, k) == Some(JBool(r.value))
  {
    var v := Field(j, k);
    if v.Some? && v.value.JBool? then Some(v.value.b) else None
  }

  /**
   * How createNewChat reads the `chat` of a create-chat reply: an object
   * whose id, title, model and user_id are strings. Timestamps read as
   * numbers, `public` and `pinned` as booleans and `project_id` as a
   * string; a field of another kind reads as absent.
   */
  function ReadChat(c: Json): (r: Option<ServerChat>)
    ensures r.Some? <==> StrField(c, "id").Some? && StrField(c, "title").Some?
                         && StrField(c, "model").Some? && StrField(c, "user_id").Some?
    ensures r.Some? ==> r.value.id == StrField(c, "id").value && r.value.pinned == BoolField(c, "pinned")
  {
    var id := StrField(c, "id");
    var title := StrField(c, "title");
    var model := StrField(c, "model");
    var userId := StrField(c, "user_id");
    if id.None? || title.None? || model.None? || userId.None? then None
    else Some(ServerChat(id.value, title.value, NumField(c, "created_at"), model.value, userId.value,
                         BoolField(c, "public"), NumField(c, "updated_at"), StrField(c, "project_id"),
                         BoolField(c, "pinned"), NumField(c, "pinned_at")))
  }

  /** How createNewChat reads a create-chat reply: its `error` text and its `chat`, or `null`. */
  function ReadReply(body: Json): (r: ChatReply)
    ensures r.NullReply? <==> body == JNull
    ensures r.ChatReply? ==> r.error == StrField(body, "error")
    ensures r.ChatReply? ==> (r.chat.Some? <==> Field(body, "chat").Some? && ReadChat(Field(body, "chat").value).Some?)
  {
    if body == JNull then NullReply
    else
      var chat := Field(body, "chat");
      ChatReply(StrField(body, "error"), if chat.None? then None else ReadChat(chat.value))
  }

  // ---------------------------------------------------------------------
  // Properties

  /**
   * The pin round trip: the endpoint accepts the body toggleChatPin sends
   * exactly when the chat id is non-empty, so the client call succeeds
   * then and otherwise throws the endpoint's "Missing chatId or pinned".
   */
  lemma PinRoundTrip(chatId: string, pinned: bool, statusText: string, read: ChatsRead, now: int)
    ensures var resp := TogglePinRoute(Ok(PinRequest(chatId, pinned)));
            var r := ToggleChatPin(Delivered(resp.status, statusText, resp.body), read, chatId, pinned, now);
            (resp == Success <==> chatId != "")
            && (r.Ok? <==> chatId != "")
            && (chatId == "" ==> r == Err("Missing chatId or pinned"))
  {
  }

  /**
   * The model round trip: the endpoint accepts the body updateChatModel
   * sends exactly when both chat id and model are non-empty; otherwise the
   * client call throws "Missing chatId or model".
   */
  lemma ModelRoundTrip(chatId: string, model: string, statusText: string, read: ChatsRead)
    ensures var resp := UpdateChatModelRoute(Ok(ModelRequest(chatId, model)));
            var r := ChatsApi.UpdateChatModel(Delivered(resp.status, statusText, resp.body), read, chatId, model);
            (resp == Success <==> chatId != "" && model != "")
            && (r.Ok? <==> chatId != "" && model != "")
            && (!(chatId != "" && model != "") ==> r == Err("Missing chatId or model"))
  {
  }

  /** The chat object the create-chat endpoint answers a payload with. */
  lemma RouteChatOf(p: CreatePayload, freshId: string, now: int)
    requires p.userId != ""
    ensures var resp := CreateChatRoute(Ok(PayloadJson(p)), freshId, now);
            resp.status == 200
            && resp.body == JObj(map["chat" := RouteChat(freshId, if p.title != "" then p.title else DefaultTitle,
                                                         if p.model != "" then p.model else DefaultModel,
                                                         p.userId, now, p.projectId)])
  {
  }

  /** The chat object of a create-chat reply. */
  function RouteChat(id: string, title: string, model: string, userId: string, now: int, projectId: Option<string>): Json {
    JObj(map[
      "id" := JStr(id),
      "title" := JStr(title),
      "model" := JStr(model),
      "user_id" := JStr(userId),
      "created_at" := JNum(now),
      "updated_at" := JNum(now),
      "project_id" := if Present(projectId) then JStr(projectId.value) else JNull,
      "public" := JBool(true),
      "pinned" := JBool(false),
      "pinned_at" := JNull])
  }

  /** Reading back the chat object of a create-chat reply gives the record it describes. */
  lemma ReadRouteChat(id: string, title: string, model: string, userId: string, now: int, projectId: Option<string>)
    ensures ReadChat(RouteChat(id, title, model, userId, now, projectId))
            == Some(ServerChat(id, title, Some(now), model, userId, Some(true), Some(now),
                               if Present(projectId) then projectId else None, Some(false), None))
  {
    var c := RouteChat(id, title, model, userId, now, projectId);
    assert StrField(c, "id") == Some(id) && StrField(c, "title") == Some(title);
    assert StrField(c, "model") == Some(model) && StrField(c, "user_id") == Some(userId);
    assert NumField(c, "created_at") == Some(now) && NumField(c, "updated_at") == Some(now);
    assert NumField(c, "pinned_at") == None;
    assert BoolField(c, "public") == Some(true) && BoolField(c, "pinned") == Some(false);
    assert StrField(c, "project_id") == if Present(projectId) then projectId else None;
  }

  /** A reply whose only field is `chat` reads as that chat and no error. */
  lemma ReadReplyOfChat(chat: Json)
    ensures ReadReply(JObj(map["chat" := chat])) == ChatReply(None, ReadChat(chat))
  {
    assert StrField(JObj(map["chat" := chat]), "error") == None;
  }

  /** A payload with a user id is answered with a chat that reads back as the record it describes. */
  lemma AcceptedReply(p: CreatePayload, freshId: string, now: int)
    requires p.userId != ""
    ensures var resp := CreateChatRoute(Ok(PayloadJson(p)), freshId, now);
            resp.status == 200
            && ReadReply(resp.body)
               == ChatReply(None, Some(ServerChat(freshId, if p.title != "" then p.title else DefaultTitle, Some(now),
                                                  if p.model != "" then p.model else DefaultModel, p.userId,
                                                  Some(true), Some(now),
                                                  if Present(p.projectId) then p.projectId else None,
                                                  Some(false), None)))
  {
    var resp := CreateChatRoute(Ok(PayloadJson(p)), freshId, now);
    var t := if p.title != "" then p.title else DefaultTitle;
    var m := if p.model != "" then p.model else DefaultModel;
    var chat := RouteChat(freshId, t, m, p.userId, now, p.projectId);
    RouteChatOf(p, freshId, now);
    ReadReplyOfChat(chat);
    ReadRouteChat(freshId, t, m, p.userId, now, p.projectId);
  }

  /** A payload without a user id is refused, and the refusal reads back as its error text. */
  lemma RefusedReply(p: CreatePayload, freshId: string, now: int)
    requires p.userId == ""
    ensures var resp := CreateChatRoute(Ok(PayloadJson(p)), freshId, now);
            resp == BadRequest("Missing userId") && ReadReply(resp.body) == ChatReply(Some("Missing userId"), None)
  {
  }

  /**
   * The create-chat round trip: the payload createNewChat sends is accepted
   * exactly when the user id is non-empty. The chat read back then carries
   * the fresh id, the payload's title, model, user and project, both
   * timestamps, and is public and unpinned; an empty user id surfaces as
   * the endpoint's "Missing userId".
   */
  lemma CreateRoundTrip(cfg: Config, userId: string, title: Option<string>, model: Option<string>,
                        isAuthenticated: Option<bool>, projectId: Option<string>,
                        freshId: string, now: int, statusText: string, read: ChatsRead)
    ensures var p := NewChatPayload(cfg, userId, title, model, isAuthenticated, projectId);
            var resp := CreateChatRoute(Ok(PayloadJson(p)), freshId, now);
            var out := ChatsApi.CreateNewChat(cfg, userId, title, model, isAuthenticated, projectId,
                                              Delivered(resp.status, statusText, ReadReply(resp.body)), read);
            (out.result.Ok? <==> userId != "")
            && (userId == "" ==> out.result == Err("Missing userId"))
            && (userId != "" ==>
                  out.result.value.0
                  == Chat(freshId, p.title, if p.model != "" then p.model else DefaultModel, userId, None,
                          Some(now), Some(now), p.projectId, Some(true), false, None))
  {
    var p := NewChatPayload(cfg, userId, title, model, isAuthenticated, projectId);
    if userId != "" {
      AcceptedReply(p, freshId, now);
    } else {
      RefusedReply(p, freshId, now);
    }
  }


  /**
   * The guest round trip: the endpoint accepts the body createGuestUser
   * sends exactly when the guest id is non-empty, and the record it returns
   * carries that id and the email derived from it.
   */
  lemma GuestRoundTrip(guestId: string, now: int, statusText: string)
    ensures var resp := CreateGuestRoute(Ok(GuestRequest(guestId)), now);
            var r := ClientApi.CreateGuestUser(Delivered(resp.status, statusText, resp.body));
            (r.Ok? <==> guestId != "")
            && (guestId == "" ==> r == Err("Missing userId"))
            && (guestId != "" ==>
                  var user := Field(r.value, "user").value;
                  user.JObj? && user.fields["id"] == JStr(guestId)
                  && user.fields["email"] == JStr(guestId + "@anonymous.example"))
  {
  }

  /**
   * A rate-limit reply the client cannot use: whether its body does not
   * parse, or it parses to `null` on an ok status, checkLimitsAndNotify
   * returns false with no notice.
   */
  lemma UnusableRateReplyRefuses(cfg: Config, resp: Fetched<Json>)
    requires resp.Unparsable? || (resp.Delivered? && resp.body == JNull)
    ensures CheckLimitsAndNotify(cfg, ClientApi.CheckRateLimits(resp)) == (false, [])
  {
  }

  /** A guest id the client generates is never refused by the endpoint. */
  lemma GeneratedGuestIdAccepted(uuid: string, now: int)
    ensures CreateGuestRoute(Ok(GuestRequest(ClientApi.GuestPrefix + uuid)), now).status == 200
  {
  }

  /**
   * With the counts this server answers, the send-time notice appears
   * exactly when a configured limit equals the alert threshold: the notice
   * depends on configuration only, never on how much was sent.
   */
  lemma NoticeDependsOnlyOnConfig(cfg: Config, userId: string)
    requires userId != ""
    ensures var u := GetMessageUsage(cfg, userId).value;
            var (ok, notices) := CheckLimitsAndNotify(cfg, Ok(UsageBody(u)));
            && ok
            && ((cfg.authDailyMessageLimit == cfg.remainingQueryAlertThreshold) <==>
                (QueriesLeftText(cfg.remainingQueryAlertThreshold, "") in notices))
            && ((cfg.dailyLimitProModels == cfg.remainingQueryAlertThreshold) <==>
                (QueriesLeftText(cfg.remainingQueryAlertThreshold, "pro ") in notices))
  {
    var n := cfg.remainingQueryAlertThreshold;
    var plain := QueriesLeftText(n, "");
    var pro := QueriesLeftText(n, "pro ");
    assert plain != pro by {
      assert |pro| == |plain| + 4;
    }
  }

  /** Creating a chat with a pro model as a guest never yields a record and leaves both counters alone. */
  lemma GuestCannotCreateProChat(cfg: Config, cs: Counters, userId: string, title: Option<string>, model: string,
                                 projectId: Option<string>, freshId: string, now: Instant)
    requires IsProModel(cfg, model)
    ensures var (counters, checked) := CreateChatInDb(cfg, cs, userId, title, model, false, projectId, freshId, now);
            counters == cs && checked.Refused? && checked.message == "You must log in to use this model."
  {
  }

  /** The create-chat route and createChatInDb differ in visibility: the route's chat is public, the other private. */
  lemma CreatedVisibility(cfg: Config, cs: Counters, request: Json, freshId: string, now: Instant,
                          userId: string, model: string, isAuthenticated: bool)
    requires request != JNull && TruthyOpt(Field(request, "userId"))
    requires CheckUsageByModel(cfg, cs, model, isAuthenticated, now).1.Passed?
    ensures Field(CreateChatRoute(Ok(request), freshId, now.ms).body, "chat").value.fields["public"] == JBool(true)
    ensures CreateChatInDb(cfg, cs, userId, None, model, isAuthenticated, None, freshId, now).1.value.isPublic == Some(false)
  {
  }
}

=== FILE: chats_api.dfy ===
/**
 * The chat repository: the `chats` table of the browser object store and
 * the client calls to the chat compatibility endpoints
 * (lib/chat-store/chats/api.ts).
 *
 * The object store itself is not modelled. A read is an input (`ChatsRead`)
 * and every mutating operation returns the value it hands to the store's
 * write call; nothing is assumed about what the store does with records
 * that are missing from a written list.
 */
module ChatsApi {
  import opened Common
  import opened Seqs

  /** A chat record as the client keeps it. Timestamps are milliseconds. */
  datatype Chat = Chat(
    id: string,
    title: string,
    model: string,
    userId: string,
    systemPrompt: Option<string>,
    createdAt: Option<int>,
    updatedAt: Option<int>,
    projectId: Option<string>,
    isPublic: Option<bool>,
    pinned: bool,
    pinnedAt: Option<int>)

  /** What a read of the whole `chats` table produced. */
  datatype ChatsRead =
    | ReadMany(records: seq<Chat>)   // an array of records
    | ReadOne(record: Chat)          // a single record
    | ReadNothing                    // a falsy value
    | ReadFailed                     // the read rejected

  /** The chat object the create-chat endpoint echoes back. */
  datatype ServerChat = ServerChat(
    id: string,
    title: string,
    createdAt: Option<int>,
    model: string,
    userId: string,
    isPublic: Option<bool>,
    updatedAt: Option<int>,
    projectId: Option<string>,
    pinned: Option<bool>,
    pinnedAt: Option<int>)

  /** The body of a create-chat reply: an `error` text and/or a `chat`, or JSON `null`. */
  datatype ChatReply =
    | ChatReply(error: Option<string>, chat: Option<ServerChat>)
    | NullReply

  /** The request body `createNewChat` posts to the create-chat endpoint. */
  datatype CreatePayload = CreatePayload(
    userId: string,
    title: string,
    model: string,
    isAuthenticated: Option<bool>,
    projectId: Option<string>)

  // ---------------------------------------------------------------------
  // Ordering

  /** `updated_at || created_at || 0`: the time a chat last changed. */
  function RecencyTime(c: Chat): int {
    match c.updatedAt
    case Some(t) => t
    case None => c.createdAt.GetOr(0)
  }

  /** Sort key that puts the most recently changed chat first. */
  function NewestFirst(c: Chat): int {
    -RecencyTime(c)
  }

  /** `pinned_at` is set exactly when the chat is pinned. */
  predicate PinConsistent(c: Chat) {
    c.pinned <==> c.pinnedAt.Some?
  }

  /** The records a read delivered, before any ordering. */
  function Records(read: ChatsRead): seq<Chat> {
    match read
    case ReadMany(rs) => rs
    case ReadOne(c) => [c]
    case ReadNothing => []
    case ReadFailed => []
  }

  /** `c` is the first chat of the list that carries `id`. */
  ghost predicate FirstWithId(chats: seq<Chat>, id: string, c: Chat) {
    exists i :: 0 <= i < |chats| && chats[i] == c && c.id == id
                && forall j :: 0 <= j < i ==> chats[j].id != id
  }

  /** The first chat with the given id, as `Array.prototype.find`. */
  function FindById(chats: seq<Chat>, id: string): (r: Option<Chat>)
    ensures r.Some? ==> r.value in chats && r.value.id == id
    ensures r.Some? ==> FirstWithId(chats, id, r.value)
    ensures r.None? <==> forall i :: 0 <= i < |chats| ==> chats[i].id != id
    ensures |chats| > 0 && chats[0].id == id ==> r == Some(chats[0])
  {
    if |chats| == 0 then None
    else if chats[0].id == id then Some(chats[0])
    else
      var r := FindById(chats[1..], id);
      assert r.Some? ==> FirstWithId(chats, id, r.value) by {
        if r.Some? {
          var i :| 0 <= i < |chats[1..]| && chats[1..][i] == r.value && r.value.id == id
                   && forall j :: 0 <= j < i ==> chats[1..][j].id != id;
          assert chats[i + 1] == r.value;
          assert forall j :: 0 <= j < i + 1 ==> chats[j].id != id by {
            forall j | 0 <= j < i + 1
              ensures chats[j].id != id
            {
              if j > 0 {
                assert chats[j] == chats[1..][j - 1];
              }
            }
          }
        }
      }
      r
  }

  /**
   * Every record whose id matches is replaced by `f` of itself; the others,
   * and the order, are kept.
   */
  function MapWhere(chats: seq<Chat>, id: string, f: Chat -> Chat): (r: seq<Chat>)
    ensures |r| == |chats|
    ensures forall i :: 0 <= i < |r| ==> r[i] == if chats[i].id == id then f(chats[i]) else chats[i]
  {
    seq(|chats|, i requires 0 <= i < |chats| => if chats[i].id == id then f(chats[i]) else chats[i])
  }

  /**
   * A reordering of `MapWhere(chats, id, f)`, for an `f` that keeps ids,
   * holds exactly the chats of `chats` whose id is not `id`.
   */
  lemma MapWhereKeepsOthers(chats: seq<Chat>, id: string, f: Chat -> Chat, after: seq<Chat>)
    requires forall c :: f(c).id == c.id
    requires multiset(after) == multiset(MapWhere(chats, id, f))
    ensures forall c: Chat :: c.id != id ==> (c in after <==> c in chats)
  {
    var m := MapWhere(chats, id, f);
    forall c: Chat | c.id != id
      ensures c in after <==> c in chats
    {
      if c in chats {
        var i :| 0 <= i < |chats| && chats[i] == c;
        assert m[i] == c && m[i] in multiset(m);
      }
      if c in after {
        assert c in multiset(m);
        var i :| 0 <= i < |m| && m[i] == c;
        assert c == chats[i];
      }
    }
  }

  /**
   * A reordering of `MapWhere(chats, id, f)`, for an `f` that keeps ids,
   * holds a chat with `id` when `chats` did, and every chat with `id` it
   * holds is `f` of one in `chats`.
   */
  lemma MapWhereKeepsIds(chats: seq<Chat>, id: string, f: Chat -> Chat, after: seq<Chat>)
    requires forall c :: f(c).id == c.id
    requires multiset(after) == multiset(MapWhere(chats, id, f))
    ensures (exists c :: c in chats && c.id == id) ==> exists c :: c in after && c.id == id
    ensures forall c :: c in after && c.id == id ==> exists d :: d in chats && d.id == id && c == f(d)
  {
    var m := MapWhere(chats, id, f);
    if c :| c in chats && c.id == id {
      var i :| 0 <= i < |chats| && chats[i] == c;
      assert m[i].id == id && m[i] in multiset(m);
      assert m[i] in after;
    }
    forall c | c in after && c.id == id
      ensures exists d :: d in chats && d.id == id && c == f(d)
    {
      assert c in multiset(m);
      var i :| 0 <= i < |m| && m[i] == c;
      assert chats[i].id == id && c == f(chats[i]);
    }
  }

  // ---------------------------------------------------------------------
  // Operations

  /**
   * getCachedChats: every record read, most recently changed first; a single
   * record becomes a one-element list, and an empty or failed read gives [].
   */
  function GetCachedChats(read: ChatsRead): (r: seq<Chat>)
    ensures multiset(r) == multiset(Records(read))
    ensures SortedBy(r, NewestFirst)
    ensures read.ReadOne? ==> r == [read.record]
    ensures read.ReadNothing? || read.ReadFailed? ==> r == []
  {
    SortBy(Records(read), NewestFirst)
  }

  /** updateChatTitle: the list written after renaming chat `id` at time `now`. */
  function UpdateChatTitle(read: ChatsRead, id: string, title: string, now: int): (written: seq<Chat>)
    ensures |written| == |GetCachedChats(read)|
    ensures forall i :: 0 <= i < |written| ==>
              var c := GetCachedChats(read)[i];
              if c.id == id then written[i] == c.(title := title, updatedAt := Some(now))
              else written[i] == c
  {
    MapWhere(GetCachedChats(read), id, (c: Chat) => c.(title := title, updatedAt := Some(now)))
  }

  /** The list without any record carrying `id`, the others kept in order and number. */
  function WithoutId(chats: seq<Chat>, id: string): (r: seq<Chat>)
    ensures forall i :: 0 <= i < |r| ==> r[i].id != id && r[i] in chats
    ensures forall c :: c in chats && c.id != id ==> c in r
    ensures (forall c :: c in chats ==> c.id != id) ==> r == chats
    ensures SortedBy(chats, NewestFirst) ==> SortedBy(r, NewestFirst)
    ensures Subsequence(r, chats)
    ensures forall c :: multiset(r)[c] == if c.id == id then 0 else multiset(chats)[c]
  {
    var r := Filter(chats, (c: Chat) => c.id != id);
    assert Subsequence(r, chats) by {
      FilterSubsequence(chats, (c: Chat) => c.id != id);
    }
    assert forall c :: multiset(r)[c] == if c.id == id then 0 else multiset(chats)[c] by {
      FilterCount(chats, (c: Chat) => c.id != id);
    }
    assert SortedBy(chats, NewestFirst) ==> SortedBy(r, NewestFirst) by {
      if SortedBy(chats, NewestFirst) {
        FilterSorted(chats, (c: Chat) => c.id != id, NewestFirst);
      }
    }
    r
  }

  /** deleteChat: the cached list without any record carrying `id`. */
  function DeleteChat(read: ChatsRead, id: string): (written: seq<Chat>)
    ensures forall i :: 0 <= i < |written| ==> written[i].id != id && written[i] in GetCachedChats(read)
    ensures forall c :: c in GetCachedChats(read) && c.id != id ==> c in written
    ensures (forall c :: c in GetCachedChats(read) ==> c.id != id) ==> written == GetCachedChats(read)
    ensures SortedBy(written, NewestFirst)
    ensures Subsequence(written, GetCachedChats(read))
    ensures forall c :: multiset(written)[c] == if c.id == id then 0 else multiset(Records(read))[c]
  {
    WithoutId(GetCachedChats(read), id)
  }

  /**
   * getChat: the first record with the id, or null. The raw read is searched
   * with `.find`, which throws unless the read delivered an array.
   */
  function GetChat(read: ChatsRead, chatId: string): (r: Result<Option<Chat>>)
    ensures r.Ok? <==> read.ReadMany?
    ensures r.Ok? && r.value.Some? ==> r.value.value in read.records && r.value.value.id == chatId
    ensures r.Ok? && r.value.Some? ==> FirstWithId(read.records, chatId, r.value.value)
    ensures r.Ok? && r.value.None? ==> forall c :: c in read.records ==> c.id != chatId
  {
    match read
    case ReadMany(rs) => Ok(FindById(rs, chatId))
    case ReadOne(_) => Err("all.find is not a function")
    case ReadNothing => Err("Cannot read properties of undefined (reading 'find')")
    case ReadFailed => Err("IndexedDB read failed")
  }

  /**
   * createChat: the single record written for a fresh id; it carries no
   * `updated_at`, no project and no pin.
   */
  function CreateChat(userId: string, title: string, model: string, systemPrompt: string,
                      freshId: string, now: int): (r: (string, Chat))
    ensures r.0 == freshId && r.1.id == freshId
    ensures r.1.title == title && r.1.model == model && r.1.userId == userId
    ensures r.1.systemPrompt == Some(systemPrompt) && r.1.createdAt == Some(now)
    ensures r.1.updatedAt.None? && r.1.projectId.None? && !r.1.pinned && r.1.pinnedAt.None?
    ensures PinConsistent(r.1)
  {
    (freshId, Chat(freshId, title, model, userId, Some(systemPrompt), Some(now), None, None, None, false, None))
  }

  /**
   * updateChatModel: when the endpoint answers ok, the cached list with the
   * model of chat `chatId` replaced; `updated_at` is not touched. Otherwise
   * the call throws and nothing is written.
   */
  function UpdateChatModel(resp: Fetched<Json>, read: ChatsRead, chatId: string, model: string): (r: Result<seq<Chat>>)
    ensures r.Ok? <==> resp.Ok()
    ensures resp.Delivered? && !resp.Ok() ==>
              r == Err(Thrown(resp.body, "Failed to update chat model: " + NatToString(resp.status) + " " + resp.statusText))
    ensures resp.Delivered? && !resp.Ok() && resp.body == JNull ==> r == Err(NullRead("error"))
    ensures resp.Unparsable? ==> r == Err(resp.syntaxError)
    ensures resp.NetworkError? ==> r == Err(resp.message)
    ensures r.Ok? ==> |r.value| == |GetCachedChats(read)|
    ensures r.Ok? ==> forall i :: 0 <= i < |r.value| ==>
              var c := GetCachedChats(read)[i];
              r.value[i] == (if c.id == chatId then c.(model := model) else c)
              && r.value[i].updatedAt == c.updatedAt
  {
    match resp
    case NetworkError(m) => Err(m)
    case Unparsable(_, _, syntaxError) => Err(syntaxError)
    case Delivered(status, statusText, body) =>
      if !resp.Ok() then
        Err(Thrown(body, "Failed to update chat model: " + NatToString(status) + " " + statusText))
      else
        Ok(MapWhere(GetCachedChats(read), chatId, (c: Chat) => c.(model := model)))
  }

  /**
   * toggleChatPin: when the endpoint answers ok, the cached list where chat
   * `chatId` is pinned at `now` or unpinned; otherwise the call throws and
   * nothing is written.
   */
  function ToggleChatPin(resp: Fetched<Json>, read: ChatsRead, chatId: string, pinned: bool, now: int): (r: Result<seq<Chat>>)
    ensures r.Ok? <==> resp.Ok()
    ensures resp.Delivered? && !resp.Ok() ==>
              r == Err(Thrown(resp.body, "Failed to update pinned: " + NatToString(resp.status) + " " + resp.statusText))
    ensures resp.Delivered? && !resp.Ok() && resp.body == JNull ==> r == Err(NullRead("error"))
    ensures resp.Unparsable? ==> r == Err(resp.syntaxError)
    ensures resp.NetworkError? ==> r == Err(resp.message)
    ensures r.Ok? ==> |r.value| == |GetCachedChats(read)|
    ensures r.Ok? ==> forall i :: 0 <= i < |r.value| ==>
              var c := GetCachedChats(read)[i];
              if c.id == chatId then
                r.value[i].pinned == pinned && PinConsistent(r.value[i])
                && (pinned ==> r.value[i].pinnedAt == Some(now))
                && r.value[i] == c.(pinned := r.value[i].pinned, pinnedAt := r.value[i].pinnedAt)
              else r.value[i] == c
  {
    match resp
    case NetworkError(m) => Err(m)
    case Unparsable(_, _, syntaxError) => Err(syntaxError)
    case Delivered(status, statusText, body) =>
      if !resp.Ok() then
        Err(Thrown(body, "Failed to update pinned: " + NatToString(status) + " " + statusText))
      else
        Ok(MapWhere(GetCachedChats(read), chatId,
                    (c: Chat) => c.(pinned := pinned, pinnedAt := if pinned then Some(now) else None)))
  }

  /** The request body of createNewChat: titles and models fall back to defaults. */
  function NewChatPayload(cfg: Config, userId: string, title: Option<string>, model: Option<string>,
                          isAuthenticated: Option<bool>, projectId: Option<string>): (p: CreatePayload)
    ensures p.userId == userId && p.isAuthenticated == isAuthenticated
    ensures p.title == (if Present(title) then title.value else "New Chat")
    ensures p.model == (if Present(model) then model.value else cfg.modelDefault)
    ensures p.projectId.Some? <==> Present(projectId)
    ensures p.projectId.Some? ==> p.projectId == projectId
  {
    CreatePayload(userId, OrElse(title, "New Chat"), OrElse(model, cfg.modelDefault), isAuthenticated,
                  if Present(projectId) then projectId else None)
  }

  /** The client record built from the endpoint's chat, with pin and project defaults. */
  function FromServer(sc: ServerChat): (c: Chat)
    ensures c.id == sc.id && c.title == sc.title && c.model == sc.model && c.userId == sc.userId
    ensures c.createdAt == sc.createdAt && c.updatedAt == sc.updatedAt && c.isPublic == sc.isPublic
    ensures c.pinned == (sc.pinned == Some(true))
    ensures c.pinnedAt == sc.pinnedAt
    ensures c.projectId == (if Present(sc.projectId) then sc.projectId else None)
    ensures c.systemPrompt.None?
  {
    Chat(sc.id, sc.title, sc.model, sc.userId, None, sc.createdAt, sc.updatedAt,
         if Present(sc.projectId) then sc.projectId else None,
         sc.isPublic, sc.pinned.GetOr(false), sc.pinnedAt)
  }

  /** What createNewChat sent, and either the error it threw or the new chat and the list written. */
  datatype CreateOutcome = CreateOutcome(payload: CreatePayload, result: Result<(Chat, seq<Chat>)>)

  /**
   * createNewChat: post the payload; on an ok reply that carries a chat,
   * write the new chat in front of the cached list and return it.
   */
  function CreateNewChat(cfg: Config, userId: string, title: Option<string>, model: Option<string>,
                         isAuthenticated: Option<bool>, projectId: Option<string>,
                         resp: Fetched<ChatReply>, read: ChatsRead): (r: CreateOutcome)
    ensures r.payload == NewChatPayload(cfg, userId, title, model, isAuthenticated, projectId)
    ensures r.result.Ok? <==> resp.Ok() && resp.body.ChatReply? && resp.body.chat.Some?
    ensures resp.NetworkError? ==> r.result == Err(resp.message)
    ensures resp.Unparsable? ==> r.result == Err(resp.syntaxError)
    ensures resp.Delivered? && resp.body.NullReply? ==>
              r.result == Err(NullRead(if resp.Ok() then "chat" else "error"))
    ensures resp.Delivered? && resp.body.ChatReply? && r.result.Err? ==>
              r.result.message == OrElse(resp.body.error, "Failed to create chat")
    ensures r.result.Ok? ==>
              var (chat, written) := r.result.value;
              chat == FromServer(resp.body.chat.value)
              && written == [chat] + GetCachedChats(read)
  {
    var payload := NewChatPayload(cfg, userId, title, model, isAuthenticated, projectId);
    match resp
    case NetworkError(m) => CreateOutcome(payload, Err(m))
    case Unparsable(_, _, syntaxError) => CreateOutcome(payload, Err(syntaxError))
    case Delivered(_, _, NullReply) =>
      // `!res.ok || !responseData.chat`: the first property read of `null` throws
      CreateOutcome(payload, Err(NullRead(if resp.Ok() then "chat" else "error")))
    case Delivered(_, _, body) =>
      if !resp.Ok() || body.chat.None? then
        CreateOutcome(payload, Err(OrElse(body.error, "Failed to create chat")))
      else
        var chat := FromServer(body.chat.value);
        CreateOutcome(payload, Ok((chat, [chat] + GetCachedChats(read))))
  }

  // ---------------------------------------------------------------------
  // Properties

  /**
   * The cached list is the stable descending sort by recency: chats that
   * changed at the same time keep the order in which they were read.
   */
  lemma GetCachedChatsStable(read: ChatsRead, t: int)
    ensures KeyRun(GetCachedChats(read), NewestFirst, t) == KeyRun(Records(read), NewestFirst, t)
  {
    SortByStable(Records(read), NewestFirst, t);
  }

  /**
   * Reading back a written list returns it unchanged, so deleting the same
   * id twice writes the same list as deleting it once.
   */
  lemma DeleteChatIdempotent(read: ChatsRead, id: string)
    ensures DeleteChat(ReadMany(DeleteChat(read, id)), id) == DeleteChat(read, id)
  {
    var once := DeleteChat(read, id);
    SortBySorted(once, NewestFirst);
    assert GetCachedChats(ReadMany(once)) == once;
  }

  /** Every record a successful toggle writes keeps `pinned_at` set exactly when pinned. */
  lemma ToggleChatPinConsistent(resp: Fetched<Json>, read: ChatsRead, chatId: string, pinned: bool, now: int)
    requires forall c :: c in Records(read) ==> PinConsistent(c)
    requires resp.Ok()
    ensures forall c :: c in ToggleChatPin(resp, read, chatId, pinned, now).value ==> PinConsistent(c)
  {
    var cached := GetCachedChats(read);
    var written := ToggleChatPin(resp, read, chatId, pinned, now).value;
    forall i | 0 <= i < |written|
      ensures PinConsistent(written[i])
    {
      assert cached[i] in multiset(Records(read));
    }
  }

  /** Searching after replacing the records with an id finds the replacement of what was found before. */
  lemma {:induction false} FindAfterMapWhere(chats: seq<Chat>, id: string, f: Chat -> Chat)
    requires forall c :: f(c).id == c.id
    ensures FindById(MapWhere(chats, id, f), id)
         == if FindById(chats, id).Some? then Some(f(FindById(chats, id).value)) else None
  {
    if |chats| > 0 && chats[0].id != id {
      assert MapWhere(chats, id, f)[1..] == MapWhere(chats[1..], id, f);
      FindAfterMapWhere(chats[1..], id, f);
    }
  }

  /** A chat with the id is found in the cached list exactly when the read delivered one. */
  lemma CachedHasId(read: ChatsRead, id: string)
    ensures FindById(GetCachedChats(read), id).Some? <==> exists c :: c in Records(read) && c.id == id
  {
    var cached := GetCachedChats(read);
    SortByMembers(Records(read), NewestFirst);
    if c :| c in Records(read) && c.id == id {
      assert c in cached;
    }
  }

  /**
   * After updateChatTitle, getChat on the written list finds the chat that
   * was there, renamed and stamped with `now`, and nothing when there was none.
   */
  lemma RenameThenGetChat(read: ChatsRead, id: string, title: string, now: int)
    ensures var g := GetChat(ReadMany(UpdateChatTitle(read, id, title, now)), id);
            g.Ok?
            && (g.value.Some? <==> exists c :: c in Records(read) && c.id == id)
            && (g.value.Some? ==>
                  g.value.value == FindById(GetCachedChats(read), id).value.(title := title, updatedAt := Some(now)))
  {
    FindAfterMapWhere(GetCachedChats(read), id, (c: Chat) => c.(title := title, updatedAt := Some(now)));
    CachedHasId(read, id);
  }

  /**
   * After a successful updateChatModel, getChat finds the chat with the new
   * model and its `updated_at` as it was.
   */
  lemma ModelThenGetChat(resp: Fetched<Json>, read: ChatsRead, chatId: string, model: string)
    requires resp.Ok()
    ensures var g := GetChat(ReadMany(UpdateChatModel(resp, read, chatId, model).value), chatId);
            g.Ok?
            && (g.value.Some? <==> exists c :: c in Records(read) && c.id == chatId)
            && (g.value.Some? ==>
                  var before := FindById(GetCachedChats(read), chatId).value;
                  g.value.value.model == model && g.value.value.updatedAt == before.updatedAt
                  && g.value.value == before.(model := model))
  {
    FindAfterMapWhere(GetCachedChats(read), chatId, (c: Chat) => c.(model := model));
    CachedHasId(read, chatId);
  }

  /** The chat createNewChat writes is the one getChat finds under its id afterwards. */
  lemma CreateThenGetChat(cfg: Config, userId: string, title: Option<string>, model: Option<string>,
                          isAuthenticated: Option<bool>, projectId: Option<string>,
                          resp: Fetched<ChatReply>, read: ChatsRead)
    requires resp.Ok() && resp.body.ChatReply? && resp.body.chat.Some?
    ensures var r := CreateNewChat(cfg, userId, title, model, isAuthenticated, projectId, resp, read);
            r.result.Ok? && GetChat(ReadMany(r.result.value.1), r.result.value.0.id) == Ok(Some(r.result.value.0))
  {
  }

  /** A newly created chat reaches the store unpinned whenever the endpoint says so or says nothing. */
  lemma CreateNewChatUnpinned(cfg: Config, userId: string, title: Option<string>, model: Option<string>,
                              isAuthenticated: Option<bool>, projectId: Option<string>,
                              resp: Fetched<ChatReply>, read: ChatsRead)
    requires resp.Ok() && resp.body.ChatReply? && resp.body.chat.Some?
    requires resp.body.chat.value.pinned != Some(true) && resp.body.chat.value.pinnedAt.None?
    ensures var r := CreateNewChat(cfg, userId, title, model, isAuthenticated, projectId, resp, read);
            r.result.Ok? && !r.result.value.0.pinned && PinConsistent(r.result.value.1[0])
  {
  }
}

=== FILE: chats_provider.dfy ===
/**
 * The chat-list provider (lib/chat-store/chats/provider.tsx): an in-memory
 * list of chats that every mutation changes optimistically before calling
 * the repository, and restores to the exact pre-call snapshot when that
 * call throws.
 *
 * React state updates are applied in order; the repository's outcome is an
 * input (`persisted`), and a toast is recorded by its title.
 */
module ChatsProvider {
  import opened Common
  import opened Seqs
  import opened ChatsApi

  /** The provider's state. */
  datatype ChatsState = ChatsState(chats: seq<Chat>, isLoading: bool)

  /** The list after a mutation, and the error toast it raised, if any. */
  datatype Step = Step(chats: seq<Chat>, toast: Option<string>)

  /**
   * The optimistic-update protocol: keep the optimistic list when the
   * repository call succeeded, otherwise restore the snapshot and toast.
   */
  function Commit(snapshot: seq<Chat>, optimistic: seq<Chat>, persisted: bool, failure: string): (r: Step)
    ensures persisted ==> r == Step(optimistic, None)
    ensures !persisted ==> r == Step(snapshot, Some(failure))
  {
    if persisted then Step(optimistic, None) else Step(snapshot, Some(failure))
  }

  /** Sort key of the provider's own re-sorts: latest `updated_at` first. */
  function LatestUpdateFirst(c: Chat): int {
    -c.updatedAt.GetOr(0)
  }

  /** Every chat carries `updated_at`, which the provider's comparators read. */
  predicate AllUpdated(chats: seq<Chat>) {
    forall i :: 0 <= i < |chats| ==> chats[i].updatedAt.Some?
  }

  /** Sort key of the pinned view: latest `pinned_at` first, a missing one counting as 0. */
  function LatestPinFirst(c: Chat): int {
    -c.pinnedAt.GetOr(0)
  }

  /** A chat shown in the pinned view: pinned and outside any project. */
  predicate InPinnedView(c: Chat) {
    c.pinned && !Present(c.projectId)
  }

  // ---------------------------------------------------------------------
  // Loading

  /**
   * The load effect: nothing while the user is loading; otherwise the cached
   * list, re-read when a user id is known, and loading ends.
   */
  function Load(st: ChatsState, userLoading: bool, userId: Option<string>,
                cachedRead: ChatsRead, freshRead: ChatsRead): (r: ChatsState)
    ensures userLoading ==> r == st
    ensures !userLoading ==> !r.isLoading
    ensures !userLoading && Present(userId) ==> r.chats == GetCachedChats(freshRead)
    ensures !userLoading && !Present(userId) ==> r.chats == GetCachedChats(cachedRead)
  {
    if userLoading then st
    else if Present(userId) then ChatsState(GetCachedChats(freshRead), false)
    else ChatsState(GetCachedChats(cachedRead), false)
  }

  /** refresh: re-read the cached list, only when a user id is known. */
  function Refresh(chats: seq<Chat>, userId: Option<string>, read: ChatsRead): (r: seq<Chat>)
    ensures !Present(userId) ==> r == chats
    ensures Present(userId) ==> multiset(r) == multiset(Records(read)) && SortedBy(r, NewestFirst)
  {
    if Present(userId) then GetCachedChats(read) else chats
  }

  // ---------------------------------------------------------------------
  // Mutations

  /**
   * updateTitle: rename chat `id` at `now` and re-sort by `updated_at`;
   * on a failed write the list is the snapshot again.
   */
  function UpdateTitle(chats: seq<Chat>, id: string, title: string, now: int, persisted: bool): (r: Step)
    requires AllUpdated(chats)
    ensures !persisted ==> r.chats == chats && r.toast == Some("Failed to update title")
    ensures persisted ==> r.toast.None? && |r.chats| == |chats|
    ensures persisted ==> SortedBy(r.chats, LatestUpdateFirst)
    ensures persisted ==> forall c :: c in r.chats ==>
              if c.id == id then c.title == title && c.updatedAt == Some(now)
              else c in chats
    ensures persisted ==> forall c :: c in chats && c.id != id ==> c in r.chats
    ensures persisted ==>
              multiset(r.chats) == multiset(MapWhere(chats, id, (c: Chat) => c.(title := title, updatedAt := Some(now))))
  {
    var renamed := MapWhere(chats, id, (c: Chat) => c.(title := title, updatedAt := Some(now)));
    var sorted := SortBy(renamed, LatestUpdateFirst);
    MapWhereKeepsOthers(chats, id, (c: Chat) => c.(title := title, updatedAt := Some(now)), sorted);
    MapWhereKeepsIds(chats, id, (c: Chat) => c.(title := title, updatedAt := Some(now)), sorted);
    Commit(chats, sorted, persisted, "Failed to update title")
  }

  /** The outcome of deleteChat: the step, and whether `redirect` was called. */
  datatype DeleteStep = DeleteStep(step: Step, redirected: bool)

  /**
   * deleteChat: drop every chat with `id`; redirect only after a successful
   * delete of the chat currently open.
   */
  function DeleteChat(chats: seq<Chat>, id: string, currentChatId: Option<string>,
                      hasRedirect: bool, persisted: bool): (r: DeleteStep)
    ensures !persisted ==> r.step == Step(chats, Some("Failed to delete chat")) && !r.redirected
    ensures r.redirected <==> persisted && currentChatId == Some(id) && hasRedirect
    ensures persisted ==> r.step.toast.None?
    ensures persisted ==> forall c :: c in r.step.chats <==> c in chats && c.id != id
    ensures persisted ==> Subsequence(r.step.chats, chats)
    ensures persisted ==> forall c :: multiset(r.step.chats)[c] == if c.id == id then 0 else multiset(chats)[c]
  {
    var kept := WithoutId(chats, id);
    DeleteStep(Commit(chats, kept, persisted, "Failed to delete chat"),
               persisted && currentChatId == Some(id) && hasRedirect)
  }

  /** The placeholder shown while the create-chat call is in flight. */
  function OptimisticChat(cfg: Config, title: Option<string>, model: Option<string>,
                          systemPrompt: Option<string>, userId: string, nowMs: nat): (c: Chat)
    ensures c.id == "optimistic-" + NatToString(nowMs)
    ensures c.title == OrElse(title, "New Chat") && c.model == OrElse(model, cfg.modelDefault)
    ensures c.systemPrompt == Some(OrElse(systemPrompt, cfg.systemPromptDefault))
    ensures c.userId == userId && c.isPublic == Some(true)
    ensures !c.pinned && c.pinnedAt.None? && c.projectId.None? && PinConsistent(c)
  {
    Chat("optimistic-" + NatToString(nowMs), OrElse(title, "New Chat"), OrElse(model, cfg.modelDefault),
         userId, Some(OrElse(systemPrompt, cfg.systemPromptDefault)), Some(nowMs), Some(nowMs),
         None, Some(true), false, None)
  }

  /** The outcome of createNewChat: the step and the chat it returned, if any. */
  datatype CreateStep = CreateStep(step: Step, created: Option<Chat>)

  /**
   * createNewChat: without a user id nothing happens. Otherwise the
   * placeholder goes in front; a created chat replaces it, a failure
   * restores the snapshot.
   */
  function CreateNewChat(chats: seq<Chat>, cfg: Config, title: Option<string>, model: Option<string>,
                         systemPrompt: Option<string>, userIdArg: Option<string>,
                         contextUserId: Option<string>, nowMs: nat, created: Result<Chat>): (r: CreateStep)
    ensures !Present(userIdArg) && !Present(contextUserId) ==> r == CreateStep(Step(chats, None), None)
    ensures (Present(userIdArg) || Present(contextUserId)) && created.Err? ==>
              r == CreateStep(Step(chats, Some("Failed to create chat")), None)
    ensures (Present(userIdArg) || Present(contextUserId)) && created.Ok? ==>
              r.created == Some(created.value) && r.step.toast.None?
              && |r.step.chats| > 0 && r.step.chats[0] == created.value
              && (forall c :: c in r.step.chats[1..] <==> c in chats && c.id != "optimistic-" + NatToString(nowMs))
              && Subsequence(r.step.chats[1..], chats)
              && (forall c :: multiset(r.step.chats[1..])[c]
                                == if c.id == "optimistic-" + NatToString(nowMs) then 0 else multiset(chats)[c])
  {
    var userId := if Present(userIdArg) then userIdArg else contextUserId;
    if !Present(userId) then CreateStep(Step(chats, None), None)
    else
      var placeholder := OptimisticChat(cfg, title, model, systemPrompt, userId.value, nowMs);
      var optimistic := [placeholder] + chats;
      match created
      case Err(_) => CreateStep(Step(chats, Some("Failed to create chat")), None)
      case Ok(chat) =>
        var rest := Filter(optimistic, (c: Chat) => c.id != placeholder.id);
        FilterAppend([placeholder], chats, (c: Chat) => c.id != placeholder.id);
        assert Filter([placeholder], (c: Chat) => c.id != placeholder.id) == [];
        assert rest == WithoutId(chats, placeholder.id);
        assert ([chat] + rest)[1..] == rest;
        CreateStep(Step([chat] + rest, None), Some(chat))
  }

  /** resetChats: the list becomes empty. */
  function ResetChats(st: ChatsState): (r: ChatsState)
    ensures r.chats == [] && r.isLoading == st.isLoading
  {
    st.(chats := [])
  }

  /** getChatById: the first chat with the id. */
  function GetChatById(chats: seq<Chat>, id: string): (r: Option<Chat>)
    ensures r.Some? ==> r.value in chats && r.value.id == id
    ensures r.None? <==> forall c :: c in chats ==> c.id != id
    ensures r.Some? ==> FirstWithId(chats, id, r.value)
  {
    FindById(chats, id)
  }

  /** updateChatModel: change only the model of chat `id`, keeping the order. */
  function UpdateChatModel(chats: seq<Chat>, id: string, model: string, persisted: bool): (r: Step)
    ensures !persisted ==> r == Step(chats, Some("Failed to update model"))
    ensures persisted ==> r.toast.None? && |r.chats| == |chats|
    ensures persisted ==> forall i :: 0 <= i < |chats| ==>
              r.chats[i] == if chats[i].id == id then chats[i].(model := model) else chats[i]
  {
    Commit(chats, MapWhere(chats, id, (c: Chat) => c.(model := model)), persisted, "Failed to update model")
  }

  /** bumpChat: mark chat `id` as updated at `now` and re-sort; nothing is persisted. */
  function BumpChat(chats: seq<Chat>, id: string, now: int): (r: seq<Chat>)
    requires AllUpdated(chats)
    ensures |r| == |chats| && AllUpdated(r)
    ensures SortedBy(r, LatestUpdateFirst)
    ensures forall c :: c in r ==> if c.id == id then c.updatedAt == Some(now) else c in chats
    ensures forall c :: c in chats ==> c.id == id || c in r
    ensures multiset(r) == multiset(MapWhere(chats, id, (c: Chat) => c.(updatedAt := Some(now))))
  {
    var bumped := MapWhere(chats, id, (c: Chat) => c.(updatedAt := Some(now)));
    var sorted := SortBy(bumped, LatestUpdateFirst);
    MapWhereKeepsOthers(chats, id, (c: Chat) => c.(updatedAt := Some(now)), sorted);
    MapWhereKeepsIds(chats, id, (c: Chat) => c.(updatedAt := Some(now)), sorted);
    assert AllUpdated(sorted) by {
      forall i | 0 <= i < |sorted| ensures sorted[i].updatedAt.Some? {
        assert sorted[i] in sorted;
      }
    }
    sorted
  }

  /**
   * togglePinned: pin chat `id` at `now` or unpin it, re-sort by recency;
   * a failed call restores the snapshot.
   */
  function TogglePinned(chats: seq<Chat>, id: string, pinned: bool, now: int, persisted: bool): (r: Step)
    ensures !persisted ==> r == Step(chats, Some("Failed to update pin"))
    ensures persisted ==> r.toast.None? && |r.chats| == |chats| && SortedBy(r.chats, NewestFirst)
    ensures persisted ==> forall c :: c in r.chats && c.id == id ==>
              c.pinned == pinned && PinConsistent(c) && (pinned ==> c.pinnedAt == Some(now))
    ensures persisted ==> forall c :: c in r.chats && c.id != id ==> c in chats
    ensures persisted ==>
              multiset(r.chats) == multiset(MapWhere(chats, id, (c: Chat) => c.(pinned := pinned, pinnedAt := if pinned then Some(now) else None)))
  {
    var toggled := MapWhere(chats, id, (c: Chat) => c.(pinned := pinned, pinnedAt := if pinned then Some(now) else None));
    var sorted := SortBy(toggled, NewestFirst);
    MapWhereKeepsOthers(chats, id, (c: Chat) => c.(pinned := pinned, pinnedAt := if pinned then Some(now) else None), sorted);
    MapWhereKeepsIds(chats, id, (c: Chat) => c.(pinned := pinned, pinnedAt := if pinned then Some(now) else None), sorted);
    Commit(chats, sorted, persisted, "Failed to update pin")
  }

  /**
   * pinnedChats: exactly the pinned chats outside any project, latest pin
   * first.
   */
  function PinnedChats(chats: seq<Chat>): (r: seq<Chat>)
    ensures multiset(r) == multiset(Filter(chats, InPinnedView))
    ensures forall c :: c in r <==> c in chats && InPinnedView(c)
    ensures SortedBy(r, LatestPinFirst)
  {
    var view := Filter(chats, InPinnedView);
    var r := SortBy(view, LatestPinFirst);
    SortByMembers(view, LatestPinFirst);
    r
  }

  // ---------------------------------------------------------------------
  // Properties

  /**
   * A successful toggle keeps "pinned_at set iff pinned" for the whole list,
   * keeps every other chat, and keeps a chat with the id when there was one.
   */
  lemma TogglePinnedKeepsConsistency(chats: seq<Chat>, id: string, pinned: bool, now: int)
    requires forall c :: c in chats ==> PinConsistent(c)
    ensures var after := TogglePinned(chats, id, pinned, now, true).chats;
            (forall c :: c in after ==> PinConsistent(c))
            && (forall c :: c in chats && c.id != id ==> c in after)
            && ((exists c :: c in chats && c.id == id) ==> exists c :: c in after && c.id == id)
  {
    var after := TogglePinned(chats, id, pinned, now, true).chats;
    MapWhereKeepsOthers(chats, id, (c: Chat) => c.(pinned := pinned, pinnedAt := if pinned then Some(now) else None), after);
    MapWhereKeepsIds(chats, id, (c: Chat) => c.(pinned := pinned, pinnedAt := if pinned then Some(now) else None), after);
  }

  /**
   * Pinning and then unpinning a chat leaves it in the list, unpinned and
   * with no pin time, and keeps every other chat.
   */
  lemma PinThenUnpin(chats: seq<Chat>, id: string, t1: int, t2: int)
    ensures var after := TogglePinned(TogglePinned(chats, id, true, t1, true).chats, id, false, t2, true).chats;
            (forall c :: c in after && c.id == id ==> !c.pinned && c.pinnedAt.None?)
            && (forall c :: c in chats && c.id != id ==> c in after)
            && ((exists c :: c in chats && c.id == id) ==> exists c :: c in after && c.id == id)
  {
    var mid := TogglePinned(chats, id, true, t1, true).chats;
    var after := TogglePinned(mid, id, false, t2, true).chats;
    MapWhereKeepsOthers(chats, id, (c: Chat) => c.(pinned := true, pinnedAt := if true then Some(t1) else None), mid);
    MapWhereKeepsIds(chats, id, (c: Chat) => c.(pinned := true, pinnedAt := if true then Some(t1) else None), mid);
    MapWhereKeepsOthers(mid, id, (c: Chat) => c.(pinned := false, pinnedAt := if false then Some(t2) else None), after);
    MapWhereKeepsIds(mid, id, (c: Chat) => c.(pinned := false, pinnedAt := if false then Some(t2) else None), after);
  }

  /** The chat createNewChat returns is the one getChatById finds under its id. */
  lemma CreateThenGetChatById(chats: seq<Chat>, cfg: Config, title: Option<string>, model: Option<string>,
                              systemPrompt: Option<string>, userIdArg: Option<string>,
                              contextUserId: Option<string>, nowMs: nat, created: Result<Chat>)
    requires Present(userIdArg) || Present(contextUserId)
    requires created.Ok?
    ensures var r := CreateNewChat(chats, cfg, title, model, systemPrompt, userIdArg, contextUserId, nowMs, created);
            GetChatById(r.step.chats, created.value.id) == Some(created.value)
  {
  }

  /**
   * After a persisted updateTitle, getChatById finds a chat with the id
   * exactly when there was one, and it carries the new title and time.
   */
  lemma RenameThenGetChatById(chats: seq<Chat>, id: string, title: string, now: int)
    requires AllUpdated(chats)
    ensures var g := GetChatById(UpdateTitle(chats, id, title, now, true).chats, id);
            (g.Some? <==> exists c :: c in chats && c.id == id)
            && (g.Some? ==> g.value.title == title && g.value.updatedAt == Some(now))
  {
    var after := UpdateTitle(chats, id, title, now, true).chats;
    MapWhereKeepsIds(chats, id, (c: Chat) => c.(title := title, updatedAt := Some(now)), after);
  }

  /** In a list sorted latest update first, a chat updated later than all others comes first. */
  lemma LatestIsFirst(r: seq<Chat>, j: int, id: string, now: int)
    requires SortedBy(r, LatestUpdateFirst)
    requires 0 <= j < |r| && r[j].updatedAt == Some(now)
    requires forall c :: c in r && c.id != id ==> c.updatedAt.GetOr(0) < now
    ensures r[0].id == id
  {
    assert LatestUpdateFirst(r[0]) <= LatestUpdateFirst(r[j]);
  }

  /**
   * Bumping a chat at a time later than every `updated_at` in the list
   * brings it to the top.
   */
  lemma BumpPutsChatFirst(chats: seq<Chat>, id: string, now: int)
    requires AllUpdated(chats)
    requires exists c :: c in chats && c.id == id
    requires forall c :: c in chats ==> c.updatedAt.GetOr(0) < now
    ensures var r := BumpChat(chats, id, now);
            |r| > 0 && r[0].id == id && r[0].updatedAt == Some(now)
  {
    var r := BumpChat(chats, id, now);
    var c :| c in chats && c.id == id;
    var i :| 0 <= i < |chats| && chats[i] == c;
    var m := MapWhere(chats, id, (c: Chat) => c.(updatedAt := Some(now)));
    assert m[i].id == id && m[i] in multiset(r);
    var j :| 0 <= j < |r| && r[j] == m[i];
    LatestIsFirst(r, j, id, now);
  }

  /** A failed mutation of any kind leaves exactly the snapshot. */
  lemma FailedMutationsRollBack(chats: seq<Chat>, id: string, title: string, model: string, pinned: bool, now: int)
    requires AllUpdated(chats)
    ensures UpdateTitle(chats, id, title, now, false).chats == chats
    ensures DeleteChat(chats, id, Some(id), true, false).step.chats == chats
    ensures UpdateChatModel(chats, id, model, false).chats == chats
    ensures TogglePinned(chats, id, pinned, now, false).chats == chats
  {
  }

  /** The pinned view only shows chats that are consistent pins when the list is. */
  lemma PinnedViewHasPinTimes(chats: seq<Chat>)
    requires forall c :: c in chats ==> PinConsistent(c)
    ensures forall c :: c in PinnedChats(chats) ==> c.pinnedAt.Some?
  {
  }

  /**
   * The re-sorts are stable, as `Array.prototype.sort` is: chats that tie
   * on the sort key keep the order they had in the updated list.
   */
  lemma UpdateTitleStable(chats: seq<Chat>, id: string, title: string, now: int, t: int)
    requires AllUpdated(chats)
    ensures KeyRun(UpdateTitle(chats, id, title, now, true).chats, LatestUpdateFirst, t)
         == KeyRun(MapWhere(chats, id, (c: Chat) => c.(title := title, updatedAt := Some(now))), LatestUpdateFirst, t)
  {
    SortByStable(MapWhere(chats, id, (c: Chat) => c.(title := title, updatedAt := Some(now))), LatestUpdateFirst, t);
  }

  /** Bumped chats that tie on `updated_at` keep their order. */
  lemma BumpChatStable(chats: seq<Chat>, id: string, now: int, t: int)
    requires AllUpdated(chats)
    ensures KeyRun(BumpChat(chats, id, now), LatestUpdateFirst, t)
         == KeyRun(MapWhere(chats, id, (c: Chat) => c.(updatedAt := Some(now))), LatestUpdateFirst, t)
  {
    SortByStable(MapWhere(chats, id, (c: Chat) => c.(updatedAt := Some(now))), LatestUpdateFirst, t);
  }

  /** After a pin toggle, chats that tie on recency keep their order. */
  lemma TogglePinnedStable(chats: seq<Chat>, id: string, pinned: bool, now: int, t: int)
    ensures KeyRun(TogglePinned(chats, id, pinned, now, true).chats, NewestFirst, t)
         == KeyRun(MapWhere(chats, id, (c: Chat) => c.(pinned := pinned, pinnedAt := if pinned then Some(now) else None)), NewestFirst, t)
  {
    SortByStable(MapWhere(chats, id, (c: Chat) => c.(pinned := pinned, pinnedAt := if pinned then Some(now) else None)), NewestFirst, t);
  }

  /** Pinned chats that tie on pin time keep their list order. */
  lemma PinnedChatsStable(chats: seq<Chat>, t: int)
    ensures KeyRun(PinnedChats(chats), LatestPinFirst, t) == KeyRun(Filter(chats, InPinnedView), LatestPinFirst, t)
  {
    SortByStable(Filter(chats, InPinnedView), LatestPinFirst, t);
  }
}

=== FILE: client_api.dfy ===
/**
 * The client helpers of lib/api.ts: creating the guest record, the rate
 * limit query and the guest id kept in localStorage. The `fetch` replies are
 * inputs; the error an unsuccessful reply throws carries the body's `error`
 * or a status line.
 */
module ClientApi {
  import opened Common
  import opened LocalStorage

  const GuestIdKey := "zola_guest_id"
  const GuestPrefix := "guest_"

  /** `${res.status} ${res.statusText}`. */
  function StatusLine(status: nat, statusText: string): (s: string)
    ensures |s| > |statusText|
  {
    NatToString(status) + " " + statusText
  }

  /** The outcome of a client call whose reply is JSON and whose failure throws. */
  function JsonCall(resp: Fetched<Json>, failure: string): (r: Result<Json>)
    ensures resp.NetworkError? ==> r == Err(resp.message)
    ensures resp.Unparsable? ==> r == Err(resp.syntaxError)
    ensures resp.Ok() ==> r == Ok(resp.body)
    ensures resp.Delivered? && !resp.Ok() && resp.body == JNull ==> r == Err(NullRead("error"))
    ensures resp.Delivered? && !resp.Ok() && resp.body != JNull ==>
              r == Err(ErrorMessage(resp.body, failure + StatusLine(resp.status, resp.statusText)))
  {
    match resp
    case NetworkError(m) => Err(m)
    case Unparsable(_, _, syntaxError) => Err(syntaxError)
    case Delivered(status, statusText, body) =>
      if resp.Ok() then Ok(body)
      else Err(Thrown(body, failure + StatusLine(status, statusText)))
  }

  /** createGuestUser. */
  function CreateGuestUser(resp: Fetched<Json>): (r: Result<Json>)
    ensures r.Ok? <==> resp.Ok()
    ensures r.Ok? ==> r.value == resp.body
    ensures resp.Unparsable? ==> r == Err(resp.syntaxError)
    ensures resp.Delivered? && !resp.Ok() && resp.body == JNull ==> r == Err(NullRead("error"))
    ensures resp.Delivered? && !resp.Ok() && TruthyOpt(Field(resp.body, "error"))
            && Field(resp.body, "error").value.JStr? ==>
              r == Err(Field(resp.body, "error").value.s)
    ensures resp.Delivered? && !resp.Ok() && resp.body != JNull && !TruthyOpt(Field(resp.body, "error")) ==>
              r == Err("Failed to create guest user: " + StatusLine(resp.status, resp.statusText))
  {
    JsonCall(resp, "Failed to create guest user: ")
  }

  /** checkRateLimits: the reply's JSON, or the error it throws. */
  function CheckRateLimits(resp: Fetched<Json>): (r: Result<Json>)
    ensures r.Ok? <==> resp.Ok()
    ensures r.Ok? ==> r.value == resp.body
    ensures resp.Unparsable? ==> r == Err(resp.syntaxError)
    ensures resp.Delivered? && !resp.Ok() && resp.body == JNull ==> r == Err(NullRead("error"))
    ensures resp.Delivered? && !resp.Ok() && TruthyOpt(Field(resp.body, "error"))
            && Field(resp.body, "error").value.JStr? ==>
              r == Err(Field(resp.body, "error").value.s)
    ensures resp.Delivered? && !resp.Ok() && resp.body != JNull && !TruthyOpt(Field(resp.body, "error")) ==>
              r == Err("Failed to check rate limits: " + StatusLine(resp.status, resp.statusText))
  {
    JsonCall(resp, "Failed to check rate limits: ")
  }

  /** The result of getOrCreateGuestUserId: the id, storage afterwards, and whether the server was asked. */
  datatype GuestId = GuestId(id: string, storage: Storage, createdOnServer: bool)

  /**
   * getOrCreateGuestUserId: the profile's id when it has one; else the
   * stored guest id; else a fresh "guest_" id, stored before the server is
   * asked to create the record and returned whatever the server answers.
   */
  function GetOrCreateGuestUserId(userId: Option<string>, ls: Storage, uuid: string, resp: Fetched<Json>): (r: GuestId)
    ensures Present(userId) ==> r == GuestId(userId.value, ls, false)
    ensures !Present(userId) && GuestIdKey in ls && ls[GuestIdKey].Raw? && ls[GuestIdKey].text != "" ==>
              r == GuestId(ls[GuestIdKey].text, ls, false)
    ensures !Present(userId) && !(GuestIdKey in ls && ls[GuestIdKey].Raw? && ls[GuestIdKey].text != "") ==>
              r == GuestId(GuestPrefix + uuid, ls[GuestIdKey := Raw(GuestPrefix + uuid)], true)
  {
    if Present(userId) then GuestId(userId.value, ls, false)
    else if GuestIdKey in ls && ls[GuestIdKey].Raw? && ls[GuestIdKey].text != "" then
      GuestId(ls[GuestIdKey].text, ls, false)
    else
      var guestId := GuestPrefix + uuid;
      var stored := ls[GuestIdKey := Raw(guestId)];
      // the reply of createGuestUser is caught and ignored
      var _ := CreateGuestUser(resp);
      GuestId(guestId, stored, true)
  }

  /** A second call finds the id the first one stored: the guest id is created once. */
  lemma GuestIdCreatedOnce(ls: Storage, uuid1: string, uuid2: string, resp1: Fetched<Json>, resp2: Fetched<Json>)
    ensures var first := GetOrCreateGuestUserId(None, ls, uuid1, resp1);
            var second := GetOrCreateGuestUserId(None, first.storage, uuid2, resp2);
            second.id == first.id && second.storage == first.storage && !second.createdOnServer
  {
  }

  /** A failing server call does not change the id that is returned. */
  lemma GuestIdIgnoresServer(userId: Option<string>, ls: Storage, uuid: string, resp1: Fetched<Json>, resp2: Fetched<Json>)
    ensures GetOrCreateGuestUserId(userId, ls, uuid, resp1) == GetOrCreateGuestUserId(userId, ls, uuid, resp2)
  {
  }
}

=== FILE: common.dfy ===
/**
 * Shared vocabulary of the local chat store model: optional values, thrown
 * errors, JSON values with JavaScript truthiness, the small string helpers
 * the application uses (prefix test, substring search, split on a
 * separator, number formatting) and the configuration constants that the
 * application imports from its config module.
 */
module Common {

  /** A value that may be missing (`null` or `undefined` in the source). */
  datatype Option<+T> = None | Some(value: T) {
    function GetOr(default: T): T {
      match this
      case Some(v) => v
      case None => default
    }
  }

  /** The outcome of a call that may throw; `Err` carries the error's message. */
  datatype Result<+T> = Ok(value: T) | Err(message: string)

  /** A parsed JSON value. Numbers are restricted to integers. */
  datatype Json =
    | JNull
    | JBool(b: bool)
    | JNum(n: int)
    | JStr(s: string)
    | JArr(items: seq<Json>)
    | JObj(fields: map<string, Json>)

  /** JavaScript truthiness of a JSON value. */
  predicate Truthy(j: Json) {
    match j
    case JNull => false
    case JBool(b) => b
    case JNum(n) => n != 0
    case JStr(s) => s != ""
    case JArr(_) => true
    case JObj(_) => true
  }

  /** Truthiness of a possibly absent (`undefined`) value. */
  predicate TruthyOpt(o: Option<Json>) {
    o.Some? && Truthy(o.value)
  }

  /** Truthiness of an optional string: present and non-empty. */
  predicate Present(o: Option<string>) {
    o.Some? && o.value != ""
  }

  /** Property lookup `j[k]`: `None` stands for `undefined`. */
  function Field(j: Json, k: string): (r: Option<Json>)
    ensures r.Some? <==> j.JObj? && k in j.fields
    ensures r.Some? ==> r.value == j.fields[k]
  {
    if j.JObj? && k in j.fields then Some(j.fields[k]) else None
  }

  /** `a || b` on an optional string. */
  function OrElse(a: Option<string>, b: string): (r: string)
    ensures Present(a) ==> r == a.value
    ensures !Present(a) ==> r == b
  {
    if Present(a) then a.value else b
  }

  /**
   * The reply of a `fetch` call as the client reads it with `res.json()`:
   * delivered with a body that parses, delivered with a body that does not
   * (`res.json()` then throws a SyntaxError carrying `syntaxError`), or
   * failed in transport.
   */
  datatype Fetched<B> =
    | Delivered(status: nat, statusText: string, body: B)
    | Unparsable(status: nat, statusText: string, syntaxError: string)
    | NetworkError(message: string)
  {
    /** `res.ok` of a reply whose body parsed. */
    predicate Ok() {
      Delivered? && 200 <= status <= 299
    }
  }

  /** `value || fallback` on a JSON value that may be undefined. */
  function OrJson(value: Option<Json>, fallback: Json): (r: Json)
    ensures TruthyOpt(value) ==> r == value.value
    ensures !TruthyOpt(value) ==> r == fallback
  {
    if TruthyOpt(value) then value.value else fallback
  }

  /** An HTTP response of a route handler: status and JSON body. */
  datatype Response = Response(status: nat, body: Json)

  /** A 400 response whose body is `{error: message}`. */
  function BadRequest(message: string): (r: Response)
    ensures r.status == 400 && Field(r.body, "error") == Some(JStr(message))
  {
    Response(400, JObj(map["error" := JStr(message)]))
  }

  /** A 500 response whose body is `{error: message}`. */
  function ServerError(message: string): (r: Response)
    ensures r.status == 500 && Field(r.body, "error") == Some(JStr(message))
  {
    Response(500, JObj(map["error" := JStr(message)]))
  }

  const InternalError := ServerError("Internal server error")

  // ---------------------------------------------------------------------
  // Strings

  predicate StartsWith(s: string, p: string) {
    |p| <= |s| && s[..|p|] == p
  }

  /** `sub` occurs in `s` starting at index `i`. */
  predicate OccursAt(s: string, sub: string, i: int) {
    0 <= i && i + |sub| <= |s| && s[i..i + |sub|] == sub
  }

  /** `s.includes(sub)`. */
  predicate Contains(s: string, sub: string) {
    exists i :: 0 <= i <= |s| && OccursAt(s, sub, i)
  }

  /** An occurrence past the first character is an occurrence in the tail. */
  lemma OccursInTail(s: string, sub: string, i: int)
    requires 1 <= i && |s| > 0
    ensures OccursAt(s, sub, i) <==> OccursAt(s[1..], sub, i - 1)
  {
    if i + |sub| <= |s| {
      assert s[i..i + |sub|] == s[1..][i - 1..i - 1 + |sub|];
    }
  }

  /** The index of the first occurrence of `sep` in `s`, if any. */
  function IndexOf(s: string, sep: string): (r: Option<nat>)
    requires |sep| > 0
    ensures r.Some? ==> OccursAt(s, sep, r.value)
    ensures r.Some? ==> forall i :: 0 <= i < r.value ==> !OccursAt(s, sep, i)
    ensures r.None? ==> !Contains(s, sep)
    decreases |s|
  {
    if |s| < |sep| then None
    else if s[..|sep|] == sep then Some(0)
    else
      var t := IndexOf(s[1..], sep);
      assert forall i :: 1 <= i ==> (OccursAt(s, sep, i) <==> OccursAt(s[1..], sep, i - 1)) by {
        forall i | 1 <= i {
          OccursInTail(s, sep, i);
        }
      }
      if t.None? then None else Some(t.value + 1)
  }

  /** An occurrence inside a prefix is an occurrence in the whole string. */
  lemma OccursInPrefix(s: string, k: nat, sub: string, i: int)
    requires k <= |s|
    ensures OccursAt(s[..k], sub, i) ==> OccursAt(s, sub, i)
  {
    if OccursAt(s[..k], sub, i) {
      assert s[..k][i..i + |sub|] == s[i..i + |sub|];
    }
  }

  /**
   * `s.split(sep)[0]`: the text before the first occurrence of `sep`, or the
   * whole string when `sep` does not occur.
   */
  function BeforeFirst(s: string, sep: string): (r: string)
    requires |sep| > 0
    ensures StartsWith(s, r)
    ensures !Contains(r, sep)
    ensures !Contains(s, sep) ==> r == s
    ensures r != s ==> StartsWith(s[|r|..], sep)
    ensures Contains(s, sep) ==> OccursAt(s, sep, |r|) && forall i :: 0 <= i < |r| ==> !OccursAt(s, sep, i)
  {
    match IndexOf(s, sep)
    case None => s
    case Some(k) =>
      var r := s[..k];
      forall i | 0 <= i <= |r|
        ensures OccursAt(r, sep, i) ==> OccursAt(s, sep, i)
      {
        OccursInPrefix(s, k, sep, i);
      }
      assert s[k..][..|sep|] == s[k..k + |sep|];
      r
  }

  function DigitChar(d: nat): (c: char)
    requires d < 10
    ensures '0' <= c <= '9'
  {
    "0123456789"[d]
  }

  /** Decimal rendering of a natural number, as `n.toString()`. */
  function NatToString(n: nat): (r: string)
    ensures |r| > 0
    ensures forall i :: 0 <= i < |r| ==> '0' <= r[i] <= '9'
  {
    if n < 10 then [DigitChar(n)] else NatToString(n / 10) + [DigitChar(n % 10)]
  }

  /** Decimal rendering of an integer, with a leading '-' when negative. */
  function IntToString(n: int): (r: string)
    ensures |r| > 0
    ensures (r[0] == '-') <==> n < 0
  {
    if n < 0 then "-" + NatToString(-n) else NatToString(n)
  }

  /**
   * `String(j)`: the message an `Error` gets when constructed from a JSON
   * value (arrays join their elements with ',', `null` inside an array
   * renders as the empty string).
   */
  function JsString(j: Json): string {
    match j
    case JNull => "null"
    case JBool(b) => if b then "true" else "false"
    case JNum(n) => IntToString(n)
    case JStr(s) => s
    case JArr(items) => JoinItems(items)
    case JObj(_) => "[object Object]"
  }

  function JoinItems(items: seq<Json>): string
    decreases items
  {
    if |items| == 0 then ""
    else
      var head := if items[0].JNull? then "" else JsString(items[0]);
      if |items| == 1 then head else head + "," + JoinItems(items[1..])
  }

  /**
   * The message of `new Error(body.error || fallback)`, the error every
   * client helper throws on a non-ok response.
   */
  function ErrorMessage(body: Json, fallback: string): (r: string)
    ensures !TruthyOpt(Field(body, "error")) ==> r == fallback
    ensures TruthyOpt(Field(body, "error")) && Field(body, "error").value.JStr? ==>
              r == Field(body, "error").value.s
  {
    var e := Field(body, "error");
    if TruthyOpt(e) then JsString(e.value) else fallback
  }

  /** The message of the TypeError that reading `property` of `null` throws. */
  function NullRead(property: string): string {
    "Cannot read properties of null (reading '" + property + "')"
  }

  /**
   * What a client helper throws on a non-ok reply whose JSON is `body`:
   * `new Error(body.error || fallback)`, except that a `null` body makes
   * the read of `.error` itself throw.
   */
  function Thrown(body: Json, fallback: string): (r: string)
    ensures body == JNull ==> r == NullRead("error")
    ensures body != JNull ==> r == ErrorMessage(body, fallback)
    ensures body != JNull && !TruthyOpt(Field(body, "error")) ==> r == fallback
  {
    if body == JNull then NullRead("error") else ErrorMessage(body, fallback)
  }

  // ---------------------------------------------------------------------
  // Configuration constants imported from the application's config module.

  datatype Config = Config(
    modelDefault: string,
    systemPromptDefault: string,
    freeModels: seq<string>,
    authDailyMessageLimit: nat,
    dailyLimitProModels: nat,
    dailyFileUploadLimit: nat,
    remainingQueryAlertThreshold: nat)

  // ---------------------------------------------------------------------
  // Time

  /** A UTC calendar day, as `getUTCFullYear`, `getUTCMonth`, `getUTCDate`. */
  datatype UtcDay = UtcDay(year: int, month: int, day: int)

  /** A clock reading: milliseconds since the epoch and its UTC calendar day. */
  datatype Instant = Instant(ms: int, utc: UtcDay)
}

=== FILE: file_handling.dfy ===
/**
 * Attachment handling (lib/file-handling.ts): validation by size and by the
 * MIME type that content sniffing detects, attachment records, the daily
 * upload counter and the loop that turns a list of files into attachments.
 * The detected MIME type and the object URL are inputs.
 */
module FileHandling {
  import opened Common
  import opened Usage
  import opened Seqs

  /** 10 MiB. */
  const MaxFileSize: nat := 10 * 1024 * 1024

  /** The ten MIME types an upload may have. */
  const AllowedFileTypes: seq<string> := [
    "image/jpeg",
    "image/png",
    "image/gif",
    "application/pdf",
    "text/plain",
    "text/markdown",
    "application/json",
    "text/csv",
    "application/vnd.ms-excel",
    "application/vnd.openxmlformats-officedocument.spreadsheetml.sheet"
  ]

  const FileLimitCode := "DAILY_FILE_LIMIT_REACHED"

  /**
   * A file as the browser hands it over: the declared type, the type content
   * sniffing detects (`None` when detection fails) and the object URL the
   * browser would create for it.
   */
  datatype FileInput = FileInput(name: string, mimeType: string, size: nat,
                                 detected: Option<string>, objectUrl: string)

  datatype Validation = Valid | Invalid(error: string)

  datatype Attachment = Attachment(name: string, contentType: string, url: string)

  const SizeError := "File size exceeds " + NatToString(MaxFileSize / (1024 * 1024)) + "MB limit"
  const TypeError := "File type not supported or doesn't match its extension"

  /**
   * validateFile: a file over the size limit is rejected before its type is
   * looked at; otherwise it is accepted exactly when a type was detected and
   * is on the allow-list.
   */
  function ValidateFile(f: FileInput): (v: Validation)
    ensures f.size > MaxFileSize ==> v == Invalid(SizeError)
    ensures f.size <= MaxFileSize ==>
              (v.Valid? <==> f.detected.Some? && f.detected.value in AllowedFileTypes)
    ensures f.size <= MaxFileSize && v.Invalid? ==> v.error == TypeError
  {
    if f.size > MaxFileSize then Invalid(SizeError)
    else if f.detected.None? || f.detected.value !in AllowedFileTypes then Invalid(TypeError)
    else Valid
  }

  /** The size message renders the limit in whole mebibytes. */
  lemma SizeErrorText()
    ensures SizeError == "File size exceeds 10MB limit"
  {
    assert MaxFileSize / (1024 * 1024) == 10;
  }

  /** createAttachment: name and declared type from the file, the given URL. */
  function CreateAttachment(f: FileInput, url: string): (a: Attachment)
    ensures a.name == f.name && a.contentType == f.mimeType && a.url == url
  {
    Attachment(f.name, f.mimeType, url)
  }

  /**
   * checkFileUploadLimit: the daily counter rule with DAILY_FILE_UPLOAD_LIMIT
   * and a `FileUploadLimitError`.
   */
  function CheckFileUploadLimit(cfg: Config, uploads: Counter, now: Instant): (r: CheckOutcome<nat>)
    ensures r.counter == Reset(uploads, now)
    ensures r.outcome.Refused? <==> Reset(uploads, now).count >= cfg.dailyFileUploadLimit
    ensures r.outcome.Refused? ==>
              r.outcome.message == "Daily file upload limit reached." && r.outcome.code == FileLimitCode
    ensures r.outcome.Passed? ==> r.outcome.value == r.counter.count
  {
    CheckCounter(uploads, now, cfg.dailyFileUploadLimit, "Daily file upload limit reached.", FileLimitCode)
  }

  /**
   * The counter after the upload bookkeeping of one valid file: the check,
   * then, when it passed, the checked count plus one.
   */
  function UploadStep(cfg: Config, uploads: Counter, now: Instant): (r: Counter)
    ensures uploads.count <= cfg.dailyFileUploadLimit ==> r.count <= cfg.dailyFileUploadLimit
    ensures !IsNewDay(r.lastReset, now)
  {
    var checked := CheckFileUploadLimit(cfg, uploads, now);
    if checked.outcome.Passed? then checked.counter.(count := checked.outcome.value + 1) else checked.counter
  }

  predicate IsValid(f: FileInput) {
    ValidateFile(f).Valid?
  }

  /** The attachment a valid file gives, or nothing for an invalid one. */
  function AttachmentFor(f: FileInput): (r: seq<Attachment>)
    ensures |r| <= 1
  {
    if IsValid(f) then [CreateAttachment(f, f.objectUrl)] else []
  }

  /** The toast text an invalid file gives, or nothing for a valid one. */
  function ErrorFor(f: FileInput): (r: seq<string>)
    ensures |r| + |AttachmentFor(f)| == 1
  {
    var v := ValidateFile(f);
    if v.Invalid? then [v.error] else []
  }

  /** The attachments of the valid files, in input order. */
  function AttachmentsOf(files: seq<FileInput>): seq<Attachment> {
    FlatMap(files, AttachmentFor)
  }

  /** The validation errors of the invalid files, in input order. */
  function ValidationErrors(files: seq<FileInput>): seq<string> {
    FlatMap(files, ErrorFor)
  }

  lemma AttachmentsAppend(files: seq<FileInput>, f: FileInput)
    ensures AttachmentsOf(files + [f]) == AttachmentsOf(files) + AttachmentFor(f)
    ensures ValidationErrors(files + [f]) == ValidationErrors(files) + ErrorFor(f)
  {
    FlatMapAppend(files, f, AttachmentFor);
    FlatMapAppend(files, f, ErrorFor);
  }

  /** Every file gives exactly one attachment or one error. */
  lemma {:induction false} AttachmentsAndErrorsPartition(files: seq<FileInput>)
    ensures |AttachmentsOf(files)| + |ValidationErrors(files)| == |files|
  {
    if |files| > 0 {
      AttachmentsAndErrorsPartition(files[1..]);
    }
  }

  /**
   * processFiles: every valid file becomes an attachment, in input order,
   * and the invalid ones only produce an error toast. The attachment is
   * added before the upload limit is checked, so the limit never drops a
   * valid file: the attachments do not depend on the counter. Counting
   * stays within the daily limit.
   */
  method ProcessFiles(cfg: Config, files: seq<FileInput>, uploads: Counter, now: Instant)
    returns (attachments: seq<Attachment>, errors: seq<string>, counter: Counter)
    ensures attachments == AttachmentsOf(files)
    ensures errors == ValidationErrors(files)
    ensures |attachments| + |errors| == |files|
    ensures uploads.count <= cfg.dailyFileUploadLimit ==> counter.count <= cfg.dailyFileUploadLimit
    ensures |attachments| == 0 ==> counter == uploads
  {
    attachments := [];
    errors := [];
    counter := uploads;
    var i := 0;
    while i < |files|
      invariant 0 <= i <= |files|
      invariant attachments == AttachmentsOf(files[..i])
      invariant errors == ValidationErrors(files[..i])
      invariant uploads.count <= cfg.dailyFileUploadLimit ==> counter.count <= cfg.dailyFileUploadLimit
      invariant |attachments| == 0 ==> counter == uploads
    {
      var f := files[i];
      assert files[..i + 1] == files[..i] + [f];
      AttachmentsAppend(files[..i], f);
      var v := ValidateFile(f);
      if v.Invalid? {
        errors := errors + [v.error];
      } else {
        attachments := attachments + [CreateAttachment(f, f.objectUrl)];
        counter := UploadStep(cfg, counter, now);
      }
      i := i + 1;
    }
    assert files[..|files|] == files;
    AttachmentsAndErrorsPartition(files);
  }

  /**
   * An attachment comes from a valid file, and every valid file gives one:
   * in particular nothing over the size limit is ever attached.
   */
  lemma {:induction false} AttachedExactlyTheValid(files: seq<FileInput>)
    ensures forall a :: a in AttachmentsOf(files) ==>
              exists i :: 0 <= i < |files| && IsValid(files[i]) && a == CreateAttachment(files[i], files[i].objectUrl)
    ensures forall i :: 0 <= i < |files| && IsValid(files[i]) ==>
              CreateAttachment(files[i], files[i].objectUrl) in AttachmentsOf(files)
  {
    if |files| > 0 {
      AttachedExactlyTheValid(files[1..]);
      var r := AttachmentsOf(files);
      assert r == AttachmentFor(files[0]) + AttachmentsOf(files[1..]);
      forall a | a in r
        ensures exists i :: 0 <= i < |files| && IsValid(files[i]) && a == CreateAttachment(files[i], files[i].objectUrl)
      {
        if a !in AttachmentFor(files[0]) {
          var j :| 0 <= j < |files[1..]| && IsValid(files[1..][j]) && a == CreateAttachment(files[1..][j], files[1..][j].objectUrl);
          assert files[j + 1] == files[1..][j];
        }
      }
      forall i | 0 <= i < |files| && IsValid(files[i])
        ensures CreateAttachment(files[i], files[i].objectUrl) in r
      {
        if i > 0 {
          assert files[i] == files[1..][i - 1];
        }
      }
    }
  }

  // ---------------------------------------------------------------------
  // The upload limit

  /**
   * As written, processFiles attaches a valid file before it consults the
   * upload limit, and the refusal is caught and logged: with the day's
   * limit already reached, a valid file is still attached.
   */
  lemma LimitDoesNotBlockUploads(cfg: Config, f: FileInput, uploads: Counter, now: Instant)
    requires IsValid(f) && Reset(uploads, now).count >= cfg.dailyFileUploadLimit
    ensures CheckFileUploadLimit(cfg, uploads, now).outcome.Refused?
    ensures AttachmentsOf([f]) == [CreateAttachment(f, f.objectUrl)]
  {
    assert [f][1..] == [];
  }

  /** How many more files the day's quota admits once the counter is reset. */
  function Room(cfg: Config, uploads: Counter, now: Instant): (n: nat)
    ensures Reset(uploads, now).count + n >= cfg.dailyFileUploadLimit
    ensures n > 0 ==> Reset(uploads, now).count + n == cfg.dailyFileUploadLimit
  {
    var start := Reset(uploads, now);
    if start.count < cfg.dailyFileUploadLimit then cfg.dailyFileUploadLimit - start.count else 0
  }

  /** The first `n` elements of `s`, or all of them when there are fewer. */
  function Take<T>(s: seq<T>, n: nat): (r: seq<T>)
    ensures |r| <= n && |r| <= |s|
  {
    s[..if |s| <= n then |s| else n]
  }

  /**
   * One valid file under the limit-first rule keeps the attachments the
   * first `room` valid files: the check passes exactly while fewer than
   * `room` files are attached.
   */
  lemma TakeStep<T>(all: seq<T>, x: T, taken: seq<T>, room: nat)
    requires taken == Take(all, room)
    ensures |taken| < room ==> taken + [x] == Take(all + [x], room)
    ensures |taken| >= room ==> taken == Take(all + [x], room)
  {
  }

  /**
   * processFiles with the limit consulted before the file is attached: a
   * valid file is attached only when the check passes. The attachments are
   * the valid files in order, cut off where the day's quota runs out; the
   * counter is untouched when no file is valid and otherwise counts the
   * attached files on top of the reset count.
   */
  method ProcessFilesWithinLimit(cfg: Config, files: seq<FileInput>, uploads: Counter, now: Instant)
    returns (attachments: seq<Attachment>, errors: seq<string>, counter: Counter)
    ensures errors == ValidationErrors(files)
    ensures attachments == Take(AttachmentsOf(files), Room(cfg, uploads, now))
    ensures AttachmentsOf(files) == [] ==> counter == uploads
    ensures AttachmentsOf(files) != [] ==>
              counter == Reset(uploads, now).(count := Reset(uploads, now).count + |attachments|)
  {
    var start := Reset(uploads, now);
    var room := Room(cfg, uploads, now);
    attachments := [];
    errors := [];
    counter := uploads;
    ghost var all: seq<Attachment> := [];
    var i := 0;
    while i < |files|
      invariant 0 <= i <= |files|
      invariant all == AttachmentsOf(files[..i])
      invariant errors == ValidationErrors(files[..i])
      invariant attachments == Take(all, room)
      invariant all == [] ==> counter == uploads
      invariant all != [] ==> counter == start.(count := start.count + |attachments|)
    {
      var f := files[i];
      assert files[..i + 1] == files[..i] + [f];
      AttachmentsAppend(files[..i], f);
      var v := ValidateFile(f);
      if v.Invalid? {
        errors := errors + [v.error];
      } else {
        var a := CreateAttachment(f, f.objectUrl);
        TakeStep(all, a, attachments, room);
        var checked := CheckFileUploadLimit(cfg, counter, now);
        assert checked.counter == start.(count := start.count + |attachments|);
        if checked.outcome.Passed? {
          attachments := attachments + [a];
          counter := checked.counter.(count := checked.outcome.value + 1);
        } else {
          counter := checked.counter;
        }
        all := all + [a];
      }
      i := i + 1;
    }
    assert files[..|files|] == files;
  }
}

=== FILE: local_storage.dfy ===
/**
 * The localStorage manager (lib/storage/local-storage.ts): the local user,
 * the preferences and the per-provider API keys, each stored as JSON under
 * its own key. localStorage is a map from key to stored value; a value is
 * either the JSON encoding of the shape its key holds or some text that does
 * not parse as one (the empty string included). `window` says whether the
 * code runs in a browser; without one every call falls back.
 */
module LocalStorage {
  import opened Common

  /** The preference record (its type lives in lib/user-preference-store/utils, which is not part of this model). */
  datatype Preferences = Preferences(
    layout: string,
    promptSuggestions: bool,
    showToolInvocations: bool,
    showConversationPreviews: bool,
    multiModelEnabled: bool,
    hiddenModels: seq<string>)

  /** A partial preference record: `None` is a field the object does not have. */
  datatype PrefsPatch = PrefsPatch(
    layout: Option<string>,
    promptSuggestions: Option<bool>,
    showToolInvocations: Option<bool>,
    showConversationPreviews: Option<bool>,
    multiModelEnabled: Option<bool>,
    hiddenModels: Option<seq<string>>)

  /** The local user record. */
  datatype LocalUser = LocalUser(
    id: string,
    displayName: Option<string>,
    email: string,
    createdAt: Option<int>,
    anonymous: Option<bool>,
    favoriteModels: Option<seq<string>>,
    premium: Option<bool>,
    profileImage: Option<string>,
    preferences: Preferences)

  /** A stored value. */
  datatype Stored =
    | Raw(text: string)                  // text that does not parse as the key's shape
    | UserValue(user: LocalUser)
    | PrefsValue(prefs: PrefsPatch)
    | KeysValue(keys: map<string, string>)

  type Storage = map<string, Stored>

  const UserKey := "zola_user"
  const PreferencesKey := "zola_preferences"
  const ApiKeysKey := "zola_api_keys"

  /** getDefaultPreferences. */
  const DefaultPreferences := Preferences("fullscreen", true, true, true, false, [])

  /** `{...base, ...patch}`: each field of the patch replaces the base's. */
  function Overlay(base: Preferences, patch: PrefsPatch): (r: Preferences)
    ensures patch.layout.Some? ==> r.layout == patch.layout.value
    ensures patch.layout.None? ==> r.layout == base.layout
    ensures patch.promptSuggestions.Some? ==> r.promptSuggestions == patch.promptSuggestions.value
    ensures patch.promptSuggestions.None? ==> r.promptSuggestions == base.promptSuggestions
    ensures patch.showToolInvocations.Some? ==> r.showToolInvocations == patch.showToolInvocations.value
    ensures patch.showToolInvocations.None? ==> r.showToolInvocations == base.showToolInvocations
    ensures patch.showConversationPreviews.Some? ==> r.showConversationPreviews == patch.showConversationPreviews.value
    ensures patch.showConversationPreviews.None? ==> r.showConversationPreviews == base.showConversationPreviews
    ensures patch.multiModelEnabled.Some? ==> r.multiModelEnabled == patch.multiModelEnabled.value
    ensures patch.multiModelEnabled.None? ==> r.multiModelEnabled == base.multiModelEnabled
    ensures patch.hiddenModels.Some? ==> r.hiddenModels == patch.hiddenModels.value
    ensures patch.hiddenModels.None? ==> r.hiddenModels == base.hiddenModels
  {
    Preferences(
      patch.layout.GetOr(base.layout),
      patch.promptSuggestions.GetOr(base.promptSuggestions),
      patch.showToolInvocations.GetOr(base.showToolInvocations),
      patch.showConversationPreviews.GetOr(base.showConversationPreviews),
      patch.multiModelEnabled.GetOr(base.multiModelEnabled),
      patch.hiddenModels.GetOr(base.hiddenModels))
  }

  /** The patch with every field set: `JSON.stringify` of a full record. */
  function Full(p: Preferences): (r: PrefsPatch)
    ensures forall base :: Overlay(base, r) == p
  {
    PrefsPatch(Some(p.layout), Some(p.promptSuggestions), Some(p.showToolInvocations),
               Some(p.showConversationPreviews), Some(p.multiModelEnabled), Some(p.hiddenModels))
  }

  /** An overlay composes: applying `a` then `b` is applying `b` over `a`. */
  function Then(a: PrefsPatch, b: PrefsPatch): (r: PrefsPatch)
    ensures forall base :: Overlay(base, r) == Overlay(Overlay(base, a), b)
  {
    PrefsPatch(
      if b.layout.Some? then b.layout else a.layout,
      if b.promptSuggestions.Some? then b.promptSuggestions else a.promptSuggestions,
      if b.showToolInvocations.Some? then b.showToolInvocations else a.showToolInvocations,
      if b.showConversationPreviews.Some? then b.showConversationPreviews else a.showConversationPreviews,
      if b.multiModelEnabled.Some? then b.multiModelEnabled else a.multiModelEnabled,
      if b.hiddenModels.Some? then b.hiddenModels else a.hiddenModels)
  }

  // ---------------------------------------------------------------------
  // User

  /** getUser: the stored user, or null without a window, a key or a parse. */
  function GetUser(window: bool, ls: Storage): (r: Option<LocalUser>)
    ensures r.Some? <==> window && UserKey in ls && ls[UserKey].UserValue?
    ensures r.Some? ==> r.value == ls[UserKey].user
  {
    if window && UserKey in ls && ls[UserKey].UserValue? then Some(ls[UserKey].user) else None
  }

  /** setUser: stores the user; nothing without a window. */
  function SetUser(window: bool, ls: Storage, user: LocalUser): (r: Storage)
    ensures !window ==> r == ls
    ensures window ==> r == ls[UserKey := UserValue(user)]
  {
    if window then ls[UserKey := UserValue(user)] else ls
  }

  /**
   * createUser: a fresh local user, not anonymous, not premium, with no
   * favourite models and the default preferences, stored and returned.
   */
  function CreateUser(window: bool, ls: Storage, freshId: string, now: int): (r: (LocalUser, Storage))
    ensures var u := r.0;
            && u.id == freshId && u.displayName == Some("Local User") && u.email == "local@zola.chat"
            && u.createdAt == Some(now) && u.anonymous == Some(false) && u.favoriteModels == Some([])
            && u.premium == Some(false) && u.profileImage.None? && u.preferences == DefaultPreferences
    ensures r.1 == SetUser(window, ls, r.0)
  {
    var user := LocalUser(freshId, Some("Local User"), "local@zola.chat", Some(now), Some(false),
                          Some([]), Some(false), None, DefaultPreferences);
    (user, SetUser(window, ls, user))
  }

  /** getOrCreateUser: an existing user is returned unchanged and nothing is written. */
  function GetOrCreateUser(window: bool, ls: Storage, freshId: string, now: int): (r: (LocalUser, Storage))
    ensures GetUser(window, ls).Some? ==> r == (GetUser(window, ls).value, ls)
    ensures GetUser(window, ls).None? ==> r == CreateUser(window, ls, freshId, now)
  {
    var existing := GetUser(window, ls);
    if existing.Some? then (existing.value, ls) else CreateUser(window, ls, freshId, now)
  }

  // ---------------------------------------------------------------------
  // Preferences

  /** getPreferences: the stored fields over the defaults, or the defaults. */
  function GetPreferences(window: bool, ls: Storage): (r: Preferences)
    ensures window && PreferencesKey in ls && ls[PreferencesKey].PrefsValue? ==>
              r == Overlay(DefaultPreferences, ls[PreferencesKey].prefs)
    ensures !(window && PreferencesKey in ls && ls[PreferencesKey].PrefsValue?) ==> r == DefaultPreferences
  {
    if window && PreferencesKey in ls && ls[PreferencesKey].PrefsValue? then
      Overlay(DefaultPreferences, ls[PreferencesKey].prefs)
    else DefaultPreferences
  }

  /**
   * setPreferences: the update over the current preferences is stored, and
   * mirrored into the stored user when there is one.
   */
  function SetPreferences(window: bool, ls: Storage, patch: PrefsPatch): (r: Storage)
    ensures !window ==> r == ls
    ensures window ==> PreferencesKey in r && r[PreferencesKey] == PrefsValue(Full(Overlay(GetPreferences(window, ls), patch)))
    ensures window && GetUser(window, ls).Some? ==>
              UserKey in r && r[UserKey] == UserValue(GetUser(window, ls).value.(preferences := Overlay(GetPreferences(window, ls), patch)))
    ensures forall k :: k in ls && k != PreferencesKey && (k != UserKey || GetUser(window, ls).None?) ==>
              k in r && r[k] == ls[k]
    ensures forall k :: k in r ==> k in ls || k == PreferencesKey
  {
    if !window then ls
    else
      var updated := Overlay(GetPreferences(window, ls), patch);
      var withPrefs := ls[PreferencesKey := PrefsValue(Full(updated))];
      var user := GetUser(window, ls);
      if user.Some? then SetUser(window, withPrefs, user.value.(preferences := updated)) else withPrefs
  }

  // ---------------------------------------------------------------------
  // API keys

  /** getApiKeys: the stored provider-to-key map, or `{}`. */
  function GetApiKeys(window: bool, ls: Storage): (r: map<string, string>)
    ensures window && ApiKeysKey in ls && ls[ApiKeysKey].KeysValue? ==> r == ls[ApiKeysKey].keys
    ensures !(window && ApiKeysKey in ls && ls[ApiKeysKey].KeysValue?) ==> r == map[]
  {
    if window && ApiKeysKey in ls && ls[ApiKeysKey].KeysValue? then ls[ApiKeysKey].keys else map[]
  }

  /** setApiKey: stores the key map with `provider` set to `key`. */
  function SetApiKey(window: bool, ls: Storage, provider: string, key: string): (r: Storage)
    ensures !window ==> r == ls
    ensures window ==> r == ls[ApiKeysKey := KeysValue(GetApiKeys(window, ls)[provider := key])]
  {
    if window then ls[ApiKeysKey := KeysValue(GetApiKeys(window, ls)[provider := key])] else ls
  }

  /** removeApiKey: stores the key map without `provider`. */
  function RemoveApiKey(window: bool, ls: Storage, provider: string): (r: Storage)
    ensures !window ==> r == ls
    ensures window ==> r == ls[ApiKeysKey := KeysValue(GetApiKeys(window, ls) - {provider})]
  {
    if window then ls[ApiKeysKey := KeysValue(GetApiKeys(window, ls) - {provider})] else ls
  }

  /** clearAll: removes the user, preference and API-key entries. */
  function ClearAll(window: bool, ls: Storage): (r: Storage)
    ensures !window ==> r == ls
    ensures window ==> UserKey !in r && PreferencesKey !in r && ApiKeysKey !in r
    ensures window ==> forall k :: k in ls && k != UserKey && k != PreferencesKey && k != ApiKeysKey ==>
                                     k in r && r[k] == ls[k]
    ensures forall k :: k in r ==> k in ls
  {
    if window then ls - {UserKey, PreferencesKey, ApiKeysKey} else ls
  }

  // ---------------------------------------------------------------------
  // Properties

  /** A stored user reads back. */
  lemma SetThenGetUser(ls: Storage, user: LocalUser)
    ensures GetUser(true, SetUser(true, ls, user)) == Some(user)
  {
  }

  /** A second getOrCreateUser returns the user the first one created, and writes nothing. */
  lemma GetOrCreateUserStable(window: bool, ls: Storage, id1: string, id2: string, t1: int, t2: int)
    requires window
    ensures var (u1, ls1) := GetOrCreateUser(window, ls, id1, t1);
            GetOrCreateUser(window, ls1, id2, t2) == (u1, ls1)
  {
  }

  /** After setApiKey the provider maps to the key and every other provider is unchanged. */
  lemma SetApiKeyReadsBack(ls: Storage, provider: string, key: string, other: string)
    requires other != provider
    ensures GetApiKeys(true, SetApiKey(true, ls, provider, key))[provider] == key
    ensures other in GetApiKeys(true, SetApiKey(true, ls, provider, key)) <==> other in GetApiKeys(true, ls)
    ensures other in GetApiKeys(true, ls) ==>
              GetApiKeys(true, SetApiKey(true, ls, provider, key))[other] == GetApiKeys(true, ls)[other]
  {
  }

  /** After removeApiKey the provider has no key and every other provider is unchanged. */
  lemma RemoveApiKeyReadsBack(ls: Storage, provider: string)
    ensures GetApiKeys(true, RemoveApiKey(true, ls, provider)) == GetApiKeys(true, ls) - {provider}
    ensures provider !in GetApiKeys(true, RemoveApiKey(true, ls, provider))
  {
  }

  /** Setting then removing a key leaves the map as removing alone does. */
  lemma SetThenRemoveApiKey(ls: Storage, provider: string, key: string)
    ensures GetApiKeys(true, RemoveApiKey(true, SetApiKey(true, ls, provider, key), provider))
         == GetApiKeys(true, RemoveApiKey(true, ls, provider))
  {
    var m := GetApiKeys(true, ls);
    assert m[provider := key] - {provider} == m - {provider};
  }

  /** setPreferences reads back as the update over what was read before. */
  lemma SetThenGetPreferences(ls: Storage, patch: PrefsPatch)
    ensures GetPreferences(true, SetPreferences(true, ls, patch)) == Overlay(GetPreferences(true, ls), patch)
  {
  }

  /** Two setPreferences calls read back as one call with the composed update. */
  lemma SetPreferencesCompose(ls: Storage, a: PrefsPatch, b: PrefsPatch)
    ensures GetPreferences(true, SetPreferences(true, SetPreferences(true, ls, a), b))
         == GetPreferences(true, SetPreferences(true, ls, Then(a, b)))
  {
    SetThenGetPreferences(ls, a);
    SetThenGetPreferences(SetPreferences(true, ls, a), b);
    SetThenGetPreferences(ls, Then(a, b));
  }

  /** After clearAll the getters return null, the defaults and `{}`. */
  lemma ClearAllThenRead(ls: Storage)
    ensures GetUser(true, ClearAll(true, ls)).None?
    ensures GetPreferences(true, ClearAll(true, ls)) == DefaultPreferences
    ensures GetApiKeys(true, ClearAll(true, ls)) == map[]
  {
  }

  /** Without a window the getters fall back whatever is stored. */
  lemma NoWindowFallbacks(ls: Storage)
    ensures GetUser(false, ls).None?
    ensures GetPreferences(false, ls) == DefaultPreferences
    ensures GetApiKeys(false, ls) == map[]
  {
  }
}

=== FILE: messages_api.dfy ===
/**
 * The message repository (lib/chat-store/messages/api.ts). The `messages`
 * table holds one entry per chat, `{id: chatId, messages: [...]}`; every
 * write hands the store a whole entry, and reads re-sort by creation time.
 */
module MessagesApi {
  import opened Common
  import opened Seqs

  datatype Role = User | Assistant | System | Data

  /** A chat message. `createdAt` is in milliseconds and may be missing. */
  datatype Message = Message(id: string, role: Role, content: string, createdAt: Option<int>)

  /** What reading the entry of one chat produced. */
  datatype EntryRead =
    | NoEntry                                 // a falsy value
    | ArrayValue                              // an array instead of an entry
    | Entry(messages: Option<seq<Message>>)   // an entry; `messages` may be missing
    | EntryReadFailed                         // the read rejected

  /** The entry handed to the store's write call. */
  datatype MessageEntry = MessageEntry(id: string, messages: seq<Message>)

  /** `createdAt || 0`: the sort key of the ascending read order. */
  function CreatedTime(m: Message): int {
    m.createdAt.GetOr(0)
  }

  /** The messages an entry read carries, before sorting. */
  function Stored(read: EntryRead): seq<Message> {
    match read
    case Entry(Some(ms)) => ms
    case _ => []
  }

  /**
   * getCachedMessages: the stored messages oldest first; [] for a missing
   * entry, an array value or a missing list. A failed read throws.
   */
  function GetCachedMessages(read: EntryRead): (r: Result<seq<Message>>)
    ensures r.Err? <==> read.EntryReadFailed?
    ensures read.NoEntry? || read.ArrayValue? || read == Entry(None) ==> r == Ok([])
    ensures r.Ok? ==> multiset(r.value) == multiset(Stored(read)) && SortedBy(r.value, CreatedTime)
  {
    if read.EntryReadFailed? then Err("IndexedDB read failed")
    else Ok(SortBy(Stored(read), CreatedTime))
  }

  /**
   * The cached list is the stable ascending sort by creation time: messages
   * created at the same time keep the order in which they were stored.
   */
  lemma GetCachedMessagesStable(read: EntryRead, t: int)
    ensures GetCachedMessages(read).Ok? ==>
              KeyRun(GetCachedMessages(read).value, CreatedTime, t) == KeyRun(Stored(read), CreatedTime, t)
  {
    SortByStable(Stored(read), CreatedTime, t);
  }

  /** getMessagesFromDb: in local mode, the cached messages. */
  function GetMessagesFromDb(read: EntryRead): (r: Result<seq<Message>>)
    ensures r == GetCachedMessages(read)
  {
    GetCachedMessages(read)
  }

  /** cacheMessages and setMessages: the entry written is exactly the given list, unsorted. */
  function SetMessages(chatId: string, messages: seq<Message>): (e: MessageEntry)
    ensures e.id == chatId && e.messages == messages
  {
    MessageEntry(chatId, messages)
  }

  /**
   * addMessage: the entry written holds the current messages, oldest first,
   * with the new message appended last.
   */
  function AddMessage(read: EntryRead, chatId: string, message: Message): (r: Result<MessageEntry>)
    ensures r.Err? <==> read.EntryReadFailed?
    ensures r.Ok? ==> r.value.id == chatId && |r.value.messages| == |Stored(read)| + 1
    ensures r.Ok? ==> r.value.messages[|Stored(read)|] == message
    ensures r.Ok? ==> var prefix := r.value.messages[..|Stored(read)|];
                      multiset(prefix) == multiset(Stored(read)) && SortedBy(prefix, CreatedTime)
  {
    match GetCachedMessages(read)
    case Err(e) => Err(e)
    case Ok(current) =>
      var updated := current + [message];
      assert updated[..|current|] == current;
      Ok(MessageEntry(chatId, updated))
  }

  /** clearMessagesCache and clearMessagesForChat: an empty list is written under the chat id; the key stays. */
  function ClearMessagesForChat(chatId: string): (e: MessageEntry)
    ensures e.id == chatId && e.messages == []
  {
    MessageEntry(chatId, [])
  }

  // ---------------------------------------------------------------------
  // Properties

  /** Reading back a cleared chat gives no messages. */
  lemma ClearThenRead(chatId: string)
    ensures GetCachedMessages(Entry(Some(ClearMessagesForChat(chatId).messages))) == Ok([])
  {
  }

  /**
   * Appending to a stored list whose messages are no newer than the new one,
   * then reading back, returns the stored order with the message last.
   */
  lemma AddThenRead(stored: seq<Message>, chatId: string, m: Message)
    requires SortedBy(stored, CreatedTime)
    requires forall i :: 0 <= i < |stored| ==> CreatedTime(stored[i]) <= CreatedTime(m)
    ensures AddMessage(Entry(Some(stored)), chatId, m) == Ok(MessageEntry(chatId, stored + [m]))
    ensures GetCachedMessages(Entry(Some(stored + [m]))) == Ok(stored + [m])
  {
    AppendToSorted(stored, chatId, m);
    SortedAppend(stored, m, CreatedTime);
    ReadSorted(stored + [m]);
  }

  /** Reading back a list already in creation order gives that list. */
  lemma ReadSorted(messages: seq<Message>)
    requires SortedBy(messages, CreatedTime)
    ensures GetCachedMessages(Entry(Some(messages))) == Ok(messages)
  {
    SortBySorted(messages, CreatedTime);
  }

  /** The first append to a chat with no entry writes just that message. */
  lemma FirstAppend(chatId: string, m: Message)
    ensures AddMessage(NoEntry, chatId, m) == Ok(MessageEntry(chatId, [m]))
  {
    assert GetCachedMessages(NoEntry) == Ok([]);
  }

  /**
   * Two appends to an empty chat, the second message created later, write
   * those two messages in order and read back as exactly that list.
   */
  lemma TwoAppendsReadInOrder(chatId: string, m1: Message, m2: Message)
    requires m1.createdAt.Some? && m2.createdAt.Some? && m1.createdAt.value < m2.createdAt.value
    ensures AddMessage(NoEntry, chatId, m1) == Ok(MessageEntry(chatId, [m1]))
    ensures AddMessage(Entry(Some([m1])), chatId, m2) == Ok(MessageEntry(chatId, [m1, m2]))
    ensures GetCachedMessages(Entry(Some([m1, m2]))) == Ok([m1, m2])
  {
    FirstAppend(chatId, m1);
    SecondAppend(chatId, m1, m2);
    ReadPair(m1, m2);
  }

  lemma SecondAppend(chatId: string, m1: Message, m2: Message)
    ensures AddMessage(Entry(Some([m1])), chatId, m2) == Ok(MessageEntry(chatId, [m1, m2]))
  {
    AppendToSorted([m1], chatId, m2);
    assert [m1] + [m2] == [m1, m2];
  }

  /** Appending to a list already in creation order writes that list with the message last. */
  lemma AppendToSorted(stored: seq<Message>, chatId: string, m: Message)
    requires SortedBy(stored, CreatedTime)
    ensures AddMessage(Entry(Some(stored)), chatId, m) == Ok(MessageEntry(chatId, stored + [m]))
  {
    SortBySorted(stored, CreatedTime);
  }

  lemma ReadPair(m1: Message, m2: Message)
    requires CreatedTime(m1) <= CreatedTime(m2)
    ensures GetCachedMessages(Entry(Some([m1, m2]))) == Ok([m1, m2])
  {
    ReadSorted([m1, m2]);
  }
}

=== FILE: messages_provider.dfy ===
/**
 * The message provider (lib/chat-store/messages/provider.tsx): the messages
 * of the chat the session points at, held in memory and mirrored into the
 * message repository. Each operation is a step from one state to the next,
 * together with the entry it hands to the store, if any.
 */
module MessagesProvider {
  import opened Common
  import opened Seqs
  import opened MessagesApi

  /** The session's chat id, the in-memory messages and the loading flag. */
  datatype MsgState = MsgState(chatId: Option<string>, messages: seq<Message>, isLoading: bool)

  /** The state after a step, the entry written to the store and the error toast shown. */
  datatype MsgStep = MsgStep(state: MsgState, written: Option<MessageEntry>, toast: Option<string>)

  /** The initial state: no messages, loading. */
  function Initial(chatId: Option<string>): (st: MsgState)
    ensures st.messages == [] && st.isLoading && st.chatId == chatId
  {
    MsgState(chatId, [], true)
  }

  /**
   * The effect run when the session's chat id changes: a null id empties the
   * list and stops loading; any other id (the empty one included) only
   * starts loading.
   */
  function OnChatIdChange(st: MsgState, chatId: Option<string>): (r: MsgState)
    ensures r.chatId == chatId
    ensures chatId.None? ==> r.messages == [] && !r.isLoading
    ensures chatId.Some? ==> r.messages == st.messages && r.isLoading
  {
    if chatId.None? then MsgState(chatId, [], false)
    else st.(chatId := chatId, isLoading := true)
  }

  /**
   * The loading effect. `first` is the cache read and `second` the read of
   * `getMessagesFromDb`. A failing cache read rejects the effect before its
   * `try`, leaving the list as it was and `isLoading` set; a failing second
   * read keeps the cached list and clears `isLoading`.
   */
  function Load(st: MsgState, first: EntryRead, second: EntryRead): (r: MsgStep)
    ensures !Present(st.chatId) ==> r == MsgStep(st, None, None)
    ensures r.toast.None?
    ensures Present(st.chatId) && first.EntryReadFailed? ==>
              r.state.messages == st.messages && r.state.isLoading && r.written.None?
    ensures Present(st.chatId) && !first.EntryReadFailed? && second.EntryReadFailed? ==>
              r.state.messages == GetCachedMessages(first).value && !r.state.isLoading && r.written.None?
    ensures Present(st.chatId) && !first.EntryReadFailed? && !second.EntryReadFailed? ==>
              && r.state.messages == GetMessagesFromDb(second).value
              && !r.state.isLoading
              && r.written == Some(SetMessages(st.chatId.value, r.state.messages))
    ensures r.state.chatId == st.chatId
  {
    if !Present(st.chatId) then MsgStep(st, None, None)
    else
      var cached := GetCachedMessages(first);
      var fromDb := GetMessagesFromDb(second);
      if cached.Err? then MsgStep(st.(isLoading := true), None, None)
      else if fromDb.Err? then MsgStep(st.(messages := cached.value, isLoading := false), None, None)
      else MsgStep(st.(messages := fromDb.value, isLoading := false),
                   Some(SetMessages(st.chatId.value, fromDb.value)), None)
  }

  /** refresh: re-read the chat's messages; on failure keep the list and show a toast. */
  function Refresh(st: MsgState, read: EntryRead): (r: MsgStep)
    ensures r.written.None? && r.state.chatId == st.chatId && r.state.isLoading == st.isLoading
    ensures !Present(st.chatId) ==> r == MsgStep(st, None, None)
    ensures Present(st.chatId) && read.EntryReadFailed? ==>
              r.state == st && r.toast == Some("Failed to refresh messages")
    ensures Present(st.chatId) && !read.EntryReadFailed? ==>
              r.toast.None? && multiset(r.state.messages) == multiset(Stored(read))
              && SortedBy(r.state.messages, CreatedTime)
  {
    if !Present(st.chatId) then MsgStep(st, None, None)
    else
      var fromDb := GetMessagesFromDb(read);
      if fromDb.Err? then MsgStep(st, None, Some("Failed to refresh messages"))
      else MsgStep(st.(messages := fromDb.value), None, None)
  }

  /** The chat `cacheAndAddMessage` writes to: the explicit id when truthy, else the session's. */
  function TargetChatId(st: MsgState, explicitChatId: Option<string>): (t: Option<string>)
    ensures Present(explicitChatId) ==> t == explicitChatId
    ensures !Present(explicitChatId) ==> t == st.chatId
  {
    if Present(explicitChatId) then explicitChatId else st.chatId
  }

  /**
   * cacheAndAddMessage: with a truthy target chat the message is appended to
   * the in-memory list and the whole list is written under the target id;
   * otherwise nothing happens.
   */
  function CacheAndAddMessage(st: MsgState, message: Message, explicitChatId: Option<string>): (r: MsgStep)
    ensures r.toast.None?
    ensures !Present(explicitChatId) && !Present(st.chatId) ==> r == MsgStep(st, None, None)
    ensures Present(explicitChatId) || Present(st.chatId) ==>
              && r.state == st.(messages := st.messages + [message])
              && r.written.Some?
              && r.written.value.id == (if Present(explicitChatId) then explicitChatId.value else st.chatId.value)
              && r.written.value.messages == r.state.messages
  {
    var target := TargetChatId(st, explicitChatId);
    if !Present(target) then MsgStep(st, None, None)
    else
      var updated := st.messages + [message];
      MsgStep(st.(messages := updated), Some(MessageEntry(target.value, updated)), None)
  }

  /**
   * saveAllMessages: without a chat id nothing happens. Otherwise the list is
   * written; the in-memory list is replaced only when the write succeeds,
   * and a failure shows a toast.
   */
  function SaveAllMessages(st: MsgState, newMessages: seq<Message>, persisted: bool): (r: MsgStep)
    ensures !Present(st.chatId) ==> r == MsgStep(st, None, None)
    ensures Present(st.chatId) ==> r.written == Some(SetMessages(st.chatId.value, newMessages))
    ensures Present(st.chatId) && persisted ==> r.state == st.(messages := newMessages) && r.toast.None?
    ensures Present(st.chatId) && !persisted ==> r.state == st && r.toast == Some("Failed to save messages")
  {
    if !Present(st.chatId) then MsgStep(st, None, None)
    else
      var entry := SetMessages(st.chatId.value, newMessages);
      if persisted then MsgStep(st.(messages := newMessages), Some(entry), None)
      else MsgStep(st, Some(entry), Some("Failed to save messages"))
  }

  /** deleteMessages: without a chat id nothing happens; otherwise the list and the stored entry are emptied. */
  function DeleteMessages(st: MsgState): (r: MsgStep)
    ensures r.toast.None?
    ensures !Present(st.chatId) ==> r == MsgStep(st, None, None)
    ensures Present(st.chatId) ==>
              r.state == st.(messages := []) && r.written == Some(ClearMessagesForChat(st.chatId.value))
  {
    if !Present(st.chatId) then MsgStep(st, None, None)
    else MsgStep(st.(messages := []), Some(ClearMessagesForChat(st.chatId.value)), None)
  }

  /** resetMessages: the in-memory list is emptied and the store is not touched. */
  function ResetMessages(st: MsgState): (r: MsgStep)
    ensures r.state == st.(messages := []) && r.written.None? && r.toast.None?
  {
    MsgStep(st.(messages := []), None, None)
  }

  // ---------------------------------------------------------------------
  // Properties

  /**
   * After a message is cached into a list that is in creation order and the
   * message is the newest, reading the written entry back gives the
   * in-memory list: memory and store agree.
   */
  lemma CacheAndAddAgreesWithStore(st: MsgState, message: Message, explicitChatId: Option<string>)
    requires Present(explicitChatId) || Present(st.chatId)
    requires SortedBy(st.messages, CreatedTime)
    requires forall i :: 0 <= i < |st.messages| ==> CreatedTime(st.messages[i]) <= CreatedTime(message)
    ensures var r := CacheAndAddMessage(st, message, explicitChatId);
            GetCachedMessages(Entry(Some(r.written.value.messages))) == Ok(r.state.messages)
  {
    SortedAppend(st.messages, message, CreatedTime);
    SortBySorted(st.messages + [message], CreatedTime);
  }

  /** After deleteMessages, loading the chat from the entry it wrote gives an empty list. */
  lemma DeleteThenLoadIsEmpty(st: MsgState)
    requires Present(st.chatId)
    ensures var d := DeleteMessages(st);
            var cleared := Entry(Some(d.written.value.messages));
            var l := Load(d.state, cleared, cleared);
            l.state.messages == [] && !l.state.isLoading
  {
  }

  /** Switching to no chat always ends in an empty, settled list, whatever came before. */
  lemma NullChatSettles(st: MsgState, first: EntryRead, second: EntryRead)
    ensures var s := OnChatIdChange(st, None);
            Load(s, first, second).state == MsgState(None, [], false)
  {
  }

  /**
   * The empty chat id of the bare path "/c/" is not null, so it starts
   * loading, but it is falsy, so the load is skipped: the provider keeps
   * its messages and stays loading, whatever the reads say.
   */
  lemma EmptyChatIdStaysLoading(st: MsgState, first: EntryRead, second: EntryRead)
    ensures var s := OnChatIdChange(st, Some(""));
            Load(s, first, second).state == st.(chatId := Some(""), isLoading := true)
  {
  }
}

=== FILE: preferences_provider.dfy ===
/**
 * The preference provider (lib/user-preference-store/provider.tsx): the
 * preferences in memory, loaded from the localStorage manager, updated by
 * one-field setters and by toggling a model's visibility. Each update is
 * written through the manager and, in full, under two keys of its own.
 */
module PreferencesProvider {
  import opened Common
  import opened Seqs
  import opened LocalStorage

  const PreferencesStorageKey := "user-preferences"
  const LayoutStorageKey := "preferred-layout"

  datatype PrefState = PrefState(preferences: Preferences, isLoading: bool)

  /** The mount effect: the manager's preferences, and loading is over. */
  function Init(window: bool, ls: Storage): (st: PrefState)
    ensures st.preferences == GetPreferences(window, ls) && !st.isLoading
  {
    PrefState(GetPreferences(window, ls), false)
  }

  /** saveToLocalStorage: the full record, and the layout alone under its own key. */
  function SaveToLocalStorage(window: bool, ls: Storage, prefs: Preferences): (r: Storage)
    ensures !window ==> r == ls
    ensures window ==> PreferencesStorageKey in r && r[PreferencesStorageKey] == PrefsValue(Full(prefs))
    ensures window ==> LayoutStorageKey in r && r[LayoutStorageKey] == Raw(prefs.layout)
    ensures forall k :: k in ls && k != PreferencesStorageKey && k != LayoutStorageKey ==> k in r && r[k] == ls[k]
  {
    if !window then ls
    else ls[PreferencesStorageKey := PrefsValue(Full(prefs))][LayoutStorageKey := Raw(prefs.layout)]
  }

  /**
   * updatePreferences: memory becomes the update over the in-memory record;
   * the manager merges the update over what it has stored; the merged
   * in-memory record is saved under the provider's keys.
   */
  function UpdatePreferences(window: bool, st: PrefState, ls: Storage, update: PrefsPatch): (r: (PrefState, Storage))
    ensures r.0 == st.(preferences := Overlay(st.preferences, update))
    ensures r.1 == SaveToLocalStorage(window, SetPreferences(window, ls, update), r.0.preferences)
  {
    var updated := Overlay(st.preferences, update);
    (st.(preferences := updated), SaveToLocalStorage(window, SetPreferences(window, ls, update), updated))
  }

  /** The one-field setters the provider exposes. */
  datatype Setter =
    | SetLayout(layout: string)
    | SetPromptSuggestions(enabled: bool)
    | SetShowToolInvocations(enabled: bool)
    | SetShowConversationPreviews(enabled: bool)
    | SetMultiModelEnabled(enabled: bool)

  /** The one-field update each setter passes to `updatePreferences`. */
  function PatchOf(s: Setter): (p: PrefsPatch)
    ensures p.hiddenModels.None?
    ensures s.SetLayout? <==> p.layout.Some?
    ensures s.SetPromptSuggestions? <==> p.promptSuggestions.Some?
    ensures s.SetShowToolInvocations? <==> p.showToolInvocations.Some?
    ensures s.SetShowConversationPreviews? <==> p.showConversationPreviews.Some?
    ensures s.SetMultiModelEnabled? <==> p.multiModelEnabled.Some?
  {
    match s
    case SetLayout(l) => PrefsPatch(Some(l), None, None, None, None, None)
    case SetPromptSuggestions(b) => PrefsPatch(None, Some(b), None, None, None, None)
    case SetShowToolInvocations(b) => PrefsPatch(None, None, Some(b), None, None, None)
    case SetShowConversationPreviews(b) => PrefsPatch(None, None, None, Some(b), None, None)
    case SetMultiModelEnabled(b) => PrefsPatch(None, None, None, None, Some(b), None)
  }

  /** isModelHidden: the model occurs somewhere in the hidden list. */
  function IsModelHidden(prefs: Preferences, modelId: string): (r: bool)
    ensures r <==> exists i :: 0 <= i < |prefs.hiddenModels| && prefs.hiddenModels[i] == modelId
  {
    modelId in prefs.hiddenModels
  }

  /** The hidden list after a toggle: every occurrence removed, or the model appended. */
  function ToggledHidden(hidden: seq<string>, modelId: string): (r: seq<string>)
    ensures modelId in hidden ==> r == Filter(hidden, (id: string) => id != modelId)
    ensures modelId !in hidden ==> r == hidden + [modelId]
    ensures modelId in r <==> modelId !in hidden
    ensures forall m :: m != modelId ==> (m in r <==> m in hidden)
  {
    if modelId in hidden then
      var kept := Filter(hidden, (id: string) => id != modelId);
      assert forall m :: m != modelId && m in hidden ==> m in kept by {
        forall m | m != modelId && m in hidden
          ensures m in kept
        {
          var i :| 0 <= i < |hidden| && hidden[i] == m;
        }
      }
      kept
    else hidden + [modelId]
  }

  /** toggleModelVisibility: `updatePreferences` with the toggled hidden list. */
  function ToggleModelVisibility(window: bool, st: PrefState, ls: Storage, modelId: string): (r: (PrefState, Storage))
    ensures IsModelHidden(r.0.preferences, modelId) <==> !IsModelHidden(st.preferences, modelId)
    ensures forall m :: m != modelId ==> (IsModelHidden(r.0.preferences, m) <==> IsModelHidden(st.preferences, m))
    ensures r.0.preferences == st.preferences.(hiddenModels := r.0.preferences.hiddenModels)
  {
    var hidden := ToggledHidden(st.preferences.hiddenModels, modelId);
    UpdatePreferences(window, st, ls, PrefsPatch(None, None, None, None, None, Some(hidden)))
  }

  // ---------------------------------------------------------------------
  // Properties

  /** A setter changes exactly its own field. */
  lemma SetterChangesOneField(window: bool, st: PrefState, ls: Storage, s: Setter)
    ensures var p := UpdatePreferences(window, st, ls, PatchOf(s)).0.preferences;
            && (s.SetLayout? ==> p == st.preferences.(layout := s.layout))
            && (s.SetPromptSuggestions? ==> p == st.preferences.(promptSuggestions := s.enabled))
            && (s.SetShowToolInvocations? ==> p == st.preferences.(showToolInvocations := s.enabled))
            && (s.SetShowConversationPreviews? ==> p == st.preferences.(showConversationPreviews := s.enabled))
            && (s.SetMultiModelEnabled? ==> p == st.preferences.(multiModelEnabled := s.enabled))
  {
  }

  /** Toggling a model twice restores whether it is hidden, and leaves every other model as it was. */
  lemma ToggleTwiceRestores(window: bool, st: PrefState, ls: Storage, modelId: string, m: string)
    ensures var (st1, ls1) := ToggleModelVisibility(window, st, ls, modelId);
            var (st2, _) := ToggleModelVisibility(window, st1, ls1, modelId);
            IsModelHidden(st2.preferences, m) <==> IsModelHidden(st.preferences, m)
  {
  }

  /**
   * With a window, after an update the manager's stored preferences agree
   * with memory whenever memory and storage agreed before.
   */
  lemma UpdateKeepsStoreInSync(st: PrefState, ls: Storage, update: PrefsPatch)
    requires st.preferences == GetPreferences(true, ls)
    ensures var (st1, ls1) := UpdatePreferences(true, st, ls, update);
            GetPreferences(true, ls1) == st1.preferences
  {
    var ls0 := SetPreferences(true, ls, update);
    SetThenGetPreferences(ls, update);
    assert PreferencesKey in ls0 && ls0[PreferencesKey] == PrefsValue(Full(Overlay(st.preferences, update)));
  }
}

=== FILE: preferences_routes.dfy ===
/**
 * The two preference endpoints: app/api/user-preferences-local/route.ts and
 * app/api/user-preferences/route.ts. Neither stores anything: GET answers
 * the defaults and PUT validates the body and echoes it with defaults
 * filled in. The local route checks every field; the other checks only
 * `layout` and a truthy `hidden_models`, and adds `success: true`.
 */
module PreferencesRoutes {
  import opened Common
  import LocalStorage

  const FlagFields: seq<string> :=
    ["prompt_suggestions", "show_tool_invocations", "show_conversation_previews", "multi_model_enabled"]

  /** The default of each flag, in the order of `FlagFields`. */
  const FlagDefaults: seq<bool> := [true, true, true, false]

  /** The body both GET handlers answer. */
  const DefaultBody: Json := JObj(map[
    "layout" := JStr("fullscreen"),
    "prompt_suggestions" := JBool(true),
    "show_tool_invocations" := JBool(true),
    "show_conversation_previews" := JBool(true),
    "multi_model_enabled" := JBool(false),
    "hidden_models" := JArr([])])

  /** The GET handler; both routes declare it with the same text. */
  function Get(): (r: Response)
    ensures r.status == 200 && r.body == DefaultBody
  {
    Response(200, DefaultBody)
  }

  /** `value ?? fallback`: the value unless it is undefined or null. */
  function Coalesce(value: Option<Json>, fallback: Json): (r: Json)
    ensures value.Some? && value.value != JNull ==> r == value.value
    ensures value.None? || value.value == JNull ==> r == fallback
  {
    if value.Some? && value.value != JNull then value.value else fallback
  }

  /** The echoed record: falsy layout to "fullscreen", flags `??` their defaults, falsy hidden list to []. */
  function Echo(body: Json): (r: map<string, Json>)
    ensures r.Keys == {"layout", "prompt_suggestions", "show_tool_invocations",
                       "show_conversation_previews", "multi_model_enabled", "hidden_models"}
    ensures r["layout"] == OrJson(Field(body, "layout"), JStr("fullscreen"))
    ensures r["hidden_models"] == OrJson(Field(body, "hidden_models"), JArr([]))
    ensures forall i :: 0 <= i < 4 ==> r[FlagFields[i]] == Coalesce(Field(body, FlagFields[i]), JBool(FlagDefaults[i]))
    ensures r.Keys == DefaultBody.fields.Keys
  {
    assert FlagFields[0] == "prompt_suggestions" && FlagFields[1] == "show_tool_invocations";
    assert FlagFields[2] == "show_conversation_previews" && FlagFields[3] == "multi_model_enabled";
    map[
      "layout" := OrJson(Field(body, "layout"), JStr("fullscreen")),
      "prompt_suggestions" := Coalesce(Field(body, "prompt_suggestions"), JBool(true)),
      "show_tool_invocations" := Coalesce(Field(body, "show_tool_invocations"), JBool(true)),
      "show_conversation_previews" := Coalesce(Field(body, "show_conversation_previews"), JBool(true)),
      "multi_model_enabled" := Coalesce(Field(body, "multi_model_enabled"), JBool(false)),
      "hidden_models" := OrJson(Field(body, "hidden_models"), JArr([]))]
  }

  /** `layout && typeof layout !== "string"`. */
  predicate BadLayout(body: Json) {
    TruthyOpt(Field(body, "layout")) && !Field(body, "layout").value.JStr?
  }

  /** A flag is given (null included) and is not a boolean. */
  predicate BadFlag(body: Json, name: string) {
    Field(body, name).Some? && !Field(body, name).value.JBool?
  }

  /** The first flag, in source order, that fails its check. */
  function FirstBadFlag(body: Json, i: nat): (r: Option<string>)
    requires i <= 4
    ensures r.Some? ==> r.value in FlagFields[i..] && BadFlag(body, r.value)
    ensures r.None? <==> forall j :: i <= j < 4 ==> !BadFlag(body, FlagFields[j])
    decreases 4 - i
  {
    if i == 4 then None
    else if BadFlag(body, FlagFields[i]) then Some(FlagFields[i])
    else FirstBadFlag(body, i + 1)
  }

  /**
   * The local PUT handler: a body that does not parse, or is null, is a 500;
   * then layout, each flag and hidden_models are checked in that order; a
   * body that passes is echoed with defaults filled in.
   */
  function LocalPut(body: Option<Json>): (r: Response)
    ensures body.None? || body == Some(JNull) ==> r == InternalError
    ensures body.Some? && body.value != JNull ==>
              (r.status == 200 <==>
                 !BadLayout(body.value)
                 && (forall i :: 0 <= i < 4 ==> !BadFlag(body.value, FlagFields[i]))
                 && !(Field(body.value, "hidden_models").Some? && !Field(body.value, "hidden_models").value.JArr?))
    ensures body.Some? && body.value != JNull ==> r.status != 500
    ensures body.Some? && BadLayout(body.value) ==> r == BadRequest("layout must be a string")
    ensures body.Some? && !BadLayout(body.value) && FirstBadFlag(body.value, 0).Some? ==>
              r == BadRequest(FirstBadFlag(body.value, 0).value + " must be a boolean")
    ensures body.Some? && !BadLayout(body.value) && FirstBadFlag(body.value, 0).None?
            && Field(body.value, "hidden_models").Some? && !Field(body.value, "hidden_models").value.JArr? ==>
              r == BadRequest("hidden_models must be an array")
    ensures r.status == 200 ==> r.body == JObj(Echo(body.value))
    ensures r.status == 200 || r.status == 400 || r.status == 500
  {
    if body.None? || body.value == JNull then InternalError
    else
      var b := body.value;
      if BadLayout(b) then BadRequest("layout must be a string")
      else
        var flag := FirstBadFlag(b, 0);
        if flag.Some? then BadRequest(flag.value + " must be a boolean")
        else if Field(b, "hidden_models").Some? && !Field(b, "hidden_models").value.JArr? then
          BadRequest("hidden_models must be an array")
        else Response(200, JObj(Echo(b)))
  }

  /**
   * The other PUT handler: only layout and a truthy non-array hidden_models
   * are refused; the answer carries `success: true`.
   */
  function Put(body: Option<Json>): (r: Response)
    ensures body.None? || body == Some(JNull) ==> r == InternalError
    ensures body.Some? && body.value != JNull ==>
              (r.status == 200 <==>
                 !BadLayout(body.value)
                 && !(TruthyOpt(Field(body.value, "hidden_models")) && !Field(body.value, "hidden_models").value.JArr?))
    ensures body.Some? && body.value != JNull ==> r.status != 500
    ensures body.Some? && BadLayout(body.value) ==> r == BadRequest("layout must be a string")
    ensures body.Some? && !BadLayout(body.value)
            && TruthyOpt(Field(body.value, "hidden_models")) && !Field(body.value, "hidden_models").value.JArr? ==>
              r == BadRequest("hidden_models must be an array")
    ensures r.status == 200 ==> r.body == JObj(Echo(body.value)["success" := JBool(true)])
  {
    if body.None? || body.value == JNull then InternalError
    else
      var b := body.value;
      if BadLayout(b) then BadRequest("layout must be a string")
      else if TruthyOpt(Field(b, "hidden_models")) && !Field(b, "hidden_models").value.JArr? then
        BadRequest("hidden_models must be an array")
      else Response(200, JObj(Echo(b)["success" := JBool(true)]))
  }

  // ---------------------------------------------------------------------
  // Properties

  /** A record the local route would answer: a string layout, boolean flags, an array of hidden models. */
  predicate WellTypedRecord(m: map<string, Json>) {
    && m.Keys == DefaultBody.fields.Keys
    && m["layout"].JStr?
    && (forall i :: 0 <= i < 4 ==> m[FlagFields[i]].JBool?)
    && m["hidden_models"].JArr?
  }

  /** Whatever the local route accepts, it answers with a well-typed preference record. */
  lemma LocalPutAnswersWellTyped(body: Option<Json>)
    requires LocalPut(body).status == 200
    ensures LocalPut(body).body.JObj? && WellTypedRecord(LocalPut(body).body.fields)
  {
  }

  /** The other route accepts everything the local route accepts, with the same record plus `success`. */
  lemma LocalAcceptedIsAccepted(body: Option<Json>)
    requires LocalPut(body).status == 200
    ensures Put(body).status == 200
    ensures Put(body).body == JObj(LocalPut(body).body.fields["success" := JBool(true)])
  {
  }

  /** With a valid layout, the local route refuses the first bad flag by name. */
  lemma LocalPutBadFlag(b: Json)
    requires b.JObj? && !BadLayout(b) && FirstBadFlag(b, 0).Some?
    ensures LocalPut(Some(b)) == BadRequest(FirstBadFlag(b, 0).value + " must be a boolean")
  {
  }

  /** The local route refuses a flag that is not a boolean, naming the first such flag. */
  lemma LocalRefusesNonBooleanFlag(b: Json)
    requires b.JObj? && !BadLayout(b) && BadFlag(b, "prompt_suggestions")
    ensures LocalPut(Some(b)) == BadRequest("prompt_suggestions must be a boolean")
  {
    assert FlagFields[0] == "prompt_suggestions";
    assert FirstBadFlag(b, 0) == Some("prompt_suggestions");
    LocalPutBadFlag(b);
    PromptSuggestionsMessage();
  }

  /** The refusal text for `prompt_suggestions`, spelled out. */
  lemma PromptSuggestionsMessage()
    ensures "prompt_suggestions" + " must be a boolean" == "prompt_suggestions must be a boolean"
  {
  }

  /** The other route echoes such a flag as it came, unless it is null. */
  lemma OtherEchoesNonBooleanFlag(b: Json)
    requires b.JObj? && !BadLayout(b) && BadFlag(b, "prompt_suggestions")
    requires Field(b, "prompt_suggestions") != Some(JNull)
    requires !(TruthyOpt(Field(b, "hidden_models")) && !Field(b, "hidden_models").value.JArr?)
    ensures Put(Some(b)).status == 200
    ensures Put(Some(b)).body.fields["prompt_suggestions"] == b.fields["prompt_suggestions"]
  {
    assert FlagFields[0] == "prompt_suggestions";
  }

  /** A null hidden list is refused by the local route and becomes [] in the other. */
  lemma NullHiddenModels()
    ensures var b := JObj(map["hidden_models" := JNull]);
            && LocalPut(Some(b)) == BadRequest("hidden_models must be an array")
            && Put(Some(b)).status == 200
            && Put(Some(b)).body.fields["hidden_models"] == JArr([])
  {
    var b := JObj(map["hidden_models" := JNull]);
    assert FirstBadFlag(b, 0).None?;
  }

  /** A preference record in the snake_case wire format of the routes. */
  function WireFormat(p: LocalStorage.Preferences): (j: Json)
    ensures j.JObj? && WellTypedRecord(j.fields)
    ensures j.fields["layout"] == JStr(p.layout)
    ensures j.fields["hidden_models"].items == seq(|p.hiddenModels|, i requires 0 <= i < |p.hiddenModels| => JStr(p.hiddenModels[i]))
  {
    JObj(map[
      "layout" := JStr(p.layout),
      "prompt_suggestions" := JBool(p.promptSuggestions),
      "show_tool_invocations" := JBool(p.showToolInvocations),
      "show_conversation_previews" := JBool(p.showConversationPreviews),
      "multi_model_enabled" := JBool(p.multiModelEnabled),
      "hidden_models" := JArr(seq(|p.hiddenModels|, i requires 0 <= i < |p.hiddenModels| => JStr(p.hiddenModels[i])))])
  }

  /** The defaults the routes answer are the localStorage manager's default preferences. */
  lemma DefaultsAgreeWithManager()
    ensures WireFormat(LocalStorage.DefaultPreferences) == DefaultBody
    ensures LocalPut(Some(JObj(map[]))) == Response(200, DefaultBody)
  {
    var e: seq<Json> := seq(0, i requires 0 <= i < 0 => JNull);
    assert e == [];
  }
}

=== FILE: preview_panel.dfy ===
/**
 * The decision logic of the chat preview panel
 * (app/components/history/chat-preview-panel.tsx): which of its five states
 * is shown, when a preview is fetched, and the bounded retry of a failed
 * fetch. The markup, scrolling and the fetch itself are not modelled; a
 * fetch is recorded as the chat id it was started for.
 */
module PreviewPanel {
  import opened Common

  const MaxRetries: nat := 3

  /** What the panel shows. The error state carries whether a retry button appears. */
  datatype View =
    | DefaultView
    | LoadingView
    | ErrorView(error: string, retryButton: bool)
    | EmptyView
    | ListView(count: nat)

  /**
   * The properties the panel is rendered with: `chatId` may be null,
   * `error` defaults to null, and `count` is the length of `messages`.
   */
  datatype Props = Props(chatId: Option<string>, isLoading: bool, error: Option<string>, count: nat)

  /**
   * `isNetworkError`: the message mentions fetch, network or HTTP. The last
   * alternative of the source's test, "Failed to fetch", adds nothing.
   */
  function IsNetworkError(error: string): (r: bool)
    ensures r <==> Contains(error, "fetch") || Contains(error, "network") || Contains(error, "HTTP")
  {
    FailedToFetchIsRedundant(error);
    Contains(error, "fetch") || Contains(error, "network") || Contains(error, "HTTP") || Contains(error, "Failed to fetch")
  }

  /** A message that mentions "Failed to fetch" mentions "fetch". */
  lemma FailedToFetchIsRedundant(error: string)
    ensures Contains(error, "Failed to fetch") ==> Contains(error, "fetch")
  {
    if Contains(error, "Failed to fetch") {
      var i :| 0 <= i <= |error| && OccursAt(error, "Failed to fetch", i);
      assert error[i + 10..i + 15] == error[i..i + 15][10..15];
      assert "Failed to fetch"[10..15] == "fetch";
      assert OccursAt(error, "fetch", i + 10);
    }
  }

  /**
   * The five guarded branches of the render, in source order: each branch
   * contributes its view when its own condition holds.
   */
  function Rendered(p: Props, retryCount: nat): (vs: seq<View>)
    ensures |vs| <= 5
  {
    var chat := Present(p.chatId);
    var failed := Present(p.error);
    (if !chat then [DefaultView] else [])
    + (if chat && p.isLoading then [LoadingView] else [])
    + (if chat && failed && !p.isLoading
       then [ErrorView(p.error.value, IsNetworkError(p.error.value) && retryCount < MaxRetries)] else [])
    + (if chat && !p.isLoading && !failed && p.count == 0 then [EmptyView] else [])
    + (if chat && !p.isLoading && !failed && p.count > 0 then [ListView(p.count)] else [])
  }

  /**
   * The state shown, by precedence: no chat, then loading, then a truthy
   * error, then an empty or non-empty list. A retry button appears only for
   * a network error while retries remain.
   */
  function Choose(p: Props, retryCount: nat): (v: View)
    ensures v.DefaultView? <==> !Present(p.chatId)
    ensures v.LoadingView? <==> Present(p.chatId) && p.isLoading
    ensures v.ErrorView? <==> Present(p.chatId) && !p.isLoading && Present(p.error)
    ensures v.ErrorView? ==> v.error == p.error.value
    ensures v.ErrorView? ==> (v.retryButton <==> IsNetworkError(v.error) && retryCount < MaxRetries)
    ensures v.EmptyView? <==> Present(p.chatId) && !p.isLoading && !Present(p.error) && p.count == 0
    ensures v.ListView? <==> Present(p.chatId) && !p.isLoading && !Present(p.error) && p.count > 0
    ensures v.ListView? ==> v.count == p.count
  {
    if !Present(p.chatId) then DefaultView
    else if p.isLoading then LoadingView
    else if Present(p.error) then ErrorView(p.error.value, IsNetworkError(p.error.value) && retryCount < MaxRetries)
    else if p.count == 0 then EmptyView
    else ListView(p.count)
  }

  /** Exactly one of the five branches renders, and it is the one `Choose` picks. */
  lemma ExactlyOneBranch(p: Props, retryCount: nat)
    ensures Rendered(p, retryCount) == [Choose(p, retryCount)]
  {
  }

  /** The component's own state: the chat last fetched and the retries used on it. */
  datatype Panel = Panel(lastChatId: Option<string>, retryCount: nat)

  const Initial := Panel(None, 0)

  /**
   * A render: a truthy chat id other than the last one starts one fetch,
   * remembers the id and resets the retry count, provided a fetcher was
   * given. Returns the new state and the fetches started.
   */
  function OnRender(st: Panel, chatId: Option<string>, hasFetcher: bool): (r: (Panel, seq<string>))
    ensures |r.1| <= 1
    ensures r.1 != [] <==> Present(chatId) && chatId != st.lastChatId && hasFetcher
    ensures r.1 != [] ==> r.1 == [chatId.value] && r.0 == Panel(chatId, 0)
    ensures r.1 == [] ==> r.0 == st
  {
    if Present(chatId) && chatId != st.lastChatId && hasFetcher then (Panel(chatId, 0), [chatId.value])
    else (st, [])
  }

  /** handleRetry: with a chat, a fetcher and retries left, count one more and fetch again. */
  function HandleRetry(st: Panel, chatId: Option<string>, hasFetcher: bool): (r: (Panel, seq<string>))
    ensures r.1 != [] <==> Present(chatId) && hasFetcher && st.retryCount < MaxRetries
    ensures r.1 != [] ==> r.1 == [chatId.value] && r.0 == st.(retryCount := st.retryCount + 1)
    ensures r.1 == [] ==> r.0 == st
    ensures st.retryCount <= MaxRetries ==> r.0.retryCount <= MaxRetries
  {
    if Present(chatId) && hasFetcher && st.retryCount < MaxRetries then
      (st.(retryCount := st.retryCount + 1), [chatId.value])
    else (st, [])
  }

  /** Rendering again with the same chat starts nothing new. */
  lemma RerenderDoesNotRefetch(st: Panel, chatId: Option<string>, hasFetcher: bool)
    ensures var s := OnRender(st, chatId, hasFetcher).0;
            OnRender(s, chatId, hasFetcher) == (s, [])
  {
  }

  /**
   * Clicking retry `n` times in a row fetches again only while retries
   * remain: at most three times from a fresh chat, however often it is
   * clicked.
   */
  method RetryRepeatedly(st: Panel, chatId: Option<string>, hasFetcher: bool, n: nat)
    returns (final: Panel, fetches: seq<string>)
    ensures !(Present(chatId) && hasFetcher) ==> fetches == [] && final == st
    ensures Present(chatId) && hasFetcher && st.retryCount <= MaxRetries ==>
              |fetches| == (if n < MaxRetries - st.retryCount then n else MaxRetries - st.retryCount)
              && final.retryCount == st.retryCount + |fetches|
    ensures st.retryCount >= MaxRetries ==> fetches == []
    ensures forall i :: 0 <= i < |fetches| ==> fetches[i] == chatId.value
    ensures final.lastChatId == st.lastChatId
  {
    final := st;
    fetches := [];
    var i := 0;
    while i < n
      invariant 0 <= i <= n
      invariant final.lastChatId == st.lastChatId
      invariant !(Present(chatId) && hasFetcher) ==> fetches == [] && final == st
      invariant final.retryCount == st.retryCount + |fetches|
      invariant Present(chatId) && hasFetcher && st.retryCount <= MaxRetries ==>
                  |fetches| == (if i < MaxRetries - st.retryCount then i else MaxRetries - st.retryCount)
      invariant st.retryCount >= MaxRetries ==> fetches == []
      invariant forall k :: 0 <= k < |fetches| ==> fetches[k] == chatId.value
    {
      var step := HandleRetry(final, chatId, hasFetcher);
      final := step.0;
      fetches := fetches + step.1;
      i := i + 1;
    }
  }

  /** What the user or the parent does to the panel while the same chat is shown. */
  datatype Event = Rerender | RetryClick

  /** The state and the fetches after a series of events for one chat. */
  function Run(st: Panel, chatId: Option<string>, hasFetcher: bool, events: seq<Event>): (r: (Panel, seq<string>))
    decreases |events|
  {
    if |events| == 0 then (st, [])
    else
      var step := if events[0].Rerender? then OnRender(st, chatId, hasFetcher) else HandleRetry(st, chatId, hasFetcher);
      var rest := Run(step.0, chatId, hasFetcher, events[1..]);
      (rest.0, step.1 + rest.1)
  }

  /**
   * Once a chat has been fetched, any mix of re-renders and retry clicks
   * for it fetches at most the retries that remain, and the count never
   * passes the maximum.
   */
  lemma {:induction false} RetriesBounded(st: Panel, chatId: Option<string>, hasFetcher: bool, events: seq<Event>)
    requires st.lastChatId == chatId && st.retryCount <= MaxRetries
    ensures var r := Run(st, chatId, hasFetcher, events);
            && r.0.lastChatId == chatId
            && r.0.retryCount <= MaxRetries
            && |r.1| == r.0.retryCount - st.retryCount
    decreases |events|
  {
    if |events| > 0 {
      var step := if events[0].Rerender? then OnRender(st, chatId, hasFetcher) else HandleRetry(st, chatId, hasFetcher);
      RetriesBounded(step.0, chatId, hasFetcher, events[1..]);
    }
  }

  /** A different chat starts over: one fetch and a zero retry count, even after the retries ran out. */
  lemma NewChatResetsRetries(st: Panel, chatId: string)
    requires chatId != "" && st.lastChatId != Some(chatId)
    ensures OnRender(st, Some(chatId), true) == (Panel(Some(chatId), 0), [chatId])
  {
  }
}

=== FILE: seqs.dfy ===
/**
 * Sequence operations the stores are built from: an order-preserving filter
 * and a stable sort by an integer key. JavaScript's `Array.prototype.sort`
 * is stable, so a comparator `(a, b) => key(a) - key(b)` orders a list
 * exactly as `SortBy(s, key)` does, and `(a, b) => key(b) - key(a)` as
 * `SortBy(s, x => -key(x))`.
 */
module Seqs {

  // ---------------------------------------------------------------------
  // Filter

  /** `s.filter(p)`. */
  function Filter<T>(s: seq<T>, p: T -> bool): (r: seq<T>)
    ensures |r| <= |s|
    ensures forall i :: 0 <= i < |r| ==> r[i] in s && p(r[i])
    ensures forall i :: 0 <= i < |s| && p(s[i]) ==> s[i] in r
    ensures (forall i :: 0 <= i < |s| ==> p(s[i])) ==> r == s
  {
    if |s| == 0 then []
    else
      var rest := Filter(s[1..], p);
      assert s == [s[0]] + s[1..];
      if p(s[0]) then [s[0]] + rest else rest
  }

  /** Filtering distributes over concatenation. */
  lemma {:induction false} FilterAppend<T>(a: seq<T>, b: seq<T>, p: T -> bool)
    ensures Filter(a + b, p) == Filter(a, p) + Filter(b, p)
  {
    if |a| == 0 {
      assert a + b == b;
    } else {
      assert (a + b)[1..] == a[1..] + b;
      FilterAppend(a[1..], b, p);
    }
  }

  /** `a` is `b` with some elements left out and the rest kept in their order. */
  predicate Subsequence<T(==)>(a: seq<T>, b: seq<T>)
    decreases |b|
  {
    if |a| == 0 then true
    else if |b| == 0 then false
    else (a[0] == b[0] && Subsequence(a[1..], b[1..])) || Subsequence(a, b[1..])
  }

  /** A filter keeps the relative order of what it keeps. */
  lemma {:induction false} FilterSubsequence<T>(s: seq<T>, p: T -> bool)
    ensures Subsequence(Filter(s, p), s)
  {
    if |s| > 0 {
      FilterSubsequence(s[1..], p);
      var r := Filter(s, p);
      if p(s[0]) {
        assert r[0] == s[0] && r[1..] == Filter(s[1..], p);
      } else {
        assert r == Filter(s[1..], p);
      }
    }
  }

  /** A filter keeps every occurrence of an element it accepts and none of one it rejects. */
  lemma {:induction false} FilterCount<T>(s: seq<T>, p: T -> bool)
    ensures forall x :: multiset(Filter(s, p))[x] == if p(x) then multiset(s)[x] else 0
  {
    if |s| > 0 {
      FilterCount(s[1..], p);
      assert s == [s[0]] + s[1..];
      var rest := Filter(s[1..], p);
      if p(s[0]) {
        assert Filter(s, p) == [s[0]] + rest;
      } else {
        assert Filter(s, p) == rest;
      }
    }
  }

  /** `s.flatMap(f)`: the pieces `f` gives each element, concatenated in order. */
  function FlatMap<T, U>(s: seq<T>, f: T -> seq<U>): (r: seq<U>)
    ensures |s| == 0 ==> r == []
  {
    if |s| == 0 then [] else f(s[0]) + FlatMap(s[1..], f)
  }

  /** Flat-mapping one more element appends its piece. */
  lemma {:induction false} FlatMapAppend<T, U>(s: seq<T>, x: T, f: T -> seq<U>)
    ensures FlatMap(s + [x], f) == FlatMap(s, f) + f(x)
  {
    if |s| == 0 {
      assert s + [x] == [x];
      assert [x][1..] == [];
    } else {
      assert (s + [x])[0] == s[0];
      assert (s + [x])[1..] == s[1..] + [x];
      FlatMapAppend(s[1..], x, f);
    }
  }

  // ---------------------------------------------------------------------
  // Sorting

  /** `s` is in ascending order of `key`. */
  ghost predicate SortedBy<T>(s: seq<T>, key: T -> int) {
    forall i, j :: 0 <= i < j < |s| ==> key(s[i]) <= key(s[j])
  }

  /** Every key in `s` is at least `v`. */
  ghost predicate AtLeast<T>(s: seq<T>, key: T -> int, v: int) {
    forall i :: 0 <= i < |s| ==> v <= key(s[i])
  }

  /** A list is sorted when its head bounds its sorted tail from below. */
  lemma SortedCons<T>(x: T, s: seq<T>, key: T -> int)
    requires AtLeast(s, key, key(x)) && SortedBy(s, key)
    ensures SortedBy([x] + s, key)
  {
    var r := [x] + s;
    forall i, j | 0 <= i < j < |r|
      ensures key(r[i]) <= key(r[j])
    {
      assert r[j] == s[j - 1];
      if i > 0 {
        assert r[i] == s[i - 1];
      }
    }
  }

  /**
   * Insert `x` in front of the first element whose key is not smaller than
   * `x`'s; into a sorted list this keeps the list sorted and places `x`
   * before every element with an equal key.
   */
  function Insert<T>(x: T, s: seq<T>, key: T -> int): (r: seq<T>)
    ensures |r| == |s| + 1
    ensures multiset(r) == multiset(s) + multiset{x}
    ensures forall v :: AtLeast(s, key, v) && v <= key(x) ==> AtLeast(r, key, v)
    ensures SortedBy(s, key) ==> SortedBy(r, key)
  {
    if |s| == 0 || key(x) <= key(s[0]) then
      var r := [x] + s;
      assert SortedBy(s, key) ==> SortedBy(r, key) by {
        if SortedBy(s, key) {
          assert AtLeast(s, key, key(x));
          SortedCons(x, s, key);
        }
      }
      r
    else
      var rest := Insert(x, s[1..], key);
      assert s == [s[0]] + s[1..];
      var r := [s[0]] + rest;
      assert forall v :: AtLeast(s, key, v) && v <= key(x) ==> AtLeast(r, key, v) by {
        forall v | AtLeast(s, key, v) && v <= key(x)
          ensures AtLeast(r, key, v)
        {
          assert AtLeast(s[1..], key, v);
          assert AtLeast(rest, key, v);
          assert forall i :: 1 <= i < |r| ==> r[i] == rest[i - 1];
        }
      }
      assert SortedBy(s, key) ==> SortedBy(r, key) by {
        if SortedBy(s, key) {
          assert AtLeast(s[1..], key, key(s[0]));
          assert SortedBy(s[1..], key);
          SortedCons(s[0], rest, key);
        }
      }
      r
  }

  /** A stable ascending sort of `s` by `key`. */
  function SortBy<T>(s: seq<T>, key: T -> int): (r: seq<T>)
    ensures |r| == |s|
    ensures multiset(r) == multiset(s)
    ensures SortedBy(r, key)
  {
    if |s| == 0 then []
    else
      assert s == [s[0]] + s[1..];
      Insert(s[0], SortBy(s[1..], key), key)
  }

  /** Sorting neither adds nor drops an element. */
  lemma SortByMembers<T>(s: seq<T>, key: T -> int)
    ensures forall x :: x in SortBy(s, key) <==> x in s
  {
    var r := SortBy(s, key);
    forall x
      ensures x in r <==> x in s
    {
      assert x in r <==> x in multiset(r);
      assert x in s <==> x in multiset(s);
    }
  }

  /** The elements of `s` whose key is `k`, in their original order. */
  function KeyRun<T>(s: seq<T>, key: T -> int, k: int): seq<T> {
    if |s| == 0 then []
    else (if key(s[0]) == k then [s[0]] else []) + KeyRun(s[1..], key, k)
  }

  lemma {:induction false} KeyRunInsert<T>(x: T, s: seq<T>, key: T -> int, k: int)
    ensures KeyRun(Insert(x, s, key), key, k)
         == (if key(x) == k then [x] else []) + KeyRun(s, key, k)
  {
    if |s| == 0 || key(x) <= key(s[0]) {
      assert ([x] + s)[1..] == s;
    } else {
      var rest := Insert(x, s[1..], key);
      assert ([s[0]] + rest)[1..] == rest;
      KeyRunInsert(x, s[1..], key, k);
      if key(s[0]) == k {
        // key(x) > key(s[0]) == k, so x is not part of the run
        assert key(x) != k;
      }
    }
  }

  /**
   * Stability: for every key value, the elements carrying that value keep
   * their relative order through the sort.
   */
  lemma {:induction false} SortByStable<T>(s: seq<T>, key: T -> int, k: int)
    ensures KeyRun(SortBy(s, key), key, k) == KeyRun(s, key, k)
  {
    if |s| > 0 {
      SortByStable(s[1..], key, k);
      KeyRunInsert(s[0], SortBy(s[1..], key), key, k);
    }
  }

  /** Sorting a list that is already sorted leaves it unchanged. */
  lemma {:induction false} SortBySorted<T>(s: seq<T>, key: T -> int)
    requires SortedBy(s, key)
    ensures SortBy(s, key) == s
  {
    if |s| > 0 {
      assert SortedBy(s[1..], key);
      SortBySorted(s[1..], key);
      assert s == [s[0]] + s[1..];
    }
  }

  /** Sorting is idempotent. */
  lemma {:induction false} SortByIdempotent<T>(s: seq<T>, key: T -> int)
    ensures SortBy(SortBy(s, key), key) == SortBy(s, key)
  {
    SortBySorted(SortBy(s, key), key);
  }

  /** A sublist kept by `Filter` is still sorted. */
  lemma {:induction false} FilterSorted<T>(s: seq<T>, p: T -> bool, key: T -> int)
    requires SortedBy(s, key)
    ensures SortedBy(Filter(s, p), key)
  {
    if |s| > 0 {
      assert SortedBy(s[1..], key);
      FilterSorted(s[1..], p, key);
      var rest := Filter(s[1..], p);
      assert AtLeast(rest, key, key(s[0])) by {
        forall j | 0 <= j < |rest|
          ensures key(s[0]) <= key(rest[j])
        {
          var k :| 0 <= k < |s[1..]| && s[1..][k] == rest[j];
          assert s[k + 1] == rest[j];
        }
      }
      if p(s[0]) {
        SortedCons(s[0], rest, key);
      }
    }
  }

  /** Appending an element whose key is not smaller than any other keeps a list sorted. */
  lemma SortedAppend<T>(s: seq<T>, x: T, key: T -> int)
    requires SortedBy(s, key)
    requires forall i :: 0 <= i < |s| ==> key(s[i]) <= key(x)
    ensures SortedBy(s + [x], key)
  {
  }
}

=== FILE: session.dfy ===
/**
 * The chat session (lib/chat-store/session/provider.tsx): the current chat
 * id is derived from the page path alone.
 */
module Session {
  import opened Common

  const ChatPrefix := "/c/"

  /**
   * The chat id of a path: for a path starting with "/c/", the text between
   * that prefix and the next "/c/" (`pathname.split("/c/")[1]`); for any
   * other path, or no path, null.
   */
  function ChatIdFromPath(pathname: Option<string>): (r: Option<string>)
    ensures r.Some? <==> pathname.Some? && StartsWith(pathname.value, ChatPrefix)
    ensures r.Some? ==> StartsWith(pathname.value[3..], r.value) && !Contains(r.value, ChatPrefix)
    ensures r.Some? && !Contains(pathname.value[3..], ChatPrefix) ==> r.value == pathname.value[3..]
    ensures r.Some? && Contains(pathname.value[3..], ChatPrefix) ==>
              IndexOf(pathname.value[3..], ChatPrefix) == Some(|r.value|)
  {
    if pathname.Some? && StartsWith(pathname.value, ChatPrefix) then
      Some(BeforeFirst(pathname.value[3..], ChatPrefix))
    else None
  }

  /** Formatting a chat id into a path and reading it back gives the id, when it has no "/c/" inside. */
  lemma PathRoundTrip(id: string)
    requires !Contains(id, ChatPrefix)
    ensures ChatIdFromPath(Some(ChatPrefix + id)) == Some(id)
  {
    var p := ChatPrefix + id;
    assert p[..3] == ChatPrefix;
    assert p[3..] == id;
  }

  /**
   * The bare prefix names the empty chat id. It is not a present (truthy)
   * id; only the draft key and the preview panel treat it as no chat.
   */
  lemma BarePrefixIsEmptyId()
    ensures ChatIdFromPath(Some("/c/")) == Some("")
    ensures !Present(ChatIdFromPath(Some("/c/")))
  {
    assert !Contains("", ChatPrefix);
    PathRoundTrip("");
  }

  /**
   * The id ends at the next "/c/": whatever follows it is dropped. The id
   * together with the "/c" that follows must not already hold "/c/", since
   * the prefix overlaps itself ("x/c" followed by "/c/" reads as "x").
   */
  lemma {:induction false} SegmentEndsAtNextPrefix(id: string, tail: string)
    requires !Contains(id + "/c", ChatPrefix)
    ensures ChatIdFromPath(Some(ChatPrefix + id + ChatPrefix + tail)) == Some(id)
  {
    var p := ChatPrefix + id + ChatPrefix + tail;
    var rest := id + ChatPrefix + tail;
    assert p[..3] == ChatPrefix;
    assert p[3..] == rest;
    assert OccursAt(rest, ChatPrefix, |id|) by {
      assert rest[|id|..|id| + 3] == ChatPrefix;
    }
    forall i | 0 <= i < |id|
      ensures !OccursAt(rest, ChatPrefix, i)
    {
      if OccursAt(rest, ChatPrefix, i) {
        assert rest[i..i + 3] == (id + "/c")[i..i + 3];
        assert OccursAt(id + "/c", ChatPrefix, i);
      }
    }
    var r := ChatIdFromPath(Some(p)).value;
    assert IndexOf(rest, ChatPrefix) == Some(|id|);
    assert |r| == |id|;
    assert r == rest[..|id|] == id;
  }

  /** A path that does not start with "/c/" carries no chat id. */
  lemma OtherPathsHaveNoChat(pathname: string)
    requires !StartsWith(pathname, ChatPrefix)
    ensures ChatIdFromPath(Some(pathname)).None?
  {
  }

  /** "/c/abc" names chat "abc". */
  lemma Example()
    ensures ChatIdFromPath(Some("/c/abc")) == Some("abc")
  {
    assert !Contains("abc", ChatPrefix) by {
      assert "abc"[0..3][0] == 'a' != ChatPrefix[0];
      assert !OccursAt("abc", ChatPrefix, 0);
    }
    PathRoundTrip("abc");
    assert ChatPrefix + "abc" == "/c/abc";
  }
}

=== FILE: usage.dfy ===
/**
 * Daily quota counters (lib/usage.ts, with the error class of lib/api.ts).
 * A counter is a pair of localStorage keys, a count and the instant of the
 * last reset; a check resets the pair on a new UTC day and then refuses once
 * the count has reached the limit. The file-upload counter of
 * lib/file-handling.ts follows the same rule and reuses `CheckCounter`.
 */
module Usage {
  import opened Common

  /** The stored count and reset instant of one counter (`None`: key missing). */
  datatype Counter = Counter(count: nat, lastReset: Option<Instant>)

  /** A result that may be a thrown error carrying a `code`. */
  datatype Checked<+T> = Passed(value: T) | Refused(message: string, code: string)

  /** The counter as stored after a call, and what the call returned or threw. */
  datatype CheckOutcome<+T> = CheckOutcome(counter: Counter, outcome: Checked<T>)

  /** The code every `UsageLimitError` carries. */
  const DailyLimitCode := "DAILY_LIMIT_REACHED"

  /** `new UsageLimitError(message)`. */
  function UsageLimitError<T>(message: string): (e: Checked<T>)
    ensures e.Refused? && e.message == message && e.code == DailyLimitCode
  {
    Refused(message, DailyLimitCode)
  }

  /** `isProModel`: a model is pro exactly when it is not one of the free models. */
  function IsProModel(cfg: Config, modelId: string): (r: bool)
    ensures r <==> forall i :: 0 <= i < |cfg.freeModels| ==> cfg.freeModels[i] != modelId
  {
    modelId !in cfg.freeModels
  }

  /** No reset was recorded, or it was recorded on another UTC day than `now`. */
  function IsNewDay(lastReset: Option<Instant>, now: Instant): (r: bool)
    ensures r <==> lastReset.None?
                   || now.utc.year != lastReset.value.utc.year
                   || now.utc.month != lastReset.value.utc.month
                   || now.utc.day != lastReset.value.utc.day
  {
    lastReset.None? || lastReset.value.utc != now.utc
  }

  /** The counter after the reset step: zeroed and stamped with `now` on a new day. */
  function Reset(c: Counter, now: Instant): (r: Counter)
    ensures IsNewDay(c.lastReset, now) ==> r == Counter(0, Some(now))
    ensures !IsNewDay(c.lastReset, now) ==> r == c
    ensures !IsNewDay(r.lastReset, now)
  {
    if IsNewDay(c.lastReset, now) then Counter(0, Some(now)) else c
  }

  /**
   * The shared check: reset on a new day (the reset is stored even when the
   * check then throws), throw once the effective count has reached `limit`,
   * otherwise return the effective count.
   */
  function CheckCounter(c: Counter, now: Instant, limit: nat, message: string, code: string): (r: CheckOutcome<nat>)
    ensures r.counter == Reset(c, now)
    ensures r.outcome.Refused? <==> Reset(c, now).count >= limit
    ensures r.outcome.Refused? ==> r.outcome.message == message && r.outcome.code == code
    ensures r.outcome.Passed? ==> r.outcome.value == r.counter.count < limit
  {
    var reset := Reset(c, now);
    if reset.count >= limit then CheckOutcome(reset, Refused(message, code))
    else CheckOutcome(reset, Passed(reset.count))
  }

  /** The increments: the stored count plus one, the reset instant untouched. */
  function Increment(c: Counter): (r: Counter)
    ensures r.count == c.count + 1 && r.lastReset == c.lastReset
  {
    c.(count := c.count + 1)
  }

  /** The `userData` record `checkUsage` returns; only the daily count is tracked. */
  datatype UserData = UserData(messageCount: nat, dailyMessageCount: nat, dailyReset: int,
                               anonymous: bool, premium: bool)

  datatype UsageReport = UsageReport(userData: UserData, dailyCount: nat, dailyLimit: nat)

  /** checkUsage, against AUTH_DAILY_MESSAGE_LIMIT. */
  function CheckUsage(cfg: Config, daily: Counter, now: Instant): (r: CheckOutcome<UsageReport>)
    ensures r.counter == Reset(daily, now)
    ensures r.outcome.Refused? <==> Reset(daily, now).count >= cfg.authDailyMessageLimit
    ensures r.outcome.Refused? ==> r.outcome == UsageLimitError("Daily message limit reached.")
    ensures r.outcome.Passed? ==>
              var rep := r.outcome.value;
              && rep.dailyCount == r.counter.count && rep.dailyLimit == cfg.authDailyMessageLimit
              && rep.userData == UserData(0, rep.dailyCount, now.ms, false, false)
  {
    var c := CheckCounter(daily, now, cfg.authDailyMessageLimit, "Daily message limit reached.", DailyLimitCode);
    if c.outcome.Refused? then CheckOutcome(c.counter, Refused(c.outcome.message, c.outcome.code))
    else
      var n := c.outcome.value;
      CheckOutcome(c.counter, Passed(UsageReport(UserData(0, n, now.ms, false, false), n, cfg.authDailyMessageLimit)))
  }

  datatype ProReport = ProReport(dailyProCount: nat, limit: nat)

  /** checkProUsage, against DAILY_LIMIT_PRO_MODELS, on its own pair of keys. */
  function CheckProUsage(cfg: Config, pro: Counter, now: Instant): (r: CheckOutcome<ProReport>)
    ensures r.counter == Reset(pro, now)
    ensures r.outcome.Refused? <==> Reset(pro, now).count >= cfg.dailyLimitProModels
    ensures r.outcome.Refused? ==> r.outcome == UsageLimitError("Daily Pro model limit reached.")
    ensures r.outcome.Passed? ==> r.outcome.value == ProReport(r.counter.count, cfg.dailyLimitProModels)
  {
    var c := CheckCounter(pro, now, cfg.dailyLimitProModels, "Daily Pro model limit reached.", DailyLimitCode);
    if c.outcome.Refused? then CheckOutcome(c.counter, Refused(c.outcome.message, c.outcome.code))
    else CheckOutcome(c.counter, Passed(ProReport(c.outcome.value, cfg.dailyLimitProModels)))
  }

  /** Both counters, as the by-model operations see them. */
  datatype Counters = Counters(daily: Counter, pro: Counter)

  datatype ModelReport = DailyChecked(usage: UsageReport) | ProChecked(proUsage: ProReport)

  /**
   * checkUsageByModel: a pro model needs an authenticated user and is
   * checked against the pro counter; any other model against the daily one.
   * Only the counter that is checked can change.
   */
  function CheckUsageByModel(cfg: Config, cs: Counters, modelId: string, isAuthenticated: bool, now: Instant)
    : (r: (Counters, Checked<ModelReport>))
    ensures IsProModel(cfg, modelId) && !isAuthenticated ==>
              r == (cs, UsageLimitError("You must log in to use this model."))
    ensures IsProModel(cfg, modelId) && isAuthenticated ==>
              var p := CheckProUsage(cfg, cs.pro, now);
              r.0 == cs.(pro := p.counter) &&
              (p.outcome.Passed? <==> r.1.Passed?) &&
              (r.1.Passed? ==> r.1.value == ProChecked(p.outcome.value)) &&
              (r.1.Refused? ==> r.1.message == p.outcome.message && r.1.code == p.outcome.code)
    ensures !IsProModel(cfg, modelId) ==>
              var d := CheckUsage(cfg, cs.daily, now);
              r.0 == cs.(daily := d.counter) &&
              (d.outcome.Passed? <==> r.1.Passed?) &&
              (r.1.Passed? ==> r.1.value == DailyChecked(d.outcome.value)) &&
              (r.1.Refused? ==> r.1.message == d.outcome.message && r.1.code == d.outcome.code)
  {
    if IsProModel(cfg, modelId) then
      if !isAuthenticated then (cs, UsageLimitError("You must log in to use this model."))
      else
        var p := CheckProUsage(cfg, cs.pro, now);
        var out: Checked<ModelReport> :=
          if p.outcome.Refused? then Refused(p.outcome.message, p.outcome.code) else Passed(ProChecked(p.outcome.value));
        (cs.(pro := p.counter), out)
    else
      var d := CheckUsage(cfg, cs.daily, now);
      var out: Checked<ModelReport> :=
        if d.outcome.Refused? then Refused(d.outcome.message, d.outcome.code) else Passed(DailyChecked(d.outcome.value));
      (cs.(daily := d.counter), out)
  }

  /**
   * incrementUsageByModel: a pro model bumps the pro counter (nothing at all
   * for an unauthenticated user); any other model bumps the daily counter.
   */
  function IncrementUsageByModel(cfg: Config, cs: Counters, modelId: string, isAuthenticated: bool): (r: Counters)
    ensures IsProModel(cfg, modelId) && !isAuthenticated ==> r == cs
    ensures IsProModel(cfg, modelId) && isAuthenticated ==>
              r.daily == cs.daily && r.pro.count == cs.pro.count + 1 && r.pro.lastReset == cs.pro.lastReset
    ensures !IsProModel(cfg, modelId) ==>
              r.pro == cs.pro && r.daily.count == cs.daily.count + 1 && r.daily.lastReset == cs.daily.lastReset
  {
    if IsProModel(cfg, modelId) then
      if !isAuthenticated then cs else cs.(pro := Increment(cs.pro))
    else cs.(daily := Increment(cs.daily))
  }

  // ---------------------------------------------------------------------
  // Properties

  /** A second check on the same day finds the counter already reset: the reset is idempotent. */
  lemma ResetIdempotent(c: Counter, now: Instant)
    ensures Reset(Reset(c, now), now) == Reset(c, now)
  {
  }

  /**
   * One guarded send: check, and increment only when the check passed.
   * Starting at most at the limit, the stored count stays at most at the limit.
   */
  function GuardedSend(c: Counter, now: Instant, limit: nat): (r: Counter)
    ensures c.count <= limit ==> r.count <= limit
    ensures !IsNewDay(r.lastReset, now)
  {
    var checked := CheckCounter(c, now, limit, "", "");
    if checked.outcome.Passed? then Increment(checked.counter) else checked.counter
  }

  /**
   * Within one UTC day, `n` guarded sends let through at most `limit`
   * messages in total, whatever the counter held before, once a reset has
   * happened or the count already reflects the sends of the day.
   */
  method SendMany(c: Counter, now: Instant, limit: nat, n: nat) returns (accepted: nat, final: Counter)
    requires !IsNewDay(c.lastReset, now) ==> c.count <= limit
    ensures accepted <= limit
    ensures !IsNewDay(c.lastReset, now) ==> final.count == c.count + accepted
    ensures IsNewDay(c.lastReset, now) ==> final.count == accepted
    ensures accepted == (if n < limit - Reset(c, now).count then n else limit - Reset(c, now).count)
  {
    var start := Reset(c, now);
    final := start;
    accepted := 0;
    var i := 0;
    while i < n
      invariant 0 <= i <= n
      invariant final.count == start.count + accepted
      invariant final.lastReset == start.lastReset
      invariant final.count <= limit
      invariant accepted == (if i < limit - start.count then i else limit - start.count)
    {
      var checked := CheckCounter(final, now, limit, "", "");
      if checked.outcome.Passed? {
        final := Increment(checked.counter);
        accepted := accepted + 1;
      } else {
        final := checked.counter;
      }
      i := i + 1;
    }
  }

  /** A by-model check never changes the counter of the other tier. */
  lemma ByModelTouchesOneCounter(cfg: Config, cs: Counters, modelId: string, isAuthenticated: bool, now: Instant)
    ensures var r := CheckUsageByModel(cfg, cs, modelId, isAuthenticated, now).0;
            (IsProModel(cfg, modelId) ==> r.daily == cs.daily) &&
            (!IsProModel(cfg, modelId) ==> r.pro == cs.pro)
  {
  }

  /** Check-then-increment by model keeps the checked tier within its limit. */
  lemma CheckThenIncrementWithinLimit(cfg: Config, cs: Counters, modelId: string, isAuthenticated: bool, now: Instant)
    requires CheckUsageByModel(cfg, cs, modelId, isAuthenticated, now).1.Passed?
    ensures var after := IncrementUsageByModel(cfg, CheckUsageByModel(cfg, cs, modelId, isAuthenticated, now).0,
                                               modelId, isAuthenticated);
            (IsProModel(cfg, modelId) ==> after.pro.count <= cfg.dailyLimitProModels) &&
            (!IsProModel(cfg, modelId) ==> after.daily.count <= cfg.authDailyMessageLimit)
  {
  }
}

=== FILE: user_store.dfy ===
/**
 * The user store (lib/user-store/provider.tsx) and the profile lookup of
 * lib/user/api.ts: the profile shown to the application is a conversion of
 * the local user the localStorage manager keeps.
 */
module UserStore {
  import opened Common
  import opened LocalStorage

  /** The application's user profile; the server-side counters are always null here. */
  datatype UserProfile = UserProfile(
    id: string,
    email: string,
    displayName: string,
    profileImage: string,
    anonymous: Option<bool>,
    createdAt: Option<int>,
    premium: Option<bool>,
    favoriteModels: Option<seq<string>>,
    messageCount: Option<int>,
    dailyMessageCount: Option<int>,
    dailyReset: Option<int>,
    lastActiveAt: Option<int>,
    dailyProMessageCount: Option<int>,
    dailyProReset: Option<int>,
    systemPrompt: Option<string>,
    preferences: Preferences)

  /** The profile has every server-side counter and the system prompt null. */
  predicate CountersCleared(p: UserProfile) {
    && p.messageCount.None? && p.dailyMessageCount.None? && p.dailyReset.None?
    && p.lastActiveAt.None? && p.dailyProMessageCount.None? && p.dailyProReset.None?
    && p.systemPrompt.None?
  }

  /**
   * convertToUserProfile (identical in both files): id, email and the flags
   * copied, an empty or missing display name shown as "Local User", an empty
   * or missing image as "".
   */
  function ConvertToUserProfile(u: LocalUser): (p: UserProfile)
    ensures p.id == u.id && p.email == u.email && p.preferences == u.preferences
    ensures p.anonymous == u.anonymous && p.createdAt == u.createdAt
    ensures p.premium == u.premium && p.favoriteModels == u.favoriteModels
    ensures p.displayName == (if Present(u.displayName) then u.displayName.value else "Local User")
    ensures p.profileImage == (if Present(u.profileImage) then u.profileImage.value else "")
    ensures CountersCleared(p)
  {
    UserProfile(u.id, u.email, OrElse(u.displayName, "Local User"), OrElse(u.profileImage, ""),
                u.anonymous, u.createdAt, u.premium, u.favoriteModels,
                None, None, None, None, None, None, None, u.preferences)
  }

  /**
   * getUserProfile: outside a browser the fixed "local-user" profile; in one
   * the conversion of the get-or-create local user.
   */
  function GetUserProfile(window: bool, ls: Storage, freshId: string, now: int): (r: (UserProfile, Storage))
    ensures !window ==> r.1 == ls && CountersCleared(r.0)
    ensures !window ==> var p := r.0;
              && p.id == "local-user" && p.email == "local@zola.chat" && p.displayName == "Local User"
              && p.profileImage == "" && p.anonymous == Some(false) && p.createdAt == Some(now)
              && p.premium == Some(false) && p.favoriteModels == Some(["claude-3-5-sonnet-20241022"])
              && p.preferences == DefaultPreferences
    ensures window ==> var (u, ls1) := GetOrCreateUser(window, ls, freshId, now);
                       r == (ConvertToUserProfile(u), ls1)
  {
    if !window then
      (UserProfile("local-user", "local@zola.chat", "Local User", "", Some(false), Some(now), Some(false),
                   Some(["claude-3-5-sonnet-20241022"]), None, None, None, None, None, None, None,
                   DefaultPreferences), ls)
    else
      var (u, ls1) := GetOrCreateUser(window, ls, freshId, now);
      (ConvertToUserProfile(u), ls1)
  }

  datatype UserState = UserState(user: Option<UserProfile>, isLoading: bool)

  /** refreshUser, and the mount effect: the get-or-create user, converted; loading ends. */
  function RefreshUser(window: bool, ls: Storage, freshId: string, now: int): (r: (UserState, Storage))
    ensures r.0.user.Some? && !r.0.isLoading
    ensures GetUser(window, ls).Some? ==>
              r == (UserState(Some(ConvertToUserProfile(GetUser(window, ls).value)), false), ls)
    ensures GetUser(window, ls).None? ==>
              && r.0.user.value.id == freshId && r.0.user.value.createdAt == Some(now)
              && r.0.user.value.preferences == DefaultPreferences
              && (window ==> GetUser(window, r.1) == Some(CreateUser(window, ls, freshId, now).0))
              && (!window ==> r.1 == ls)
  {
    var (u, ls1) := GetOrCreateUser(window, ls, freshId, now);
    (UserState(Some(ConvertToUserProfile(u)), false), ls1)
  }

  /** The fields `updateUser` takes from its argument; `None` is null or undefined. */
  datatype ProfileUpdate = ProfileUpdate(
    displayName: Option<string>,
    profileImage: Option<string>,
    favoriteModels: Option<seq<string>>,
    preferences: Option<Preferences>)

  /** The stored user with each given field replaced (`??`: a given empty string still replaces). */
  function Merge(u: LocalUser, updates: ProfileUpdate): (r: LocalUser)
    ensures r.id == u.id && r.email == u.email && r.createdAt == u.createdAt
    ensures r.anonymous == u.anonymous && r.premium == u.premium
    ensures r.displayName == (if updates.displayName.Some? then updates.displayName else u.displayName)
    ensures r.profileImage == (if updates.profileImage.Some? then updates.profileImage else u.profileImage)
    ensures r.favoriteModels == (if updates.favoriteModels.Some? then updates.favoriteModels else u.favoriteModels)
    ensures r.preferences == (if updates.preferences.Some? then updates.preferences.value else u.preferences)
  {
    LocalUser(u.id, if updates.displayName.Some? then updates.displayName else u.displayName,
              u.email, u.createdAt, u.anonymous,
              if updates.favoriteModels.Some? then updates.favoriteModels else u.favoriteModels,
              u.premium,
              if updates.profileImage.Some? then updates.profileImage else u.profileImage,
              updates.preferences.GetOr(u.preferences))
  }

  /**
   * updateUser: a no-op unless the profile in memory has an id. Then the
   * stored user, when there is one, gets the update merged in, is written
   * back and shown; loading ends either way.
   */
  function UpdateUser(window: bool, st: UserState, ls: Storage, updates: ProfileUpdate): (r: (UserState, Storage))
    ensures !(st.user.Some? && st.user.value.id != "") ==> r == (st, ls)
    ensures st.user.Some? && st.user.value.id != "" && GetUser(window, ls).None? ==>
              r == (st.(isLoading := false), ls)
    ensures st.user.Some? && st.user.value.id != "" && GetUser(window, ls).Some? ==>
              var merged := Merge(GetUser(window, ls).value, updates);
              r == (UserState(Some(ConvertToUserProfile(merged)), false), SetUser(window, ls, merged))
  {
    if !(st.user.Some? && st.user.value.id != "") then (st, ls)
    else
      var current := GetUser(window, ls);
      if current.None? then (st.(isLoading := false), ls)
      else
        var merged := Merge(current.value, updates);
        (UserState(Some(ConvertToUserProfile(merged)), false), SetUser(window, ls, merged))
  }

  /** signOut: storage is cleared, then a new user is created, stored and shown. */
  function SignOut(window: bool, ls: Storage, freshId: string, now: int): (r: (UserState, Storage))
    ensures r.0.user.Some? && !r.0.isLoading
    ensures var p := r.0.user.value;
            && p.id == freshId && p.email == "local@zola.chat" && p.displayName == "Local User"
            && p.createdAt == Some(now) && p.favoriteModels == Some([]) && p.preferences == DefaultPreferences
            && CountersCleared(p)
    ensures !window ==> r.1 == ls
    ensures window ==> GetUser(window, r.1).Some? && r.0.user == Some(ConvertToUserProfile(GetUser(window, r.1).value))
    ensures window ==> PreferencesKey !in r.1 && ApiKeysKey !in r.1
    ensures forall k :: k in r.1 ==> k in ls || k == UserKey
  {
    var (u, ls1) := CreateUser(window, ClearAll(window, ls), freshId, now);
    (UserState(Some(ConvertToUserProfile(u)), false), ls1)
  }

  // ---------------------------------------------------------------------
  // Properties

  /** After a refresh in a browser, memory shows exactly the user storage holds. */
  lemma RefreshAgreesWithStore(ls: Storage, freshId: string, now: int)
    ensures var (st, ls1) := RefreshUser(true, ls, freshId, now);
            GetUser(true, ls1).Some? && st.user == Some(ConvertToUserProfile(GetUser(true, ls1).value))
  {
  }

  /**
   * After signing out in a browser the shown user is the fresh one, with the
   * default preferences, no favourite models and no API keys left behind.
   */
  lemma SignOutStartsFresh(ls: Storage, freshId: string, now: int)
    ensures var (st, ls1) := SignOut(true, ls, freshId, now);
            && st.user.Some? && st.user.value.id == freshId
            && st.user.value.displayName == "Local User"
            && st.user.value.favoriteModels == Some([])
            && st.user.value.preferences == DefaultPreferences
            && GetUser(true, ls1) == Some(CreateUser(true, ClearAll(true, ls), freshId, now).0)
            && GetApiKeys(true, ls1) == map[]
            && GetPreferences(true, ls1) == DefaultPreferences
  {
  }

  /** An update keeps the identity fields of the stored user: id, email, creation time and the flags. */
  lemma UpdateKeepsIdentity(st: UserState, ls: Storage, updates: ProfileUpdate)
    requires st.user.Some? && st.user.value.id != "" && GetUser(true, ls).Some?
    ensures var (st1, ls1) := UpdateUser(true, st, ls, updates);
            var before := GetUser(true, ls).value;
            var after := GetUser(true, ls1).value;
            && after.id == before.id && after.email == before.email && after.createdAt == before.createdAt
            && after.anonymous == before.anonymous && after.premium == before.premium
            && st1.user == Some(ConvertToUserProfile(after))
  {
  }

  /** An update that gives no field writes the stored user back unchanged. */
  lemma EmptyUpdateChangesNothing(st: UserState, ls: Storage)
    requires st.user.Some? && st.user.value.id != "" && GetUser(true, ls).Some?
    ensures UpdateUser(true, st, ls, ProfileUpdate(None, None, None, None)).1 == ls
  {
    var u := GetUser(true, ls).value;
    assert Merge(u, ProfileUpdate(None, None, None, None)) == u;
  }
}
